=== FILE: README.md ===
# JobTrackerPro core, modelled in Dafny

JobTrackerPro is a browser-local tracker for job applications. This project
models the pure data transformations under its React screens:

- the application collection: add, update, delete, set status, and load from storage;
- the owned sub-collections: the interviews and contacts held by each
  application, edited by upsert and delete by id;
- the analytics aggregation: per-status, per-month and per-company counts,
  rates and the average response time;
- the three analytics charts: salary ranges, time to response and the conversion funnel;
- the calendar grid of a month and the interviews listed on it;
- the contact and application list filters and sort orders;
- the pipe-delimited analytics report;
- the settings record: defaults, updates, the storage event and currency formatting;
- the interview and contact forms.

Everything is a pure function. "Now", fresh ids, the local calendar of a
timestamp, date formatting and JSON parsing are parameters. Timestamps are
whole milliseconds, and rates, averages and bar widths are exact rationals
(`real`).

Modules, from the bottom up:

- `Wrappers`, `Seqs`, `Sorting`, `Text` hold the shared vocabulary:
  - `Option`;
  - filters and counts;
  - a stable insertion sort under a total preorder, standing in for
    `Array.prototype.sort`;
  - lower-casing, `includes`, `replace`, `join`, `split` and the
    character order used for `localeCompare`.
- `Types` holds the records of `src/types/index.ts`. `Status` names
  the "interview" and "offer" states `Interviewing` and `Offered`;
  `StatusName` gives back the stored strings.
- `Repository` holds `useApplications`.
- `Grouping` holds the `reduce` into an object of counts, modelled as a
  sequence of key/count entries in first-insertion order. That is the order
  `Object.entries` gives unless a key is integer-like (see "## Left out").
- `Aggregation` holds `useAnalytics`.
- `Bars` holds the bar geometry shared by the charts.
- `DigitGroups` holds the scanner for the regular expression
  `/\d{1,3}(?:,\d{3})*/g`, plus `parseInt` and number grouping.
- `Salary`, `ResponseTime` and `Funnel` hold the three charts.
- `Owned` holds the shared shape of the interview and contact edits.
- `Calendar` and `Contacts` hold the two views that edit the owned lists.
- `ApplicationList` and `AnalyticsPage` hold the application list and the
  analytics page.
- `Settings` holds `useSettings`.
- `InterviewForm` and `ContactForm` hold the two forms.

The comment in `formatCurrency` says it handles "120000-150000". The regular
expression it uses takes at most three digits before a comma, so
"120000" yields the two groups "120" and "000". The model follows the code
(`Salary.ParseCommaFree`), not the comment.

## Model

| member | source | states |
|---|---|---|
| Repository.Create | src/hooks/useApplications.ts:119-127 | the new record takes the fresh id, applied and updated dates equal to now and empty contact, interview and document lists, whatever the input held; every other field is the input's |
| Repository.AddApplication | src/hooks/useApplications.ts:118-130 | exactly one record is appended at the end and every earlier record keeps its place and contents |
| Repository.Merge | src/hooks/useApplications.ts:135 | every field the patch supplies (even id or applied date, or an explicit `undefined`) replaces the old value, every other field is kept, and `lastUpdated` is forced to now; an empty patch changes only `lastUpdated` |
| Repository.MergeIdempotent | src/hooks/useApplications.ts:135 | applying the same update twice at the same time gives the record a single application gives |
| Repository.UpdateApplication | src/hooks/useApplications.ts:132-139 | length and order are kept, records with another id are unchanged and each matching record is merged |
| Repository.UpdateAbsent | src/hooks/useApplications.ts:133-137 | updating an id no record has leaves the collection unchanged |
| Repository.UpdateIdempotent | src/hooks/useApplications.ts:132-139 | applying the same update twice at the same instant equals applying it once |
| Repository.DeleteApplication | src/hooks/useApplications.ts:141-144 | the result holds exactly the records with another id, in their order, and is shorter by the number of records with the id |
| Repository.DeleteAbsent | src/hooks/useApplications.ts:141-144 | deleting an absent id is a no-op |
| Repository.AddThenDelete | src/hooks/useApplications.ts:118-144 | adding a record with an unused id and deleting that id restores the collection |
| Repository.UpdateStatus | src/hooks/useApplications.ts:146-148 | only `status` and `lastUpdated` of the matching records change |
| Repository.AddKeepsWellFormed | src/hooks/useApplications.ts:118-130 | with a fresh id, adding keeps ids distinct and applied dates no later than updated dates |
| Repository.UpdateStatusKeepsWellFormed | src/hooks/useApplications.ts:146-148 | a status change at a time after every applied date keeps the collection well formed |
| Repository.DeleteKeepsWellFormed | src/hooks/useApplications.ts:141-144 | deleting keeps the collection well formed |
| Repository.FindApplication | src/components/Calendar/Calendar.tsx:120 | `find` gives nothing exactly when no record has the id, otherwise the first record that has it |
| Repository.Rehydrate | src/hooks/useApplications.ts:91-103 | a missing interview or document list becomes empty, present lists and the contacts are kept, and nothing else changes |
| Repository.Load | src/hooks/useApplications.ts:86-109 | empty storage installs the sample data; otherwise record `i` of the result is stored record `i` rehydrated, with missing interview and document lists made empty |
| Repository.LoadIdempotent | src/hooks/useApplications.ts:86-109 | rehydrating what was already loaded changes nothing |
| Repository.SampleWellFormed | src/hooks/useApplications.ts:7-80 | the sample records have distinct ids and applied dates no later than their updated dates |
| Grouping.Lookup | src/hooks/useAnalytics.ts:40 | reading a key of the count object gives nothing exactly when the key is absent, otherwise its entry's count |
| Grouping.TallySpec | src/hooks/useAnalytics.ts:69-72 | the count object has one entry per distinct key, each entry counts the records with its key, every record's key is present and the counts sum to the number of records |
| Grouping.TallyAbsent | src/hooks/useAnalytics.ts:69-72 | a key missing from the count object belongs to no record |
| Grouping.FillMissingShape | src/hooks/useAnalytics.ts:44-52 | filling in missing keys keeps the existing entries, adds each missing key once and keeps keys distinct |
| Grouping.FillMissingSum | src/hooks/useAnalytics.ts:48-52 | the added entries are zero, so the total is unchanged |
| Aggregation.UseAnalytics | src/hooks/useAnalytics.ts:4-102 | the total is the record count; an empty input gives zero rates, zero average and empty series; otherwise the response and interview rates are the percentage of "interview" or "offer" records, the offer rate that of "offer" records, and the average, month series and top companies are those of `AverageResponseTime`, `MonthCounts` and `TopCompanies`; every status maps to its record count, the status counts sum to the total, and 0 <= offer rate <= response rate <= 100 |
| Aggregation.StatusCountsSpec | src/hooks/useAnalytics.ts:39-52 | the status map has each status once, maps it to its record count and sums to the total |
| Aggregation.StatusCountOf | src/hooks/useAnalytics.ts:39-52 | each status maps to the number of records in it |
| Aggregation.EmptyStatusCountsSpec | src/hooks/useAnalytics.ts:15-21 | the empty-input status map has the five statuses, all zero |
| Aggregation.MonthLeTotal | src/hooks/useAnalytics.ts:66 | the month comparator is a total preorder |
| Aggregation.MonthCountsOrder | src/hooks/useAnalytics.ts:55-66 | the month series is strictly ascending by month |
| Aggregation.MonthCountsExact | src/hooks/useAnalytics.ts:55-66 | each month's count is the number of records applied in it, at least one, and the counts sum to the total |
| Aggregation.MonthCountsCover | src/hooks/useAnalytics.ts:55-62 | every record's month appears in the series |
| Aggregation.CountGeTotal | src/hooks/useAnalytics.ts:76 | the company comparator is a total preorder |
| Aggregation.TopCompaniesOrder | src/hooks/useAnalytics.ts:74-77 | at most five companies, each once, by non-increasing count |
| Aggregation.TopCompaniesExact | src/hooks/useAnalytics.ts:69-77 | each listed count is the number of records of that company |
| Aggregation.TopCompaniesCover | src/hooks/useAnalytics.ts:69-77 | a company left out has no more records than the fifth listed one |
| Aggregation.AverageResponseNone | src/hooks/useAnalytics.ts:87-89 | when every record is still "applied" the average response time is 0 |
| Aggregation.AverageResponseBounds | src/hooks/useAnalytics.ts:80-89 | otherwise the average lies between any bounds on the responded records' day counts |
| Aggregation.AverageMatchesChart | src/hooks/useAnalytics.ts:80-89 | when some record is past "applied", the time-to-response chart shows data and its average equals the aggregator's |
| Types.CeilDiv | src/hooks/useAnalytics.ts:84 | `Math.ceil(a / b)` is the least whole number r with a <= b * r |
| Types.ResponseDays | src/components/Analytics/TimeToResponseChart.tsx:13-14 | the day count is the least whole number of 86,400,000 ms days covering the gap between applying and the last update |
| Types.OrEmpty | src/components/Analytics/Analytics.tsx:64 | `s \|\| ""` is the string when it is present and non-empty, otherwise "" |
| Types.StartingApplicationId | src/components/Calendar/InterviewForm.tsx:28 | a selected application's non-empty id wins, then the carried id, then "" |
| ResponseTime.ResponseTimes | src/components/Analytics/TimeToResponseChart.tsx:10-16 | entry `k` is the day count of the `k`-th record that is not "applied", so there is one per such record, in list order |
| ResponseTime.DayBucketCounts | src/components/Analytics/TimeToResponseChart.tsx:30-43 | entry `i` is the number of response times inside day range `i` (1-3, 4-7, 8-14, 15-28, 29+), bounds included |
| ResponseTime.ResponseTimesEmpty | src/components/Analytics/TimeToResponseChart.tsx:18 | there are no response times exactly when every record is "applied" |
| ResponseTime.AverageDaysBounds | src/components/Analytics/TimeToResponseChart.tsx:27 | the mean lies between any bounds on the day counts |
| ResponseTime.DayBucketsPartition | src/components/Analytics/TimeToResponseChart.tsx:30-43 | the closed day ranges are pairwise disjoint and a day count lies in one of them exactly when it is at least 1 |
| ResponseTime.BucketsOfDay | src/components/Analytics/TimeToResponseChart.tsx:38-43 | a day count lies in exactly one range when positive and in none otherwise |
| ResponseTime.DayBucketTotal | src/components/Analytics/TimeToResponseChart.tsx:38-43 | the bucket counts add up to the number of positive day counts, at most the number of response times |
| ResponseTime.DayBucketTotalAll | src/components/Analytics/TimeToResponseChart.tsx:38-43 | the bucket counts add up to the number of response times exactly when every day count is at least 1 |
| ResponseTime.TimeToResponse | src/components/Analytics/TimeToResponseChart.tsx:9-75 | the no-data branch is taken exactly when every record is "applied"; otherwise the average is the mean of the response times, the counts are their per-range counts (summing to at most the responded records), the widths are the bucket widths of those counts, and a bucket is non-empty exactly when its bar is at least 5% wide |
| Bars.MaxCount | src/components/Analytics/TimeToResponseChart.tsx:45 | `Math.max` of the counts is one of them and no count exceeds it |
| Bars.Percentage | src/components/Analytics/TimeToResponseChart.tsx:58 | count / whole * 100, or 0 for a zero whole; between 0 and 100 when count <= whole |
| Bars.PercentageMonotone | src/components/Analytics/TimeToResponseChart.tsx:58 | a larger count never gives a smaller percentage |
| Bars.BucketWidth | src/components/Analytics/TimeToResponseChart.tsx:71 | the bar is the percentage or 5, whichever is larger, for a non-empty bucket and 0 for an empty one, and never over 100 |
| Bars.BucketWidths | src/components/Analytics/SalaryAnalysisChart.tsx:84-98 | bar `i` is `max(count / maxCount * 100, 5)` for a non-empty bucket and 0 for an empty one, so every bar is within 0..100, at least 5 exactly for non-empty buckets, and the largest non-empty bucket is full width |
| Bars.StageWidth | src/components/Analytics/ConversionFunnel.tsx:30-31 | a funnel bar is max(percentage, 5), so at least 5 and at most 100 |
| Bars.MeanBounds | src/components/Analytics/SalaryAnalysisChart.tsx:37 | a mean of values within bounds is within the bounds |
| DigitGroups.Matches | src/components/Analytics/SalaryAnalysisChart.tsx:18 | every match is one to three digits followed by zero or more ",ddd" groups |
| DigitGroups.MatchesCoverDigits | src/components/Analytics/SalaryAnalysisChart.tsx:18 | the matches hold every digit of the text, in order, and no other digit |
| DigitGroups.RemoveCommas | src/components/Analytics/SalaryAnalysisChart.tsx:20 | `replace(/,/g, '')` leaves no comma and keeps every other character of the input as often as it occurs there |
| DigitGroups.GroupedValue | src/hooks/useSettings.ts:123 | an en-US grouped number is one match of the pattern and reads back as the number |
| DigitGroups.RangeTextMatches | src/hooks/useSettings.ts:123 | a range written as symbol, number, " - ", symbol, number, with a digit-free symbol, yields exactly the two grouped numbers as matches |
| DigitGroups.DigitRun | src/components/Calendar/InterviewForm.tsx:52 | the leading run of digits `parseInt` reads is all digits and stops at the first non-digit |
| DigitGroups.DecimalValue | src/components/Calendar/InterviewForm.tsx:52 | a written whole number reads back as itself |
| DigitGroups.ParseNumberText | src/components/Calendar/InterviewForm.tsx:52 | `parseInt` of a written integer, negative ones included, is that integer |
| Salary.ParseSalary | src/components/Analytics/SalaryAnalysisChart.tsx:13-26 | a range is read exactly when the salary is present, non-empty and has at least two digit groups, and then its minimum is the value of the first group and its maximum that of the second |
| Salary.ParseRangeText | src/components/Analytics/SalaryAnalysisChart.tsx:17-22 | a range written with a digit-free currency symbol reads back as its minimum and maximum |
| Salary.ParseNoDigits | src/components/Analytics/SalaryAnalysisChart.tsx:19-24 | a salary without digits gives no range |
| Salary.ParseCommaFree | src/components/Analytics/SalaryAnalysisChart.tsx:18-22 | "120000" reads as the range 120 to 0 |
| Salary.CommaFreeMatches | src/components/Analytics/SalaryAnalysisChart.tsx:18 | the matches of "120000" are "120" and "000" |
| Salary.SalaryRanges | src/components/Analytics/SalaryAnalysisChart.tsx:13-26 | entry `k` is the range read from the `k`-th record with a readable salary, so there is one per such record, in list order |
| Salary.SalaryBucketCounts | src/components/Analytics/SalaryAnalysisChart.tsx:43-56 | entry `i` is the number of ranges whose midpoint lies in salary bucket `i`, lower bound included and upper bound excluded |
| Salary.MinSalary | src/components/Analytics/SalaryAnalysisChart.tsx:38 | the minimum is one range's minimum and no range's minimum is lower |
| Salary.MaxSalary | src/components/Analytics/SalaryAnalysisChart.tsx:39 | the maximum is one range's maximum and no range's maximum is higher |
| Salary.AverageWithinExtremes | src/components/Analytics/SalaryAnalysisChart.tsx:37-39 | when every range has min <= max, the average midpoint lies between the overall minimum and maximum |
| Salary.SalaryBucketsPartition | src/components/Analytics/SalaryAnalysisChart.tsx:43-56 | the half-open buckets are pairwise disjoint and a range lies in one exactly when its midpoint is at least 50000 |
| Salary.BucketsOfRange | src/components/Analytics/SalaryAnalysisChart.tsx:51-56 | a range is counted once when its midpoint is at least 50000 and not at all otherwise |
| Salary.SalaryBucketTotal | src/components/Analytics/SalaryAnalysisChart.tsx:51-56 | the bucket counts add up to the number of ranges with midpoint at least 50000 |
| Salary.SalaryAnalysis | src/components/Analytics/SalaryAnalysisChart.tsx:10-101 | the no-data branch is taken exactly when no salary is readable; otherwise the average, minimum, maximum and bucket counts are those of the ranges, the widths are the bucket widths of those counts, the counts sum to at most the number of ranges, every range lies within the minimum and maximum, and a bucket is non-empty exactly when its bar is at least 5% wide |
| Funnel.FunnelStage | src/components/Analytics/ConversionFunnel.tsx:29-31 | a stage keeps its name and count and its bar is `max(percentage, 5)`: at least both, and equal to one of them, so between 5 and 100 |
| Funnel.StagesPartitionResponded | src/components/Analytics/ConversionFunnel.tsx:10-11 | "interview" and "offer" records together are the records past the application stage, at most the total |
| Funnel.ConversionFunnel | src/components/Analytics/ConversionFunnel.tsx:8-57 | the no-data branch is taken exactly for no records; otherwise three stages count all records, "interview" records only, and "offer" records, the last two together at most the first, the first bar full and every bar `max(percentage of the total, 5)`, between 5 and 100 |
| Owned.Tag | src/components/Calendar/Calendar.tsx:32-35 | each item of an application is tagged with that application, in order |
| Owned.FlattenLength | src/components/Calendar/Calendar.tsx:31-36 | the flattened list has one entry per item of every application |
| Owned.FlattenMembers | src/components/Calendar/Calendar.tsx:31-36 | an entry is in the flattened list exactly when its owner is an application and its item is one of the owner's |
| Owned.SavedId | src/components/Calendar/Calendar.tsx:101 | an edited item keeps its non-empty id, otherwise the fresh id is used |
| Owned.Upsert | src/components/Calendar/Calendar.tsx:104-108 | when editing, the length is kept and every item with the editing id is replaced; otherwise the saved item is appended |
| Owned.ReplaceWhere | src/components/Calendar/Calendar.tsx:105-107 | items with the id are replaced and the others kept, length unchanged |
| Owned.ReplaceAbsent | src/components/Calendar/Calendar.tsx:105-107 | replacing an id no item has changes nothing |
| Owned.ReplaceIdempotent | src/components/Calendar/Calendar.tsx:105-107 | replacing twice by an item carrying the id equals replacing once |
| Owned.RemoveWhere | src/components/Calendar/Calendar.tsx:123-125 | the result holds exactly the items with another id, each as many times as before, in order |
| Owned.RemoveAbsent | src/components/Calendar/Calendar.tsx:123-125 | removing an id no item has changes nothing |
| Owned.RemoveAfterReplace | src/components/Calendar/Calendar.tsx:104-125 | removing an id after replacing it is the same as removing it directly |
| Owned.AppendThenRemove | src/components/Calendar/Calendar.tsx:108-125 | appending an item with an unused id and removing that id restores the list |
| Calendar.AllInterviewsSpec | src/components/Calendar/Calendar.tsx:31-36 | the interview list has one entry per interview, a missing list counting as empty, each tagged with its application |
| Calendar.YearTermStep | src/components/Calendar/Calendar.tsx:44 | from one year to the next the weekday shifts by 1, or by 2 into a leap year |
| Calendar.NextMonthWeekday | src/components/Calendar/Calendar.tsx:41-44 | the next month starts the length of this month later in the week |
| Calendar.GetDaysInMonth | src/components/Calendar/Calendar.tsx:38-59 | the grid is one empty cell per weekday before the 1st, then days 1 to n in order |
| Calendar.CellColumn | src/components/Calendar/Calendar.tsx:46-56 | each day's cell falls in the column of its weekday |
| Calendar.InterviewsForDate | src/components/Calendar/Calendar.tsx:61-70 | the result holds exactly the interviews on that calendar day, each as many times as before, in order |
| Calendar.DateLeTotal | src/components/Calendar/Calendar.tsx:140 | the date comparator is a total preorder |
| Calendar.UpcomingOrder | src/components/Calendar/Calendar.tsx:138-141 | at most five upcoming interviews, all from now on and ascending by date |
| Calendar.UpcomingCover | src/components/Calendar/Calendar.tsx:138-141 | an interview from now on that is left out is no earlier than the fifth listed one |
| Calendar.WithId | src/components/Calendar/Calendar.tsx:99-102 | the saved interview has the given id and every form field unchanged, and it is the only interview that does |
| Calendar.SaveEditIdempotent | src/components/Calendar/Calendar.tsx:104-107 | saving the same edit twice equals saving it once |
| Calendar.SaveNewThenDelete | src/components/Calendar/Calendar.tsx:108-125 | saving a new interview under an unused id and deleting it restores the list |
| Calendar.SaveInterview | src/components/Calendar/Calendar.tsx:96-117 | with no selected application nothing changes; otherwise only the selected application gets the upserted interviews and a new update time |
| Calendar.DeleteInterview | src/components/Calendar/Calendar.tsx:119-130 | an unknown application id is a no-op; otherwise every application with the id becomes the first such application's interview list with the id's interviews removed (the rest kept, in order), updated now with no other field changed, while the others are unchanged |
| Contacts.AllContactsSpec | src/components/Contacts/Contacts.tsx:31-36 | the contact list has one entry per contact, a missing list counting as empty, each tagged with its application |
| Contacts.HiringManagerNeedle | src/components/Contacts/Contacts.tsx:45 | the "hiring-manager" filter looks for "hiring manager" |
| Contacts.RecruiterNeedle | src/components/Contacts/Contacts.tsx:45 | the "recruiter" filter looks for "recruiter" |
| Contacts.EmployeeNeedle | src/components/Contacts/Contacts.tsx:45 | the "employee" filter looks for "employee" |
| Contacts.RoleMatch | src/components/Contacts/Contacts.tsx:44-45 | a role passes a filter exactly when its lower-cased text contains the filter's words |
| Contacts.FilteredContacts | src/components/Contacts/Contacts.tsx:38-48 | the result holds exactly the contacts matching both the search and the role filter, each as many times as before, as an order-keeping subsequence |
| Contacts.UnfilteredShowsAll | src/components/Contacts/Contacts.tsx:38-48 | an empty search with the "all" filter shows every contact in order |
| Contacts.SearchIgnoresCase | src/components/Contacts/Contacts.tsx:39-42 | searching for the lower-cased term shows the same contacts |
| Contacts.RoleFilterNarrows | src/components/Contacts/Contacts.tsx:44-47 | any role filter shows a subsequence of what "all" shows |
| Contacts.WithId | src/components/Contacts/Contacts.tsx:65-68 | the saved contact has the given id and every form field unchanged, and it is the only contact that does |
| Contacts.SaveEditIdempotent | src/components/Contacts/Contacts.tsx:70-73 | saving the same edit twice equals saving it once |
| Contacts.SaveNewThenDelete | src/components/Contacts/Contacts.tsx:74-91 | saving a new contact under an unused id and deleting it restores the list |
| Contacts.SaveContact | src/components/Contacts/Contacts.tsx:62-83 | with no selected application nothing changes; otherwise only the selected application gets the upserted contacts and a new update time |
| Contacts.DeleteContact | src/components/Contacts/Contacts.tsx:85-96 | an unknown application id is a no-op; otherwise every application with the id becomes the first such application's contact list with the id's contacts removed (the rest kept, in order), updated now with no other field changed, while the others are unchanged |
| ApplicationList.OrderTotal | src/components/Applications/ApplicationList.tsx:38-49 | each of the three comparators is a total preorder |
| ApplicationList.ListedCounts | src/components/Applications/ApplicationList.tsx:25-51 | the list is a permutation of the records matching the search, status and priority filters |
| ApplicationList.ListedMembers | src/components/Applications/ApplicationList.tsx:25-35 | a record is listed exactly when it is in the input and matches all three filters |
| ApplicationList.ListedSorted | src/components/Applications/ApplicationList.tsx:38-49 | the list is ordered by the chosen comparator |
| ApplicationList.ListedNewestFirst | src/components/Applications/ApplicationList.tsx:40-41 | sorting by date gives non-increasing applied dates |
| ApplicationList.UnfilteredIsPermutation | src/components/Applications/ApplicationList.tsx:26-32 | an empty search with both filters at "all" lists every record |
| ApplicationList.StatusNamesInPipelineOrder | src/components/Applications/ApplicationList.tsx:44-45 | sorting by status name follows the order applied, interview, offer, rejected, withdrawn |
| AnalyticsPage.InRange | src/components/Analytics/Analytics.tsx:52 | the result holds exactly the records applied at or after the cutoff, each as many times as before, in order |
| AnalyticsPage.LaterCutoffKeepsFewer | src/components/Analytics/Analytics.tsx:33-53 | a later cutoff keeps a subsequence of what an earlier one keeps |
| AnalyticsPage.EarlyCutoffKeepsAll | src/components/Analytics/Analytics.tsx:52 | a cutoff no later than every applied date keeps everything |
| AnalyticsPage.ColumnsPlain | src/components/Analytics/Analytics.tsx:57 | the column names are letters and spaces only |
| AnalyticsPage.HeaderColumns | src/components/Analytics/Analytics.tsx:57 | the header splits on "\|" into the eight column names |
| AnalyticsPage.HeaderOneLine | src/components/Analytics/Analytics.tsx:57 | the header holds no line break |
| AnalyticsPage.ReportFields | src/components/Analytics/Analytics.tsx:58-66 | eight fields per record, an absent or empty salary or notes giving an empty field |
| AnalyticsPage.ReportRows | src/components/Analytics/Analytics.tsx:58-67 | one row per record, in list order |
| AnalyticsPage.ReportLines | src/components/Analytics/Analytics.tsx:56-68 | the header first, then one row per record in list order |
| AnalyticsPage.RowFields | src/components/Analytics/Analytics.tsx:58-67 | a row whose fields hold no "\|" splits back into its eight fields |
| AnalyticsPage.ReportHasLinePerRecord | src/components/Analytics/Analytics.tsx:56-68 | when no field holds a line break, the report splits into exactly 1 + n lines, header first |
| AnalyticsPage.ActiveSplit | src/components/Analytics/Analytics.tsx:141 | the active records are the "applied" ones plus the "interview" ones |
| AnalyticsPage.ActiveCountSpec | src/components/Analytics/Analytics.tsx:141 | the active card equals the number of applied or interviewing records, at most the total |
| Settings.UpdateSetting | src/hooks/useSettings.ts:100-102 | the key takes the value and every other key is unchanged |
| Settings.OverlayGet | src/hooks/useSettings.ts:47 | keys present in the object spread take its values, the others keep theirs |
| Settings.UpdateSettingsSpec | src/hooks/useSettings.ts:104-106 | only the supplied keys are overwritten |
| Settings.MergeGet | src/hooks/useSettings.ts:104-106 | a later patch's keys win over an earlier one's |
| Settings.UpdateNothing | src/hooks/useSettings.ts:104-106 | an empty patch changes nothing |
| Settings.UpdateSettingsIdempotent | src/hooks/useSettings.ts:104-106 | applying the same patch twice equals applying it once |
| Settings.UpdateSettingsCompose | src/hooks/useSettings.ts:104-106 | two updates in a row equal one update with the merged patch |
| Settings.UpdateSettingIsUpdate | src/hooks/useSettings.ts:100-106 | a single-key update equals a patch update supplying only that key |
| Settings.Full | src/hooks/useSettings.ts:57 | the stored form of a settings record supplies every key with its value |
| Settings.OverlayFull | src/hooks/useSettings.ts:47 | overlaying a full stored record on any base gives that record back |
| Settings.InitialSettingsSpec | src/hooks/useSettings.ts:43-53 | a key takes the stored value when storage parses and holds it, and its default otherwise, including empty or unparsable storage |
| Settings.ResetIsFreshStart | src/hooks/useSettings.ts:108-110 | resetting gives what a start with empty storage gives |
| Settings.OnStorageEvent | src/hooks/useSettings.ts:68-77 | an event for another key, without a new value, or with unparsable JSON leaves the settings unchanged |
| Settings.StorageEventAdopts | src/hooks/useSettings.ts:68-77 | an event carrying a stored settings record adopts that record |
| Settings.StorageEventIsReload | src/hooks/useSettings.ts:68-77 | a parsable event ignores the current settings and gives what loading that value at start gives |
| Settings.ConfigsWellFormed | src/hooks/useSettings.ts:29-40 | every configured currency has a non-empty, digit-free symbol and a non-empty name |
| Settings.CurrencySymbol | src/hooks/useSettings.ts:170-172 | an unknown code gives "$", a known one its configured symbol |
| Settings.CurrencyName | src/hooks/useSettings.ts:174-176 | an unknown code gives "US Dollar", a known one its configured name |
| Settings.DefaultCurrency | src/hooks/useSettings.ts:16-40 | the default currency shows "$" and "US Dollar" |
| Settings.FormatCurrency | src/hooks/useSettings.ts:113-132 | an unknown code gives "$" and the amount as written; a string without digit groups gives the symbol and the string |
| Settings.FormatSalaryRange | src/hooks/useSettings.ts:119-123 | a string with two or more groups becomes the range of its first two groups, written with grouping |
| Settings.FormatSalaryRoundTrip | src/hooks/useSettings.ts:113-132 | the salary chart reads the same range from a formatted salary as from the original |
| InterviewForm.InitialForm | src/components/Calendar/InterviewForm.tsx:20-29 | a new form is "Phone Screen", no date, 60 minutes, rating 0 and empty text, and the application id is chosen by `StartingApplicationId` |
| InterviewForm.Submit | src/components/Calendar/InterviewForm.tsx:31-46 | submitting fails exactly when the date is empty; otherwise the payload holds exactly the form's type, parsed date, duration, interviewer, notes, feedback and rating |
| InterviewForm.EditRoundTrip | src/components/Calendar/InterviewForm.tsx:20-46 | opening a fully filled interview and submitting it unchanged gives the same interview back under its id |
| InterviewForm.HandleChange | src/components/Calendar/InterviewForm.tsx:48-54 | the named field changes, through `parseInt(value) \|\| 0` for the duration and verbatim otherwise, and every other field keeps its value |
| InterviewForm.DurationRoundTrip | src/components/Calendar/InterviewForm.tsx:52 | typing a written whole number into the duration stores that number |
| InterviewForm.ClearedDateBlocksSubmit | src/components/Calendar/InterviewForm.tsx:33-36 | after the date is cleared, submitting fails |
| ContactForm.InitialForm | src/components/Contacts/ContactForm.tsx:20-27 | a new form has every field empty, and the application id is chosen by `StartingApplicationId` |
| ContactForm.Submit | src/components/Contacts/ContactForm.tsx:29-42 | submitting fails exactly when the application id is empty; otherwise the payload holds exactly name, role, email, linkedin and notes |
| ContactForm.EditRoundTrip | src/components/Contacts/ContactForm.tsx:20-42 | opening a fully filled contact with an application chosen and submitting it gives the same contact back under its id |
| ContactForm.NoApplicationBlocksSubmit | src/components/Contacts/ContactForm.tsx:26-34 | without a selected application or carried id, submitting fails |
| ContactForm.HandleChange | src/components/Contacts/ContactForm.tsx:44-47 | the named field takes the value verbatim and every other field keeps its value |
| ContactForm.ChosenApplicationAllowsSubmit | src/components/Contacts/ContactForm.tsx:31-34 | once a non-empty application id is chosen, submitting succeeds |
| Sorting.SortBy | src/components/Applications/ApplicationList.tsx:38-49 | sorting keeps the same records with the same multiplicities |
| Sorting.SortBySorted | src/components/Applications/ApplicationList.tsx:38-49 | under a total preorder the result is sorted |
| Text.ContainsIffOccurs | src/components/Contacts/Contacts.tsx:40 | `includes` holds exactly when the needle occurs at some position |
| Text.ReplaceFirstSpec | src/components/Contacts/Contacts.tsx:45 | `replace` with a string pattern changes only the first occurrence |
| Text.JoinSplit | src/components/Analytics/Analytics.tsx:67 | joining the pieces of a split gives back the string |
| Text.SplitJoin | src/components/Analytics/Analytics.tsx:56-68 | splitting a join of one or more separator-free fields gives the fields back |
| Text.StrLeTotal | src/components/Applications/ApplicationList.tsx:43 | any two strings are ordered one way or the other |
| Text.StrLeTrans | src/components/Applications/ApplicationList.tsx:43 | the string order is transitive |

## Left out

- React state, effects and memoisation: each handler is a function from the old collection to the new one.
- `localStorage` reads and writes, `JSON.parse`/`JSON.stringify`, the `settingsChanged` event and the report download:
  - stored data arrives already parsed, as an `Option`;
  - settings JSON is a parameter `string -> Option<SettingsPatch>`, where `None` stands for a throw;
  - its values are assumed to have the right types, and unknown keys are dropped.
- Stored application JSON that does not parse: the source has no `catch` there, so the model has no fallback either.
- Theme application to the document: a DOM side effect.
- `Date.now()` ids and `new Date()`: passed in as `freshId` and `now`. Ids are not assumed unique except where a lemma says so.
- `toLocaleDateString`, `toISOString`, `formatDate`, `formatTime` and time zones:
  - the local calendar day or month of a timestamp is a parameter (`dayOf`, `monthOf`);
  - report dates and form date text come through `formatDate`, `toInput` and `parseDate` parameters.
- The time-range cutoff arithmetic (`setDate`, `setMonth`, `setFullYear` on now): the cutoff is a parameter of `AnalyticsPage.InRange`.
- `navigateMonth`: its `setMonth` overflow is Date arithmetic.
- Floating point: rates, averages and bar widths are exact rationals, so rounding and `toFixed` are not modelled.
- `Math.round(avgSalary)` before formatting, and `toFixed(1)`: display rounding.
- `Text.StrLe`: `localeCompare` is modelled as code-point order, not locale collation.
- `Text.Lower`: `toLowerCase` is modelled for ASCII letters only.
- `Settings.LocaleText`: `toLocaleString` is modelled as en-US digit grouping of whole numbers.
- `DigitGroups.ParseIntOrZero`: models `parseInt(value) || 0` as an optional sign and leading decimal digits. Leading white space, other radixes, and a value so large that it rounds to a float are not modelled.
- `Types.StartingApplicationId`: `interview?.applicationId` and `contact?.applicationId` are not declared on the record types, so the carried id is a parameter.
- `Aggregation.MonthCountsOrder`: assumes `new Date(month)` orders month labels by calendar month. Parsing of the label text is not modelled.
- `Sorting.SortBy`: the insertion sort keeps tied elements in input order, as `Array.prototype.sort` does, but stability is not stated as a lemma.
- `AnalyticsPage.ReportHasLinePerRecord`: the 1 + n line count holds only when no field holds a line break, because the source does no escaping.
- `Settings.FormatCurrency`: its contract covers the unknown-code and no-group branches. The two-group branch is stated by `Settings.FormatSalaryRange`. The one-group and number branches are defined but have no lemma of their own.
- `Repository.Create`: both dates are taken to be the same instant `now`. The source reads the clock separately for `appliedDate` and `lastUpdated`; when the two reads differ by a millisecond, a fresh record that later leaves "applied" without an update shows a response time of 1 day instead of 0.
- `Grouping.TallySpec`: keys are kept in first-insertion order. `Object.entries` lists integer-like keys such as "42" first, in ascending numeric order; the model does not.
- `Grouping.TallySpec`: a key naming an `Object.prototype` member ("constructor", "toString") is counted like any other key. The source would start from the inherited member and concatenate a string, and a `__proto__` key would not become an entry at all.
- `Aggregation.TopCompaniesOrder`: ties among equal counts keep the model's first-insertion order. The source keeps the `Object.entries` order, which differs from it for integer-like company names.
- `Settings.CurrencySymbol`: a currency code naming an `Object.prototype` member is treated as unknown, giving "$". The source gives "$" too, because the inherited member has no `symbol`.
- `Settings.CurrencyName`: a currency code naming an `Object.prototype` member is treated as unknown, giving "US Dollar". The source returns the inherited function's `name`, such as "Object" for "constructor".
- `Settings.FormatCurrency`: a currency code naming an `Object.prototype` member is treated as unknown. The source finds a truthy config whose `symbol` is `undefined` and prints "undefined" in place of the symbol.
- The distinct-company count and other display arithmetic of the presentation components: they are outside this core.

=== FILE: aggregation.dfy ===
/** The `useAnalytics` aggregation: the total, the three rates, the counts
    per status, per month and per company, and the average response time. */
module Aggregation {
  import opened Wrappers
  import opened Types
  import opened Seqs
  import opened Sorting
  import opened Grouping
  import opened Bars
  import opened ResponseTime

  /** A calendar month. The source labels a month with
      `toLocaleDateString('en-US', { year: 'numeric', month: 'short' })` and
      orders labels by reading them back with `new Date(label)`; the model
      keys a month by its year and month number directly. */
  datatype MonthKey = MonthKey(year: int, month: int)

  /** The `Analytics` record. An object keyed by status, month or company is
      its list of `Object.entries`. */
  datatype Analytics = Analytics(
    totalApplications: nat,
    responseRate: real,
    interviewRate: real,
    offerRate: real,
    averageResponseTime: real,
    applicationsByStatus: seq<Entry<Status>>,
    applicationsByMonth: seq<Entry<MonthKey>>,
    topCompanies: seq<Entry<string>>)

  /** The status object returned for an empty list. */
  const EmptyStatusCounts: seq<Entry<Status>> := [
    Entry(Applied, 0),
    Entry(Interviewing, 0),
    Entry(Offered, 0),
    Entry(Rejected, 0),
    Entry(Withdrawn, 0)
  ]

  /** `applicationsByStatus`: the status tally with the missing statuses
      filled in with 0. */
  function StatusCounts(apps: seq<Application>): seq<Entry<Status>> {
    FillMissing(Tally(apps, StatusOf), AllStatuses)
  }

  /** The month of a record's `appliedDate`, under a given calendar. */
  function AppliedMonth(monthOf: Timestamp -> MonthKey): Application -> MonthKey {
    (a: Application) => monthOf(a.appliedDate)
  }

  /** `new Date(a.month).getTime() - new Date(b.month).getTime() <= 0`. */
  predicate MonthLe(a: Entry<MonthKey>, b: Entry<MonthKey>) {
    a.key.year < b.key.year || (a.key.year == b.key.year && a.key.month <= b.key.month)
  }

  /** Month `a` comes strictly before month `b`. */
  predicate MonthBefore(a: MonthKey, b: MonthKey) {
    a.year < b.year || (a.year == b.year && a.month < b.month)
  }

  /** `applicationsByMonth`: the month tally in calendar order. */
  function MonthCounts(apps: seq<Application>, monthOf: Timestamp -> MonthKey): seq<Entry<MonthKey>> {
    SortBy(Tally(apps, AppliedMonth(monthOf)), MonthLe)
  }

  /** `b.count - a.count <= 0`. */
  predicate CountGe(a: Entry<string>, b: Entry<string>) {
    a.count >= b.count
  }

  /** `topCompanies`: the company tally by decreasing count, cut to five. */
  function TopCompanies(apps: seq<Application>): seq<Entry<string>> {
    Take(SortBy(Tally(apps, CompanyOf), CountGe), 5)
  }

  /** `averageResponseTime`: the mean response days of the records that have
      left "applied", or 0 when there are none. */
  function AverageResponseTime(apps: seq<Application>): real {
    var ds := ResponseTimes(apps);
    if |ds| > 0 then AverageDays(ds) else 0.0
  }

  lemma MonthLeTotal()
    ensures TotalPreorder(MonthLe)
  {
  }

  lemma CountGeTotal()
    ensures TotalPreorder(CountGe)
  {
  }

  /** The status object maps each of the five statuses, once, to the number
      of records in it; the counts add up to the number of records. */
  lemma StatusCountsSpec(apps: seq<Application>)
    ensures DistinctBy(StatusCounts(apps), KeyOf)
    ensures forall s :: Lookup(StatusCounts(apps), s) == Some(CountKey(apps, StatusOf, s))
    ensures SumCounts(StatusCounts(apps)) == |apps|
  {
    var t := Tally(apps, StatusOf);
    var r := StatusCounts(apps);
    TallyDistinct(apps, StatusOf);
    TallySum(apps, StatusOf);
    FillMissingShape(t, AllStatuses);
    FillMissingSum(t, AllStatuses);
    forall s
      ensures Lookup(r, s) == Some(CountKey(apps, StatusOf, s))
    {
      StatusCountOf(apps, s);
    }
  }

  /** The count of one status in the status object. */
  lemma StatusCountOf(apps: seq<Application>, s: Status)
    ensures Lookup(StatusCounts(apps), s) == Some(CountKey(apps, StatusOf, s))
  {
    var t := Tally(apps, StatusOf);
    var r := StatusCounts(apps);
    TallyDistinct(apps, StatusOf);
    FillMissingShape(t, AllStatuses);
    StatusPresent(r, s);
    var i :| 0 <= i < |r| && r[i].key == s;
    LookupAt(r, i);
    if i < |t| {
      TallyCounts(apps, StatusOf);
      assert r[i] == t[i];
    } else {
      TallyAbsent(apps, StatusOf, s);
    }
  }

  /** A list holding every status of `AllStatuses` holds each status. */
  lemma StatusPresent(r: seq<Entry<Status>>, s: Status)
    requires forall j :: 0 <= j < |AllStatuses| ==> HasKey(r, AllStatuses[j])
    ensures HasKey(r, s)
  {
    match s
    case Applied => assert AllStatuses[0] == s;
    case Interviewing => assert AllStatuses[1] == s;
    case Offered => assert AllStatuses[2] == s;
    case Rejected => assert AllStatuses[3] == s;
    case Withdrawn => assert AllStatuses[4] == s;
  }

  /** The empty-list literal states the same counts. */
  lemma EmptyStatusCountsSpec()
    ensures DistinctBy(EmptyStatusCounts, KeyOf)
    ensures forall s :: Lookup(EmptyStatusCounts, s) == Some(0)
    ensures SumCounts(EmptyStatusCounts) == 0
  {
    forall s
      ensures Lookup(EmptyStatusCounts, s) == Some(0)
    {
      match s
      case Applied => LookupAt(EmptyStatusCounts, 0);
      case Interviewing => LookupAt(EmptyStatusCounts, 1);
      case Offered => LookupAt(EmptyStatusCounts, 2);
      case Rejected => LookupAt(EmptyStatusCounts, 3);
      case Withdrawn => LookupAt(EmptyStatusCounts, 4);
    }
  }

  /** The month series is in strictly increasing calendar order. */
  lemma MonthCountsOrder(apps: seq<Application>, monthOf: Timestamp -> MonthKey)
    ensures forall i, j :: 0 <= i < j < |MonthCounts(apps, monthOf)| ==>
      MonthBefore(MonthCounts(apps, monthOf)[i].key, MonthCounts(apps, monthOf)[j].key)
  {
    var t := Tally(apps, AppliedMonth(monthOf));
    var r := MonthCounts(apps, monthOf);
    TallyDistinct(apps, AppliedMonth(monthOf));
    MonthLeTotal();
    SortBySorted(t, MonthLe);
    SortByDistinct(t, MonthLe, KeyOf);
    forall i, j | 0 <= i < j < |r|
      ensures MonthBefore(r[i].key, r[j].key)
    {
      assert MonthLe(r[i], r[j]);
      assert KeyOf(r[i]) != KeyOf(r[j]);
    }
  }

  /** Each month of the series carries its number of records, and the counts
      add up to the number of records. */
  lemma MonthCountsExact(apps: seq<Application>, monthOf: Timestamp -> MonthKey)
    ensures forall i :: 0 <= i < |MonthCounts(apps, monthOf)| ==>
      MonthCounts(apps, monthOf)[i].count
        == CountKey(apps, AppliedMonth(monthOf), MonthCounts(apps, monthOf)[i].key) >= 1
    ensures SumCounts(MonthCounts(apps, monthOf)) == |apps|
  {
    var key := AppliedMonth(monthOf);
    var t := Tally(apps, key);
    var r := MonthCounts(apps, monthOf);
    TallyCounts(apps, key);
    TallySum(apps, key);
    SumSortBy(t, MonthLe);
    forall i | 0 <= i < |r|
      ensures r[i].count == CountKey(apps, key, r[i].key) >= 1
    {
      SortByMembers(t, MonthLe, r[i]);
      var k :| 0 <= k < |t| && t[k] == r[i];
    }
  }

  /** The month of every `appliedDate` appears in the series. */
  lemma MonthCountsCover(apps: seq<Application>, monthOf: Timestamp -> MonthKey)
    ensures forall j :: 0 <= j < |apps| ==> HasKey(MonthCounts(apps, monthOf), monthOf(apps[j].appliedDate))
  {
    var key := AppliedMonth(monthOf);
    var t := Tally(apps, key);
    var r := MonthCounts(apps, monthOf);
    TallyCovers(apps, key);
    forall j | 0 <= j < |apps|
      ensures HasKey(r, monthOf(apps[j].appliedDate))
    {
      assert key(apps[j]) == monthOf(apps[j].appliedDate);
      var k :| 0 <= k < |t| && t[k].key == key(apps[j]);
      SortByMembers(t, MonthLe, t[k]);
      var m :| 0 <= m < |r| && r[m] == t[k];
    }
  }

  /** At most five companies, each listed once, by non-increasing count. */
  lemma TopCompaniesOrder(apps: seq<Application>)
    ensures |TopCompanies(apps)| <= 5
    ensures forall i, j :: 0 <= i < j < |TopCompanies(apps)| ==>
      TopCompanies(apps)[i].count >= TopCompanies(apps)[j].count
    ensures DistinctBy(TopCompanies(apps), KeyOf)
  {
    var t := Tally(apps, CompanyOf);
    var s := SortBy(t, CountGe);
    var r := TopCompanies(apps);
    TallyDistinct(apps, CompanyOf);
    CountGeTotal();
    SortBySorted(t, CountGe);
    SortByDistinct(t, CountGe, KeyOf);
    assert r == s[..|r|];
    forall i, j | 0 <= i < j < |r|
      ensures KeyOf(r[i]) != KeyOf(r[j]) && CountGe(r[i], r[j])
    {
      assert r[i] == s[i] && r[j] == s[j];
    }
  }

  /** Each listed company carries its number of records. */
  lemma TopCompaniesExact(apps: seq<Application>)
    ensures forall i :: 0 <= i < |TopCompanies(apps)| ==>
      TopCompanies(apps)[i].count == CountKey(apps, CompanyOf, TopCompanies(apps)[i].key) >= 1
  {
    var t := Tally(apps, CompanyOf);
    var s := SortBy(t, CountGe);
    var r := TopCompanies(apps);
    TallyCounts(apps, CompanyOf);
    forall i | 0 <= i < |r|
      ensures r[i].count == CountKey(apps, CompanyOf, r[i].key) >= 1
    {
      assert r[i] == s[i];
      SortByMembers(t, CountGe, r[i]);
      var k :| 0 <= k < |t| && t[k] == r[i];
    }
  }

  /** A company left out of the list has no more records than the fifth one
      listed. */
  lemma TopCompaniesCover(apps: seq<Application>)
    ensures forall j :: 0 <= j < |apps| ==>
      HasKey(TopCompanies(apps), apps[j].company)
      || (|TopCompanies(apps)| == 5 && CountKey(apps, CompanyOf, apps[j].company) <= TopCompanies(apps)[4].count)
  {
    var t := Tally(apps, CompanyOf);
    var s := SortBy(t, CountGe);
    var r := TopCompanies(apps);
    TallyCovers(apps, CompanyOf);
    TallyCounts(apps, CompanyOf);
    CountGeTotal();
    SortBySorted(t, CountGe);
    forall j | 0 <= j < |apps|
      ensures HasKey(r, apps[j].company)
        || (|r| == 5 && CountKey(apps, CompanyOf, apps[j].company) <= r[4].count)
    {
      assert CompanyOf(apps[j]) == apps[j].company;
      var k :| 0 <= k < |t| && t[k].key == apps[j].company;
      SortByMembers(t, CountGe, t[k]);
      var m :| 0 <= m < |s| && s[m] == t[k];
      if m < |r| {
        assert r[m] == s[m];
      } else {
        assert CountGe(s[4], s[m]) && r[4] == s[4];
      }
    }
  }

  /** With every record still "applied" there is no response time, and the
      average is 0. */
  lemma AverageResponseNone(apps: seq<Application>)
    requires forall k :: 0 <= k < |apps| ==> apps[k].status == Applied
    ensures AverageResponseTime(apps) == 0.0
  {
    ResponseTimesEmpty(apps);
  }

  /** The average lies between any bounds on the response days of the records
      that have left "applied". */
  lemma AverageResponseBounds(apps: seq<Application>, lo: int, hi: int)
    requires exists k :: 0 <= k < |apps| && apps[k].status != Applied
    requires forall k :: 0 <= k < |apps| && Responded(apps[k]) ==> lo <= ResponseDays(apps[k]) <= hi
    ensures lo as real <= AverageResponseTime(apps) <= hi as real
  {
    var ds := ResponseTimes(apps);
    ResponseTimesEmpty(apps);
    forall k | 0 <= k < |ds|
      ensures lo <= ds[k] <= hi
    {
      var kept := Filter(apps, Responded);
      var a := kept[k];
      assert a in kept;
      var m :| 0 <= m < |apps| && apps[m] == a;
    }
    AverageDaysBounds(ds, lo, hi);
  }

  /** The aggregator's average is the one the time-to-response chart shows. */
  lemma AverageMatchesChart(apps: seq<Application>)
    requires exists k :: 0 <= k < |apps| && apps[k].status != Applied
    ensures TimeToResponse(apps).ResponseChart?
    ensures AverageResponseTime(apps) == TimeToResponse(apps).average
  {
  }

  /** `useAnalytics(applications)`; `monthOf` is the local calendar month of a
      timestamp. */
  function UseAnalytics(apps: seq<Application>, monthOf: Timestamp -> MonthKey): (r: Analytics)
    ensures r.totalApplications == |apps|
    ensures |apps| == 0 ==>
      && r.responseRate == 0.0 && r.interviewRate == 0.0 && r.offerRate == 0.0
      && r.averageResponseTime == 0.0
      && r.applicationsByMonth == [] && r.topCompanies == []
    ensures forall s :: Lookup(r.applicationsByStatus, s) == Some(CountKey(apps, StatusOf, s))
    ensures DistinctBy(r.applicationsByStatus, KeyOf)
    ensures SumCounts(r.applicationsByStatus) == |apps|
    ensures r.responseRate == r.interviewRate
    ensures 0.0 <= r.offerRate <= r.responseRate <= 100.0
    ensures |apps| > 0 ==> r.responseRate == Percentage(Count(apps, InterviewOrOffer), |apps|)
    ensures |apps| > 0 ==> r.offerRate == Percentage(CountKey(apps, StatusOf, Offered), |apps|)
    ensures |apps| > 0 ==> r.averageResponseTime == AverageResponseTime(apps)
    ensures |apps| > 0 ==> r.applicationsByMonth == MonthCounts(apps, monthOf)
    ensures |apps| > 0 ==> r.topCompanies == TopCompanies(apps)
  {
    var total := |apps|;
    if total == 0 then
      EmptyStatusCountsSpec();
      Analytics(0, 0.0, 0.0, 0.0, 0.0, EmptyStatusCounts, [], [])
    else
      var responded := Count(apps, InterviewOrOffer);
      var interviewed := Count(apps, InterviewOrOffer);
      var offers := CountKey(apps, StatusOf, Offered);
      StatusCountsSpec(apps);
      CountMonotone(apps, KeyIs(StatusOf, Offered), InterviewOrOffer);
      PercentageMonotone(offers, responded, total);
      Analytics(
        total,
        Percentage(responded, total),
        Percentage(interviewed, total),
        Percentage(offers, total),
        AverageResponseTime(apps),
        StatusCounts(apps),
        MonthCounts(apps, monthOf),
        TopCompanies(apps))
  }
}

=== FILE: analytics_page.dfy ===
/** The analytics page (`Analytics.tsx`): the time-range filter feeding the
    charts, the plain-text report export, and the "active" figure. */
module AnalyticsPage {
  import opened Wrappers
  import opened Types
  import opened Seqs
  import opened Text
  import opened Grouping
  import opened Aggregation

  // ---------------------------------------------------------------------------
  // filteredApplications

  function AppliedSince(cutoff: Timestamp): Application -> bool {
    (app: Application) => app.appliedDate >= cutoff
  }

  /** `applications.filter(app => app.appliedDate >= cutoffDate)`; the cutoff
      is the chosen time range before now. */
  function InRange(apps: seq<Application>, cutoff: Timestamp): (r: seq<Application>)
    ensures forall i :: 0 <= i < |r| ==> r[i] in apps && r[i].appliedDate >= cutoff
    ensures forall i :: 0 <= i < |apps| && apps[i].appliedDate >= cutoff ==> apps[i] in r
    ensures SubsequenceOf(r, apps)
    ensures forall a :: multiset(r)[a] == if a.appliedDate >= cutoff then multiset(apps)[a] else 0
  {
    FilterIsSubsequence(apps, AppliedSince(cutoff));
    FilterCounts(apps, AppliedSince(cutoff));
    var r := Filter(apps, AppliedSince(cutoff));
    assert forall i :: 0 <= i < |r| ==> r[i] in r && AppliedSince(cutoff)(r[i]) == (r[i].appliedDate >= cutoff);
    r
  }

  /** A later cutoff, a shorter range, keeps a subsequence of what an earlier
      one keeps. */
  lemma LaterCutoffKeepsFewer(apps: seq<Application>, early: Timestamp, late: Timestamp)
    requires early <= late
    ensures SubsequenceOf(InRange(apps, late), InRange(apps, early))
  {
    FilterImplies(apps, AppliedSince(late), AppliedSince(early));
  }

  /** A cutoff no later than every applied date keeps every record. */
  lemma EarlyCutoffKeepsAll(apps: seq<Application>, cutoff: Timestamp)
    requires forall i :: 0 <= i < |apps| ==> cutoff <= apps[i].appliedDate
    ensures InRange(apps, cutoff) == apps
  {
    FilterAll(apps, AppliedSince(cutoff));
  }

  // ---------------------------------------------------------------------------
  // exportReport

  /** The column names of the report. */
  const ReportColumns: seq<string> :=
    ["Job Title", "Company", "Location", "Status", "Applied Date", "Salary", "Priority", "Notes"]

  /** The header line, "Job Title|Company|Location|Status|Applied Date|Salary|Priority|Notes". */
  const ReportHeader: string := Join(ReportColumns, '|')

  /** Letters and spaces only. */
  predicate Plain(s: string) {
    forall k :: 0 <= k < |s| ==> 'A' <= s[k] <= 'Z' || 'a' <= s[k] <= 'z' || s[k] == ' '
  }

  /** The column names are plain words. */
  lemma ColumnsPlain()
    ensures forall i :: 0 <= i < |ReportColumns| ==> Plain(ReportColumns[i])
  {
    var cs := ReportColumns;
    assert Plain(cs[0]) && Plain(cs[1]) && Plain(cs[2]) && Plain(cs[3]) by {
      assert Plain("Job Title") && Plain("Company") && Plain("Location") && Plain("Status");
    }
    assert Plain(cs[4]) && Plain(cs[5]) && Plain(cs[6]) && Plain(cs[7]) by {
      assert Plain("Applied Date") && Plain("Salary") && Plain("Priority") && Plain("Notes");
    }
  }

  /** Plain text holds neither separator. */
  lemma PlainFree(s: string)
    requires Plain(s)
    ensures '|' !in s && '\n' !in s
  {
    assert forall k :: 0 <= k < |s| ==> s[k] != '|' && s[k] != '\n';
  }

  /** The header splits into the eight columns of a row. */
  lemma HeaderColumns()
    ensures Split(ReportHeader, '|') == ReportColumns
  {
    ColumnsPlain();
    forall i | 0 <= i < |ReportColumns|
      ensures '|' !in ReportColumns[i]
    {
      PlainFree(ReportColumns[i]);
    }
    SplitJoin(ReportColumns, '|');
  }

  /** The header holds no line break. */
  lemma HeaderOneLine()
    ensures '\n' !in ReportHeader
  {
    ColumnsPlain();
    forall i | 0 <= i < |ReportColumns|
      ensures '\n' !in ReportColumns[i]
    {
      PlainFree(ReportColumns[i]);
    }
    JoinFree(ReportColumns, '|', '\n');
  }

  /** The fields of one record's row; an absent salary or notes becomes an
      empty field, and the date is written by the locale's `formatDate`. */
  function ReportFields(app: Application, formatDate: Timestamp -> string): (fs: seq<string>)
    ensures |fs| == |ReportColumns|
    ensures fs[5] == (if Truthy(app.salary) then app.salary.value else "")
    ensures fs[7] == (if Truthy(app.notes) then app.notes.value else "")
  {
    [app.jobTitle, app.company, app.location, StatusName(app.status), formatDate(app.appliedDate),
     OrEmpty(app.salary), PriorityName(app.priority), OrEmpty(app.notes)]
  }

  /** One record's row: its fields joined by "|" with no escaping. */
  function ReportRow(app: Application, formatDate: Timestamp -> string): string {
    Join(ReportFields(app, formatDate), '|')
  }

  /** One row per record, in list order. */
  function ReportRows(apps: seq<Application>, formatDate: Timestamp -> string): (rs: seq<string>)
    ensures |rs| == |apps|
    ensures forall i :: 0 <= i < |apps| ==> rs[i] == ReportRow(apps[i], formatDate)
  {
    seq(|apps|, i requires 0 <= i < |apps| => ReportRow(apps[i], formatDate))
  }

  /** The report's lines: the header, then one row per record in list order. */
  function ReportLines(apps: seq<Application>, formatDate: Timestamp -> string): (ls: seq<string>)
    ensures |ls| == |apps| + 1
    ensures ls[0] == ReportHeader
    ensures forall i :: 0 <= i < |apps| ==> ls[i + 1] == ReportRow(apps[i], formatDate)
  {
    var rs := ReportRows(apps, formatDate);
    assert forall i :: 0 <= i < |apps| ==> ([ReportHeader] + rs)[i + 1] == rs[i];
    [ReportHeader] + rs
  }

  /** `textContent`: the lines joined by newlines. */
  function Report(apps: seq<Application>, formatDate: Timestamp -> string): string {
    Join(ReportLines(apps, formatDate), '\n')
  }

  /** No field of the record holds the character `c`. */
  predicate FieldsFree(app: Application, formatDate: Timestamp -> string, c: char) {
    forall k :: 0 <= k < |ReportFields(app, formatDate)| ==> c !in ReportFields(app, formatDate)[k]
  }

  /** A row whose fields hold no "|" splits back into its eight fields. */
  lemma RowFields(app: Application, formatDate: Timestamp -> string)
    requires FieldsFree(app, formatDate, '|')
    ensures Split(ReportRow(app, formatDate), '|') == ReportFields(app, formatDate)
  {
    SplitJoin(ReportFields(app, formatDate), '|');
  }

  /** When no field holds a line break, the report has the header line and
      one line per record, each the row of that record. */
  lemma ReportHasLinePerRecord(apps: seq<Application>, formatDate: Timestamp -> string)
    requires forall i :: 0 <= i < |apps| ==> FieldsFree(apps[i], formatDate, '\n')
    ensures Split(Report(apps, formatDate), '\n') == ReportLines(apps, formatDate)
  {
    ReportLinesOneLine(apps, formatDate);
    SplitJoin(ReportLines(apps, formatDate), '\n');
  }

  /** No line of the report holds a line break when no field does. */
  lemma ReportLinesOneLine(apps: seq<Application>, formatDate: Timestamp -> string)
    requires forall i :: 0 <= i < |apps| ==> FieldsFree(apps[i], formatDate, '\n')
    ensures forall i :: 0 <= i < |ReportLines(apps, formatDate)| ==> '\n' !in ReportLines(apps, formatDate)[i]
  {
    var ls := ReportLines(apps, formatDate);
    forall i | 0 <= i < |ls|
      ensures '\n' !in ls[i]
    {
      if i == 0 {
        HeaderOneLine();
      } else {
        RowOneLine(apps[i - 1], formatDate);
      }
    }
  }

  /** A row whose fields hold no line break holds none either. */
  lemma RowOneLine(app: Application, formatDate: Timestamp -> string)
    requires FieldsFree(app, formatDate, '\n')
    ensures '\n' !in ReportRow(app, formatDate)
  {
    JoinFree(ReportFields(app, formatDate), '|', '\n');
  }

  // ---------------------------------------------------------------------------
  // The "Active" card

  /** `applicationsByStatus.applied + applicationsByStatus.interview`. */
  function ActiveCount(a: Analytics): nat {
    Lookup(a.applicationsByStatus, Applied).GetOr(0) + Lookup(a.applicationsByStatus, Interviewing).GetOr(0)
  }

  /** The record is still in play: applied or interviewing. */
  predicate Active(app: Application) {
    app.status == Applied || app.status == Interviewing
  }

  /** Applied and interviewing records are disjoint, so the active records
      number the applied plus the interviewing ones. */
  lemma ActiveSplit(apps: seq<Application>)
    ensures Count(apps, Active) == CountKey(apps, StatusOf, Applied) + CountKey(apps, StatusOf, Interviewing)
    ensures Count(apps, Active) <= |apps|
  {
    forall i | 0 <= i < |apps|
      ensures !(KeyIs(StatusOf, Applied)(apps[i]) && KeyIs(StatusOf, Interviewing)(apps[i]))
      ensures Active(apps[i]) <==> KeyIs(StatusOf, Applied)(apps[i]) || KeyIs(StatusOf, Interviewing)(apps[i])
    {
    }
    CountDisjoint(apps, KeyIs(StatusOf, Applied), KeyIs(StatusOf, Interviewing), Active);
  }

  /** The "Active" figure counts the records that are applied or
      interviewing, so it is at most the total. */
  lemma ActiveCountSpec(apps: seq<Application>, monthOf: Timestamp -> MonthKey)
    ensures ActiveCount(UseAnalytics(apps, monthOf)) == Count(apps, Active)
    ensures ActiveCount(UseAnalytics(apps, monthOf)) <= |apps|
  {
    var byStatus := UseAnalytics(apps, monthOf).applicationsByStatus;
    assert Lookup(byStatus, Applied) == Some(CountKey(apps, StatusOf, Applied));
    assert Lookup(byStatus, Interviewing) == Some(CountKey(apps, StatusOf, Interviewing));
    ActiveSplit(apps);
  }
}

=== FILE: application_list.dfy ===
/** The applications list (`ApplicationList.tsx`): the records matching a
    search term, a status filter and a priority filter, sorted newest first,
    by company or by status. */
module ApplicationList {
  import opened Types
  import opened Seqs
  import opened Text
  import opened Sorting

  /** The value of a filter select: `'all'` or one value. */
  datatype Choice<T> = Every | Only(value: T)

  predicate Admits<T(==)>(c: Choice<T>, x: T) {
    c.Every? || c.value == x
  }

  /** `sortBy`. */
  datatype SortKey = ByDate | ByCompany | ByStatus

  /** `matchesSearch`: the lower-cased term occurs in the lower-cased title,
      company or location. */
  predicate MatchesSearch(app: Application, term: string) {
    var needle := Lower(term);
    || Contains(Lower(app.jobTitle), needle)
    || Contains(Lower(app.company), needle)
    || Contains(Lower(app.location), needle)
  }

  /** `matchesSearch && matchesStatus && matchesPriority`. */
  predicate Matches(app: Application, term: string, status: Choice<Status>, priority: Choice<Priority>) {
    MatchesSearch(app, term) && Admits(status, app.status) && Admits(priority, app.priority)
  }

  function Wanted(term: string, status: Choice<Status>, priority: Choice<Priority>): Application -> bool {
    (app: Application) => Matches(app, term, status, priority)
  }

  /** The comparator of each sort key, read as "`a` may stay in front of `b`",
      that is, the comparator's result is not positive: newest applied date
      first, or companies or status names in character order. */
  function OrderFor(key: SortKey): (Application, Application) -> bool {
    match key
    case ByDate => (a: Application, b: Application) => b.appliedDate <= a.appliedDate
    case ByCompany => (a: Application, b: Application) => StrLe(a.company, b.company)
    case ByStatus => (a: Application, b: Application) => StrLe(StatusName(a.status), StatusName(b.status))
  }

  /** Every comparator orders all records consistently. */
  lemma OrderTotal(key: SortKey)
    ensures TotalPreorder(OrderFor(key))
  {
    var le := OrderFor(key);
    if key != ByDate {
      var name := (a: Application) => if key == ByCompany then a.company else StatusName(a.status);
      assert forall a, b :: le(a, b) == StrLe(name(a), name(b));
      forall a, b
        ensures le(a, b) || le(b, a)
      {
        StrLeTotal(name(a), name(b));
      }
      forall a, b, c | le(a, b) && le(b, c)
        ensures le(a, c)
      {
        StrLeTrans(name(a), name(b), name(c));
      }
    }
  }

  /** `filteredAndSortedApplications`. */
  function Listed(apps: seq<Application>, term: string, status: Choice<Status>, priority: Choice<Priority>,
                  key: SortKey): (r: seq<Application>)
    ensures |r| <= |apps|
  {
    SortBy(Filter(apps, Wanted(term, status, priority)), OrderFor(key))
  }

  /** The list holds every matching record as often as it occurs, and
      nothing else. */
  lemma ListedCounts(apps: seq<Application>, term: string, status: Choice<Status>, priority: Choice<Priority>,
                     key: SortKey, app: Application)
    ensures multiset(Listed(apps, term, status, priority, key))[app]
         == if Matches(app, term, status, priority) then multiset(apps)[app] else 0
  {
    FilterMultiset(apps, Wanted(term, status, priority), app);
  }

  /** A record is listed exactly when it is one of the records and matches. */
  lemma ListedMembers(apps: seq<Application>, term: string, status: Choice<Status>, priority: Choice<Priority>,
                      key: SortKey, app: Application)
    ensures app in Listed(apps, term, status, priority, key) <==> app in apps && Matches(app, term, status, priority)
  {
    ListedCounts(apps, term, status, priority, key, app);
    assert app in apps <==> multiset(apps)[app] > 0;
    assert app in Listed(apps, term, status, priority, key) <==> multiset(Listed(apps, term, status, priority, key))[app] > 0;
  }

  /** The list is in the order of its sort key. */
  lemma ListedSorted(apps: seq<Application>, term: string, status: Choice<Status>, priority: Choice<Priority>,
                     key: SortKey)
    ensures SortedBy(Listed(apps, term, status, priority, key), OrderFor(key))
  {
    OrderTotal(key);
    SortBySorted(Filter(apps, Wanted(term, status, priority)), OrderFor(key));
  }

  /** Sorted by date, later applications come first. */
  lemma ListedNewestFirst(apps: seq<Application>, term: string, status: Choice<Status>, priority: Choice<Priority>)
    ensures var r := Listed(apps, term, status, priority, ByDate);
      forall i, j :: 0 <= i < j < |r| ==> r[j].appliedDate <= r[i].appliedDate
  {
    ListedSorted(apps, term, status, priority, ByDate);
    var r := Listed(apps, term, status, priority, ByDate);
    forall i, j | 0 <= i < j < |r|
      ensures r[j].appliedDate <= r[i].appliedDate
    {
      assert OrderFor(ByDate)(r[i], r[j]);
    }
  }

  /** With an empty search and no filter the list is a reordering of all
      records. */
  lemma UnfilteredIsPermutation(apps: seq<Application>, key: SortKey)
    ensures multiset(Listed(apps, "", Every, Every, key)) == multiset(apps)
  {
    forall i | 0 <= i < |apps|
      ensures Wanted("", Every, Every)(apps[i])
    {
      ContainsEmpty(Lower(apps[i].jobTitle));
    }
    FilterAll(apps, Wanted("", Every, Every));
  }

  /** The position of a status in the pipeline. */
  function StatusRank(s: Status): nat {
    match s
    case Applied => 0
    case Interviewing => 1
    case Offered => 2
    case Rejected => 3
    case Withdrawn => 4
  }

  /** Sorting by the status names puts the statuses in pipeline order:
      "applied", "interview", "offer", "rejected", "withdrawn". */
  lemma StatusNamesInPipelineOrder(a: Status, b: Status)
    ensures StrLe(StatusName(a), StatusName(b)) <==> StatusRank(a) <= StatusRank(b)
  {
    if a == b {
      StrLeRefl(StatusName(a));
    } else {
      assert StatusName(a)[0] != StatusName(b)[0];
    }
  }
}

=== FILE: bars.dfy ===
/** Bar geometry shared by the analytics charts: a bar's length is a
    percentage of a reference count, widened to a minimum so it stays visible. */
module Bars {
  import opened Wrappers

  /** A chart bucket `{ min, max }`; an absent upper bound is `Infinity`. */
  datatype Bucket = Bucket(lo: int, hi: Option<int>)

  /** `Math.max(...counts)` over a non-empty list of counts. */
  function MaxCount(counts: seq<nat>): (m: nat)
    requires |counts| > 0
    ensures forall i :: 0 <= i < |counts| ==> counts[i] <= m
    ensures exists i :: 0 <= i < |counts| && counts[i] == m
    decreases |counts|
  {
    if |counts| == 1 then counts[0]
    else
      var rest := MaxCount(counts[1..]);
      assert forall i :: 1 <= i < |counts| ==> counts[i] == counts[1..][i - 1];
      if counts[0] >= rest then counts[0] else rest
  }

  /** `whole > 0 ? (count / whole) * 100 : 0`. */
  function Percentage(count: nat, whole: nat): (p: real)
    ensures whole == 0 ==> p == 0.0
    ensures whole > 0 ==> p * whole as real == 100.0 * count as real
    ensures 0.0 <= p
    ensures count <= whole ==> p <= 100.0
    ensures count == 0 ==> p == 0.0
    ensures count == whole > 0 ==> p == 100.0
  {
    if whole > 0 then
      var p := count as real / whole as real * 100.0;
      assert p * whole as real == 100.0 * count as real;
      p
    else 0.0
  }

  /** A larger count is a larger share of the same whole. */
  lemma PercentageMonotone(small: nat, large: nat, whole: nat)
    requires small <= large
    ensures Percentage(small, whole) <= Percentage(large, whole)
  {
    if whole > 0 {
      var w := whole as real;
      var q := (large - small) as real / w;
      assert q * w == (large - small) as real;
      assert q >= 0.0;
      assert large as real / w == small as real / w + q;
    }
  }

  /** `Math.max(percentage, count > 0 ? 5 : 0)`: a bucket bar, at least 5%
      wide when the bucket is not empty. */
  function BucketWidth(count: nat, maxCount: nat): (w: real)
    ensures w >= Percentage(count, maxCount)
    ensures w == Percentage(count, maxCount) || w == 5.0
    ensures count > 0 ==> w >= 5.0
    ensures count == 0 ==> w == 0.0
    ensures count <= maxCount ==> w <= 100.0
  {
    var p := Percentage(count, maxCount);
    var floor := if count > 0 then 5.0 else 0.0;
    if p >= floor then p else floor
  }

  /** `Math.max(percentage, 5)`: a funnel bar, always at least 5% wide. */
  function StageWidth(count: nat, total: nat): (w: real)
    ensures w >= Percentage(count, total) && w >= 5.0
    ensures w == Percentage(count, total) || w == 5.0
    ensures count <= total ==> w <= 100.0
  {
    var p := Percentage(count, total);
    if p >= 5.0 then p else 5.0
  }

  /** The bucket bar widths of a chart whose longest bar is its largest count. */
  function BucketWidths(counts: seq<nat>): (ws: seq<real>)
    requires |counts| > 0
    ensures |ws| == |counts|
    ensures forall i :: 0 <= i < |counts| ==> 0.0 <= ws[i] <= 100.0
    ensures forall i :: 0 <= i < |counts| ==> (counts[i] > 0 <==> ws[i] >= 5.0)
    ensures forall i :: 0 <= i < |counts| && counts[i] == MaxCount(counts) > 0 ==> ws[i] == 100.0
    ensures forall i :: 0 <= i < |counts| ==> ws[i] == BucketWidth(counts[i], MaxCount(counts))
  {
    var m := MaxCount(counts);
    var ws := seq(|counts|, i requires 0 <= i < |counts| => BucketWidth(counts[i], m));
    assert forall i :: 0 <= i < |counts| ==> ws[i] == BucketWidth(counts[i], m);
    ws
  }

  /** `n` copies of `x` added up. */
  function Repeat(n: nat, x: real): real {
    if n == 0 then 0.0 else Repeat(n - 1, x) + x
  }

  /** Adding up `n` copies is multiplying by `n`. */
  lemma {:induction false} RepeatIsProduct(n: nat, x: real)
    ensures Repeat(n, x) == n as real * x
  {
    if n > 0 {
      RepeatIsProduct(n - 1, x);
      assert n as real * x == (n - 1) as real * x + x;
    }
  }

  /** A sum between `n` copies of `lo` and `n` copies of `hi` has its mean
      `sum / n` between `lo` and `hi`. */
  lemma MeanBounds(sum: real, n: nat, lo: real, hi: real)
    requires n > 0
    requires Repeat(n, lo) <= sum <= Repeat(n, hi)
    ensures lo <= sum / n as real <= hi
  {
    RepeatIsProduct(n, lo);
    RepeatIsProduct(n, hi);
    var m := n as real;
    var avg := sum / m;
    assert (avg - lo) * m == sum - m * lo;
    assert (hi - avg) * m == m * hi - sum;
  }
}

=== FILE: calendar.dfy ===
/** The interview calendar: the interview list of all applications, the
    month grid, the interviews of a day, the upcoming interviews, and the
    save and delete handlers. Local calendar fields of a timestamp are given
    by a `dayOf` parameter. */
module Calendar {
  import opened Wrappers
  import opened Types
  import opened Seqs
  import opened Sorting
  import opened Owned
  import opened Repository

  /** The local calendar date of a `Date`: `getFullYear()`, `getMonth()`
      (0 for January) and `getDate()`. */
  datatype CalendarDay = CalendarDay(year: int, month: int, day: int)

  function InterviewId(i: Interview): string {
    i.id
  }

  /** `allInterviews`. */
  function AllInterviews(apps: seq<Application>): seq<Tagged<Interview>> {
    Flatten(apps, InterviewsOf)
  }

  /** One entry per interview, a missing list counting as empty, each tagged
      with the application it belongs to. */
  lemma AllInterviewsSpec(apps: seq<Application>, t: Tagged<Interview>)
    ensures |AllInterviews(apps)| == TotalItems(apps, InterviewsOf)
    ensures t in AllInterviews(apps) <==> t.owner in apps && t.item in InterviewsOf(t.owner)
  {
    FlattenLength(apps, InterviewsOf);
    FlattenMembers(apps, InterviewsOf, t);
  }

  // ---------------------------------------------------------------------------
  // getDaysInMonth

  /** The Gregorian leap-year rule. */
  predicate LeapYear(y: int) {
    y % 4 == 0 && (y % 100 != 0 || y % 400 == 0)
  }

  /** `new Date(year, month + 1, 0).getDate()`: the last day of the month. */
  function DaysInMonth(year: int, month: int): (n: nat)
    requires 0 <= month < 12
    ensures 28 <= n <= 31
  {
    if month == 1 then (if LeapYear(year) then 29 else 28)
    else if month == 3 || month == 5 || month == 8 || month == 10 then 30
    else 31
  }

  /** The year part of Zeller's congruence. */
  function YearTerm(y: int): int {
    y % 100 + (y % 100) / 4 + (y / 100) / 4 + 5 * (y / 100)
  }

  /** The month part of Zeller's congruence, January and February counting
      as months 13 and 14. */
  function MonthTerm(month: int): int
    requires 0 <= month < 12
  {
    var m := if month < 2 then month + 13 else month + 1;
    13 * (m + 1) / 5
  }

  /** The year whose term Zeller's congruence uses for a month: the year
      before for January and February. */
  function ZellerYear(year: int, month: int): int {
    if month < 2 then year - 1 else year
  }

  /** `new Date(year, month, day).getDay()` (0 for Sunday) in the proleptic
      Gregorian calendar, by Zeller's congruence, whose 0 is Saturday,
      shifted by 6. */
  function Weekday(year: int, month: int, day: int): (w: nat)
    requires 0 <= month < 12
    ensures w < 7
  {
    (day + MonthTerm(month) + YearTerm(ZellerYear(year, month)) + 6) % 7
  }

  /** Adding multiples of 7 does not change a remainder modulo 7. */
  lemma ModShift(x: int, a: int, b: int, t: int)
    requires a == b + 7 * t
    ensures (x + a) % 7 == (x + b) % 7
  {
    var q := (x + b) / 7;
    assert x + b == 7 * q + (x + b) % 7;
    assert x + a == 7 * (q + t) + (x + b) % 7;
  }

  /** Reducing the first summand first does not change a sum modulo 7. */
  lemma ModSum(a: int, b: int)
    ensures (a % 7 + b) % 7 == (a + b) % 7
  {
    ModShift(b, a % 7, a, -(a / 7));
  }

  /** Day `d` falls `d - 1` days after the first of the month. */
  lemma WeekdayShift(year: int, month: int, d: int)
    requires 0 <= month < 12
    ensures Weekday(year, month, d) == (Weekday(year, month, 1) + d - 1) % 7
  {
    var c := MonthTerm(month) + YearTerm(ZellerYear(year, month));
    ModSum(1 + c + 6, d - 1);
    assert 1 + c + 6 + d - 1 == d + c + 6;
  }

  /** `q` and `r` are the quotient and remainder of `a` by 100. */
  lemma Div100(a: int, q: int, r: int)
    requires a == 100 * q + r && 0 <= r < 100
    ensures a / 100 == q && a % 100 == r
  {
  }

  /** `q` and `r` are the quotient and remainder of `a` by 4. */
  lemma Div4(a: int, q: int, r: int)
    requires a == 4 * q + r && 0 <= r < 4
    ensures a / 4 == q && a % 4 == r
  {
  }

  /** `q` and `r` are the quotient and remainder of `a` by 400. */
  lemma Div400(a: int, q: int, r: int)
    requires a == 400 * q + r && 0 <= r < 400
    ensures a / 400 == q && a % 400 == r
  {
  }

  /** Stepping back by one lowers the quotient by 4 exactly at multiples of 4. */
  lemma QuarterStep(k: int)
    ensures k / 4 - (k - 1) / 4 == if k % 4 == 0 then 1 else 0
  {
    if k % 4 == 0 {
      Div4(k - 1, k / 4 - 1, 3);
    } else {
      Div4(k - 1, k / 4, k % 4 - 1);
    }
  }

  /** Into a year that is not a century, the year term grows by 1, or by 2
      into a leap year. */
  lemma OrdinaryYearStep(y: int, j: int, k: int)
    requires y == 100 * j + k && 0 < k < 100
    ensures !(y % 100 == 0)
    ensures YearTerm(y) - YearTerm(y - 1) == if y % 4 == 0 then 2 else 1
  {
    Div100(y, j, k);
    Div100(y - 1, j, k - 1);
    QuarterStep(k);
    Div4(y, 25 * j + k / 4, k % 4);
  }

  /** Into a century year the year term drops by 118, or by 117 when the
      century is a leap year. */
  lemma CenturyYearStep(y: int, j: int)
    requires y == 100 * j
    ensures y % 100 == 0 && y % 4 == 0
    ensures YearTerm(y) - YearTerm(y - 1) == if y % 400 == 0 then -117 else -118
  {
    Div100(y, j, 0);
    Div100(y - 1, j - 1, 99);
    QuarterStep(j);
    Div4(y, 25 * j, 0);
    Div400(y, j / 4, 100 * (j % 4));
  }

  /** The whole weeks by which consecutive year terms differ beyond the
      year's weekday advance. */
  function YearTermWeeks(y: int): int {
    if y % 100 == 0 then -17 else 0
  }

  /** From one year to the next, Zeller's year term advances by 1, or by 2
      into a leap year, up to whole weeks. */
  lemma YearTermStep(y: int)
    ensures YearTerm(y) - YearTerm(y - 1) == (if LeapYear(y) then 2 else 1) + 7 * YearTermWeeks(y)
  {
    var j := y / 100;
    var k := y % 100;
    if k > 0 {
      OrdinaryYearStep(y, j, k);
    } else {
      CenturyYearStep(y, j);
    }
  }

  /** The first of the next month falls as many days after the first of this
      month as this month has days: the grid's weekday and month length agree. */
  lemma NextMonthWeekday(year: int, month: int)
    requires 0 <= month < 12
    ensures var next := if month == 11 then Weekday(year + 1, 0, 1) else Weekday(year, month + 1, 1);
      next == (Weekday(year, month, 1) + DaysInMonth(year, month)) % 7
  {
    var n := DaysInMonth(year, month);
    ModSum(1 + MonthTerm(month) + YearTerm(ZellerYear(year, month)) + 6, n);
    if month == 1 {
      FebruaryToMarch(year);
    } else if month == 11 {
      DecemberToJanuary(year);
    } else {
      WithinZellerYear(year, month);
    }
  }

  lemma FebruaryToMarch(year: int)
    ensures Weekday(year, 2, 1)
      == (1 + MonthTerm(1) + YearTerm(year - 1) + 6 + DaysInMonth(year, 1)) % 7
  {
    YearTermStep(year);
    assert MonthTerm(1) == 39 && MonthTerm(2) == 10;
    assert Weekday(year, 2, 1) == (1 + 10 + YearTerm(year) + 6) % 7;
    ModShift(7, 10 + YearTerm(year), 39 + YearTerm(year - 1) + DaysInMonth(year, 1), YearTermWeeks(year) - 8);
  }

  lemma DecemberToJanuary(year: int)
    ensures Weekday(year + 1, 0, 1)
      == (1 + MonthTerm(11) + YearTerm(year) + 6 + DaysInMonth(year, 11)) % 7
  {
    assert MonthTerm(11) == 33 && MonthTerm(0) == 36;
    assert Weekday(year + 1, 0, 1) == (1 + 36 + YearTerm(year) + 6) % 7;
    ModShift(7 + YearTerm(year), 36, 33 + 31, -4);
  }

  lemma WithinZellerYear(year: int, month: int)
    requires 0 <= month < 11 && month != 1
    ensures Weekday(year, month + 1, 1)
      == (1 + MonthTerm(month) + YearTerm(ZellerYear(year, month)) + 6 + DaysInMonth(year, month)) % 7
  {
    var y := ZellerYear(year, month);
    assert ZellerYear(year, month + 1) == y;
    MonthTermStep(month);
    assert DaysInMonth(year, month) == DaysInMonth(0, month);
    ModShift(7 + YearTerm(y), MonthTerm(month + 1), MonthTerm(month) + DaysInMonth(year, month), -4);
  }

  /** Within a Zeller year the month term advances by the month's length,
      less four weeks. */
  lemma MonthTermStep(month: int)
    requires 0 <= month < 11 && month != 1
    ensures MonthTerm(month + 1) - MonthTerm(month) - DaysInMonth(0, month) == -28
  {
  }

  /** `getDaysInMonth(date)`: a blank cell for each weekday before the first
      of the month, then one cell per day in order. */
  method GetDaysInMonth(year: int, month: int) returns (days: seq<Option<CalendarDay>>)
    requires 0 <= month < 12
    ensures |days| == Weekday(year, month, 1) + DaysInMonth(year, month)
    ensures forall i :: 0 <= i < Weekday(year, month, 1) ==> days[i] == None
    ensures forall d :: 1 <= d <= DaysInMonth(year, month) ==>
      days[Weekday(year, month, 1) + d - 1] == Some(CalendarDay(year, month, d))
  {
    var start := Weekday(year, month, 1);
    var n := DaysInMonth(year, month);
    days := [];
    var i := 0;
    while i < start
      invariant 0 <= i <= start
      invariant |days| == i
      invariant forall k :: 0 <= k < i ==> days[k] == None
    {
      days := days + [None];
      i := i + 1;
    }
    var day := 1;
    while day <= n
      invariant 1 <= day <= n + 1
      invariant |days| == start + day - 1
      invariant forall k :: 0 <= k < start ==> days[k] == None
      invariant forall d :: 1 <= d < day ==> days[start + d - 1] == Some(CalendarDay(year, month, d))
    {
      days := days + [Some(CalendarDay(year, month, day))];
      day := day + 1;
    }
  }

  /** The cell of day `d` sits in the column of its weekday. */
  lemma CellColumn(year: int, month: int, d: int)
    requires 0 <= month < 12
    requires 1 <= d <= DaysInMonth(year, month)
    ensures (Weekday(year, month, 1) + d - 1) % 7 == Weekday(year, month, d)
  {
    WeekdayShift(year, month, d);
  }

  // ---------------------------------------------------------------------------
  // getInterviewsForDate and upcomingInterviews

  /** Same date, month and full year in local time. */
  function OnDay(dayOf: Timestamp -> CalendarDay, date: CalendarDay): Tagged<Interview> -> bool {
    (t: Tagged<Interview>) => dayOf(t.item.date) == date
  }

  /** `getInterviewsForDate(date)`. */
  function InterviewsForDate(all: seq<Tagged<Interview>>, dayOf: Timestamp -> CalendarDay, date: CalendarDay)
    : (r: seq<Tagged<Interview>>)
    ensures forall i :: 0 <= i < |r| ==> r[i] in all && dayOf(r[i].item.date) == date
    ensures forall i :: 0 <= i < |all| && dayOf(all[i].item.date) == date ==> all[i] in r
    ensures SubsequenceOf(r, all)
    ensures forall t :: multiset(r)[t] == if dayOf(t.item.date) == date then multiset(all)[t] else 0
  {
    FilterIsSubsequence(all, OnDay(dayOf, date));
    FilterCounts(all, OnDay(dayOf, date));
    var r := Filter(all, OnDay(dayOf, date));
    assert forall i :: 0 <= i < |r| ==> r[i] in r && OnDay(dayOf, date)(r[i]) == (dayOf(r[i].item.date) == date);
    r
  }

  /** `new Date(interview.date) >= new Date()`. */
  function NotBefore(now: Timestamp): Tagged<Interview> -> bool {
    (t: Tagged<Interview>) => t.item.date >= now
  }

  /** `new Date(a.date).getTime() - new Date(b.date).getTime() <= 0`. */
  predicate DateLe(a: Tagged<Interview>, b: Tagged<Interview>) {
    a.item.date <= b.item.date
  }

  /** `upcomingInterviews`: the five earliest interviews from now on. */
  function Upcoming(all: seq<Tagged<Interview>>, now: Timestamp): seq<Tagged<Interview>> {
    Take(SortBy(Filter(all, NotBefore(now)), DateLe), 5)
  }

  lemma DateLeTotal()
    ensures TotalPreorder(DateLe)
  {
  }

  /** At most five interviews, all from now on, in date order. */
  lemma UpcomingOrder(all: seq<Tagged<Interview>>, now: Timestamp)
    ensures |Upcoming(all, now)| <= 5
    ensures forall i :: 0 <= i < |Upcoming(all, now)| ==>
      Upcoming(all, now)[i] in all && Upcoming(all, now)[i].item.date >= now
    ensures forall i, j :: 0 <= i < j < |Upcoming(all, now)| ==>
      Upcoming(all, now)[i].item.date <= Upcoming(all, now)[j].item.date
  {
    var f := Filter(all, NotBefore(now));
    var s := SortBy(f, DateLe);
    var r := Upcoming(all, now);
    DateLeTotal();
    SortBySorted(f, DateLe);
    forall i | 0 <= i < |r|
      ensures r[i] in all && r[i].item.date >= now
    {
      assert r[i] == s[i];
      SortByMembers(f, DateLe, r[i]);
      assert NotBefore(now)(r[i]);
    }
    forall i, j | 0 <= i < j < |r|
      ensures r[i].item.date <= r[j].item.date
    {
      assert r[i] == s[i] && r[j] == s[j];
      assert DateLe(s[i], s[j]);
    }
  }

  /** An interview from now on that is left out is not earlier than the
      fifth one listed. */
  lemma UpcomingCover(all: seq<Tagged<Interview>>, now: Timestamp)
    ensures forall k :: 0 <= k < |all| && all[k].item.date >= now ==>
      all[k] in Upcoming(all, now)
      || (|Upcoming(all, now)| == 5 && Upcoming(all, now)[4].item.date <= all[k].item.date)
  {
    var f := Filter(all, NotBefore(now));
    var s := SortBy(f, DateLe);
    var r := Upcoming(all, now);
    DateLeTotal();
    SortBySorted(f, DateLe);
    forall k | 0 <= k < |all| && all[k].item.date >= now
      ensures all[k] in r || (|r| == 5 && r[4].item.date <= all[k].item.date)
    {
      assert NotBefore(now)(all[k]);
      assert all[k] in f;
      SortByMembers(f, DateLe, all[k]);
      var m :| 0 <= m < |s| && s[m] == all[k];
      if m < |r| {
        assert r[m] == s[m];
      } else {
        assert DateLe(s[4], s[m]) && r[4] == s[4];
      }
    }
  }

  // ---------------------------------------------------------------------------
  // handleSaveInterview and handleDeleteInterview

  /** `Omit<Interview, 'id'>`, what the interview form hands over. */
  datatype InterviewData = InterviewData(
    kind: string,
    date: Timestamp,
    duration: Option<int>,
    interviewer: Option<string>,
    notes: Option<string>,
    feedback: Option<string>,
    rating: Option<Scalar>)

  /** An interview without its id: the form's fields. */
  function DataOf(i: Interview): InterviewData {
    InterviewData(i.kind, i.date, i.duration, i.interviewer, i.notes, i.feedback, i.rating)
  }

  /** `{ ...interviewData, id }`: the id is added and every form field is kept. */
  function WithId(data: InterviewData, id: string): (i: Interview)
    ensures i.id == id && DataOf(i) == data
    ensures forall j: Interview :: j.id == id && DataOf(j) == data ==> j == i
  {
    Interview(id, data.kind, data.date, data.duration, data.interviewer, data.notes, data.feedback, data.rating)
  }

  /** The id of the interview being edited, if any. */
  function EditingId(editing: Option<Interview>): Option<string> {
    if editing.Some? then Some(editing.value.id) else None
  }

  /** `updatedInterviews`: the edited interview replaced wherever its id
      occurs, or the new one appended. */
  function SavedInterviews(current: seq<Interview>, editing: Option<Interview>, data: InterviewData, freshId: string)
    : seq<Interview>
  {
    Upsert(current, InterviewId, EditingId(editing), WithId(data, SavedId(EditingId(editing), freshId)))
  }

  /** Saving the same edit of an interview with an id a second time changes
      nothing more. */
  lemma SaveEditIdempotent(current: seq<Interview>, editing: Interview, data: InterviewData, freshId: string)
    requires editing.id != ""
    ensures SavedInterviews(SavedInterviews(current, Some(editing), data, freshId), Some(editing), data, freshId)
         == SavedInterviews(current, Some(editing), data, freshId)
  {
    ReplaceIdempotent(current, InterviewId, editing.id, WithId(data, editing.id));
  }

  /** A new interview saved under an unused id and then deleted leaves the
      list as it was. */
  lemma SaveNewThenDelete(current: seq<Interview>, data: InterviewData, freshId: string)
    requires forall i :: 0 <= i < |current| ==> current[i].id != freshId
    ensures RemoveWhere(SavedInterviews(current, None, data, freshId), InterviewId, freshId) == current
  {
    AppendThenRemove(current, InterviewId, freshId, WithId(data, freshId));
  }

  /** `handleSaveInterview`: without a selected application nothing happens;
      otherwise every record with its id gets the updated interview list,
      computed from the selected record, and a new `lastUpdated`. */
  function SaveInterview(apps: seq<Application>, selected: Option<Application>, editing: Option<Interview>,
                         data: InterviewData, freshId: string, now: Timestamp): (r: seq<Application>)
    ensures selected.None? ==> r == apps
    ensures |r| == |apps|
    ensures selected.Some? ==> forall i :: 0 <= i < |apps| ==>
      r[i] == if apps[i].id == selected.value.id
              then apps[i].(interviews := Some(SavedInterviews(InterviewsOf(selected.value), editing, data, freshId)),
                            lastUpdated := now)
              else apps[i]
  {
    if selected.None? then apps
    else
      var updated := SavedInterviews(InterviewsOf(selected.value), editing, data, freshId);
      UpdateApplication(apps, selected.value.id, NoChanges.(interviews := Some(Some(updated))), now)
  }

  /** `handleDeleteInterview`: an unknown application changes nothing;
      otherwise every record with its id gets the first such record's
      interviews without those carrying the interview id. */
  function DeleteInterview(apps: seq<Application>, interviewId: string, applicationId: string, now: Timestamp)
    : (r: seq<Application>)
    ensures (forall i :: 0 <= i < |apps| ==> apps[i].id != applicationId) ==> r == apps
    ensures |r| == |apps|
    ensures forall i :: 0 <= i < |apps| && apps[i].id != applicationId ==> r[i] == apps[i]
    ensures forall i :: 0 <= i < |apps| && apps[i].id == applicationId ==>
      && r[i].lastUpdated == now
      && r[i].interviews.Some?
      && (forall k :: 0 <= k < |r[i].interviews.value| ==> r[i].interviews.value[k].id != interviewId)
      && SubsequenceOf(r[i].interviews.value, InterviewsOf(FindApplication(apps, applicationId).value))
    ensures forall i :: 0 <= i < |apps| && apps[i].id == applicationId ==>
      r[i] == apps[i].(interviews := Some(RemoveWhere(InterviewsOf(FindApplication(apps, applicationId).value),
                                                      InterviewId, interviewId)),
                       lastUpdated := now)
  {
    match FindApplication(apps, applicationId)
    case None => apps
    case Some(app) =>
      var updated := RemoveWhere(InterviewsOf(app), InterviewId, interviewId);
      UpdateApplication(apps, applicationId, NoChanges.(interviews := Some(Some(updated))), now)
  }
}

=== FILE: contact_form.dfy ===
/** The contact form (`ContactForm.tsx`): its initial state, the change
    handler and the submit guard that hands the contact to the contacts view. */
module ContactForm {
  import opened Wrappers
  import opened Types
  import opened Contacts

  /** `formData`: every input holds text. */
  datatype FormState = FormState(
    name: string,
    role: string,
    email: string,
    linkedin: string,
    notes: string,
    applicationId: string)

  /** The initial `formData`: the contact's properties, "" where absent.
      `carriedId` is `contact?.applicationId`, which the contact type does not
      declare. */
  function InitialForm(contact: Option<Contact>, selected: Option<Application>, carriedId: Option<string>)
    : (f: FormState)
    ensures contact.None? ==> f.name == "" && f.role == "" && f.email == "" && f.linkedin == "" && f.notes == ""
    ensures f.applicationId == StartingApplicationId(selected, carriedId)
  {
    var appId := StartingApplicationId(selected, carriedId);
    match contact
    case None => FormState("", "", "", "", "", appId)
    case Some(c) => FormState(c.name, c.role, OrEmpty(c.email), OrEmpty(c.linkedin), OrEmpty(c.notes), appId)
  }

  /** `handleSubmit`: without an application nothing is saved; otherwise the
      payload holds the five contact fields and not the application. */
  function Submit(f: FormState): (r: Option<ContactData>)
    ensures r.None? <==> f.applicationId == ""
    ensures r.Some? ==>
      && r.value.name == f.name && r.value.role == f.role && r.value.email == Some(f.email)
      && r.value.linkedin == Some(f.linkedin) && r.value.notes == Some(f.notes)
  {
    if f.applicationId == "" then None
    else Some(ContactData(f.name, f.role, Some(f.email), Some(f.linkedin), Some(f.notes)))
  }

  /** A contact with every property set and non-empty, opened on an
      application, is saved unchanged when submitted untouched. */
  lemma EditRoundTrip(c: Contact, selected: Option<Application>, carriedId: Option<string>)
    requires Truthy(c.email) && Truthy(c.linkedin) && Truthy(c.notes)
    requires StartingApplicationId(selected, carriedId) != ""
    ensures var r := Submit(InitialForm(Some(c), selected, carriedId));
      r.Some? && WithId(r.value, c.id) == c
  {
  }

  /** Opened on no application and with none carried, the form cannot be
      submitted until one is chosen. */
  lemma NoApplicationBlocksSubmit(c: Option<Contact>)
    ensures Submit(InitialForm(c, None, None)).None?
  {
  }

  /** The form's inputs, by their `name`. */
  datatype Field = NameField | RoleField | EmailField | LinkedinField | NotesField | ApplicationIdField

  /** `formData[name]`. */
  function FieldValue(f: FormState, name: Field): string {
    match name
    case NameField => f.name
    case RoleField => f.role
    case EmailField => f.email
    case LinkedinField => f.linkedin
    case NotesField => f.notes
    case ApplicationIdField => f.applicationId
  }

  /** `handleChange`: the named field takes the value verbatim; every other
      field keeps its value. */
  function HandleChange(f: FormState, name: Field, value: string): (r: FormState)
    ensures FieldValue(r, name) == value
    ensures forall other :: other != name ==> FieldValue(r, other) == FieldValue(f, other)
  {
    match name
    case NameField => f.(name := value)
    case RoleField => f.(role := value)
    case EmailField => f.(email := value)
    case LinkedinField => f.(linkedin := value)
    case NotesField => f.(notes := value)
    case ApplicationIdField => f.(applicationId := value)
  }

  /** Choosing an application makes the form submittable. */
  lemma ChosenApplicationAllowsSubmit(f: FormState, id: string)
    requires id != ""
    ensures Submit(HandleChange(f, ApplicationIdField, id)).Some?
  {
  }
}

=== FILE: contacts.dfy ===
/** The contacts view (`Contacts.tsx`): every contact of every application,
    narrowed by a search term and a role filter, and the handlers that save
    and delete a contact of one application. */
module Contacts {
  import opened Wrappers
  import opened Types
  import opened Seqs
  import opened Text
  import opened Owned
  import opened Repository

  function ContactId(c: Contact): string {
    c.id
  }

  // ---------------------------------------------------------------------------
  // allContacts

  /** `allContacts`. */
  function AllContacts(apps: seq<Application>): seq<Tagged<Contact>> {
    Flatten(apps, ContactsOf)
  }

  /** One entry per contact, a missing list counting as empty, each tagged
      with the application it belongs to. */
  lemma AllContactsSpec(apps: seq<Application>, t: Tagged<Contact>)
    ensures |AllContacts(apps)| == TotalItems(apps, ContactsOf)
    ensures t in AllContacts(apps) <==> t.owner in apps && t.item in ContactsOf(t.owner)
  {
    FlattenLength(apps, ContactsOf);
    FlattenMembers(apps, ContactsOf, t);
  }

  // ---------------------------------------------------------------------------
  // filteredContacts

  /** The role filter's options. */
  datatype RoleFilter = AllRoles | Recruiter | HiringManager | Employee

  /** The option values of the role filter. */
  function RoleFilterValue(f: RoleFilter): string {
    match f
    case AllRoles => "all"
    case Recruiter => "recruiter"
    case HiringManager => "hiring-manager"
    case Employee => "employee"
  }

  /** `filterBy.replace('-', ' ')`: the text a role must contain. */
  function RoleNeedle(f: RoleFilter): string {
    ReplaceFirst(RoleFilterValue(f), '-', ' ')
  }

  /** The hyphen of "hiring-manager" becomes a space. */
  lemma HiringManagerNeedle()
    ensures RoleNeedle(HiringManager) == "hiring manager"
  {
    assert "hiring-manager" == "hiring" + ['-'] + "manager";
    ReplaceAfter("hiring", '-', ' ', "manager");
    assert "hiring" + [' '] + "manager" == "hiring manager";
  }

  /** "recruiter" has no hyphen and is searched for as it is. */
  lemma RecruiterNeedle()
    ensures RoleNeedle(Recruiter) == "recruiter"
  {
    Text.ReplaceAbsent("recruiter", '-', ' ');
  }

  /** "employee" has no hyphen and is searched for as it is. */
  lemma EmployeeNeedle()
    ensures RoleNeedle(Employee) == "employee"
  {
    Text.ReplaceAbsent("employee", '-', ' ');
  }

  /** `matchesSearch`: the lower-cased term occurs in the lower-cased name,
      role or company. */
  predicate MatchesSearch(t: Tagged<Contact>, term: string) {
    var needle := Lower(term);
    || Contains(Lower(t.item.name), needle)
    || Contains(Lower(t.item.role), needle)
    || Contains(Lower(t.owner.company), needle)
  }

  /** `matchesFilter`. */
  predicate MatchesRole(t: Tagged<Contact>, f: RoleFilter) {
    f == AllRoles || Contains(Lower(t.item.role), RoleNeedle(f))
  }

  function Shown(term: string, f: RoleFilter): Tagged<Contact> -> bool {
    (t: Tagged<Contact>) => MatchesSearch(t, term) && MatchesRole(t, f)
  }

  /** `filteredContacts`: the contacts matching both the search and the role
      filter, in their original order. */
  function FilteredContacts(all: seq<Tagged<Contact>>, term: string, f: RoleFilter): (r: seq<Tagged<Contact>>)
    ensures forall i :: 0 <= i < |r| ==> r[i] in all && MatchesSearch(r[i], term) && MatchesRole(r[i], f)
    ensures forall i :: 0 <= i < |all| && MatchesSearch(all[i], term) && MatchesRole(all[i], f) ==> all[i] in r
    ensures SubsequenceOf(r, all)
    ensures forall t :: multiset(r)[t] == if MatchesSearch(t, term) && MatchesRole(t, f) then multiset(all)[t] else 0
  {
    FilterIsSubsequence(all, Shown(term, f));
    FilterCounts(all, Shown(term, f));
    var r := Filter(all, Shown(term, f));
    assert forall i :: 0 <= i < |r| ==> r[i] in r && Shown(term, f)(r[i]) == (MatchesSearch(r[i], term) && MatchesRole(r[i], f));
    r
  }

  /** With an empty search and "all" roles every contact is listed. */
  lemma UnfilteredShowsAll(all: seq<Tagged<Contact>>)
    ensures FilteredContacts(all, "", AllRoles) == all
  {
    forall i | 0 <= i < |all|
      ensures Shown("", AllRoles)(all[i])
    {
      ContainsEmpty(Lower(all[i].item.name));
    }
    FilterAll(all, Shown("", AllRoles));
  }

  /** The search ignores the case of the term. */
  lemma SearchIgnoresCase(all: seq<Tagged<Contact>>, term: string, f: RoleFilter)
    ensures FilteredContacts(all, Lower(term), f) == FilteredContacts(all, term, f)
  {
    LowerIdempotent(term);
    FilterSame(all, Shown(Lower(term), f), Shown(term, f));
  }

  /** Choosing a role never shows a contact that "all" roles would hide. */
  lemma RoleFilterNarrows(all: seq<Tagged<Contact>>, term: string, f: RoleFilter)
    ensures SubsequenceOf(FilteredContacts(all, term, f), FilteredContacts(all, term, AllRoles))
  {
    FilterImplies(all, Shown(term, f), Shown(term, AllRoles));
  }

  /** A contact is shown under a role exactly when its lower-cased role
      contains that role's text. */
  lemma RoleMatch(t: Tagged<Contact>)
    ensures MatchesRole(t, HiringManager) <==> Contains(Lower(t.item.role), "hiring manager")
    ensures MatchesRole(t, Recruiter) <==> Contains(Lower(t.item.role), "recruiter")
    ensures MatchesRole(t, Employee) <==> Contains(Lower(t.item.role), "employee")
  {
    HiringManagerNeedle();
    RecruiterNeedle();
    EmployeeNeedle();
  }

  // ---------------------------------------------------------------------------
  // handleSaveContact and handleDeleteContact

  /** `Omit<Contact, 'id'>`, what the contact form hands over. */
  datatype ContactData = ContactData(
    name: string,
    role: string,
    email: Option<string>,
    linkedin: Option<string>,
    notes: Option<string>)

  /** A contact without its id: the form's fields. */
  function DataOf(c: Contact): ContactData {
    ContactData(c.name, c.role, c.email, c.linkedin, c.notes)
  }

  /** `{ ...contactData, id }`: the id is added and every form field is kept. */
  function WithId(data: ContactData, id: string): (c: Contact)
    ensures c.id == id && DataOf(c) == data
    ensures forall d: Contact :: d.id == id && DataOf(d) == data ==> d == c
  {
    Contact(id, data.name, data.role, data.email, data.linkedin, data.notes)
  }

  /** The id of the contact being edited, if any. */
  function EditingId(editing: Option<Contact>): Option<string> {
    if editing.Some? then Some(editing.value.id) else None
  }

  /** `updatedContacts`: the edited contact replaced wherever its id occurs,
      or the new one appended. */
  function SavedContacts(current: seq<Contact>, editing: Option<Contact>, data: ContactData, freshId: string)
    : seq<Contact>
  {
    Upsert(current, ContactId, EditingId(editing), WithId(data, SavedId(EditingId(editing), freshId)))
  }

  /** Saving the same edit of a contact with an id a second time changes
      nothing more. */
  lemma SaveEditIdempotent(current: seq<Contact>, editing: Contact, data: ContactData, freshId: string)
    requires editing.id != ""
    ensures SavedContacts(SavedContacts(current, Some(editing), data, freshId), Some(editing), data, freshId)
         == SavedContacts(current, Some(editing), data, freshId)
  {
    ReplaceIdempotent(current, ContactId, editing.id, WithId(data, editing.id));
  }

  /** A new contact saved under an unused id and then deleted leaves the list
      as it was. */
  lemma SaveNewThenDelete(current: seq<Contact>, data: ContactData, freshId: string)
    requires forall i :: 0 <= i < |current| ==> current[i].id != freshId
    ensures RemoveWhere(SavedContacts(current, None, data, freshId), ContactId, freshId) == current
  {
    AppendThenRemove(current, ContactId, freshId, WithId(data, freshId));
  }

  /** `handleSaveContact`: without a selected application nothing happens;
      otherwise every record with its id gets the updated contact list,
      computed from the selected record, and a new `lastUpdated`. */
  function SaveContact(apps: seq<Application>, selected: Option<Application>, editing: Option<Contact>,
                       data: ContactData, freshId: string, now: Timestamp): (r: seq<Application>)
    ensures selected.None? ==> r == apps
    ensures |r| == |apps|
    ensures selected.Some? ==> forall i :: 0 <= i < |apps| ==>
      r[i] == if apps[i].id == selected.value.id
              then apps[i].(contacts := Some(SavedContacts(ContactsOf(selected.value), editing, data, freshId)),
                            lastUpdated := now)
              else apps[i]
  {
    if selected.None? then apps
    else
      var updated := SavedContacts(ContactsOf(selected.value), editing, data, freshId);
      UpdateApplication(apps, selected.value.id, NoChanges.(contacts := Some(Some(updated))), now)
  }

  /** `handleDeleteContact`: an unknown application changes nothing;
      otherwise every record with its id gets the first such record's
      contacts without those carrying the contact id. */
  function DeleteContact(apps: seq<Application>, contactId: string, applicationId: string, now: Timestamp)
    : (r: seq<Application>)
    ensures (forall i :: 0 <= i < |apps| ==> apps[i].id != applicationId) ==> r == apps
    ensures |r| == |apps|
    ensures forall i :: 0 <= i < |apps| && apps[i].id != applicationId ==> r[i] == apps[i]
    ensures forall i :: 0 <= i < |apps| && apps[i].id == applicationId ==>
      && r[i].lastUpdated == now
      && r[i].contacts.Some?
      && (forall k :: 0 <= k < |r[i].contacts.value| ==> r[i].contacts.value[k].id != contactId)
      && SubsequenceOf(r[i].contacts.value, ContactsOf(FindApplication(apps, applicationId).value))
    ensures forall i :: 0 <= i < |apps| && apps[i].id == applicationId ==>
      r[i] == apps[i].(contacts := Some(RemoveWhere(ContactsOf(FindApplication(apps, applicationId).value),
                                                    ContactId, contactId)),
                       lastUpdated := now)
  {
    match FindApplication(apps, applicationId)
    case None => apps
    case Some(app) =>
      var updated := RemoveWhere(ContactsOf(app), ContactId, contactId);
      UpdateApplication(apps, applicationId, NoChanges.(contacts := Some(Some(updated))), now)
  }
}

=== FILE: digit_groups.dfy ===
/** The digit-group scanner shared by the salary chart and `formatCurrency`:
    every match of the global regular expression `\d{1,3}(?:,\d{3})*`, and `parseInt` of a match
    with its commas removed. Since nothing follows the repetition, the first
    alternative the regular expression engine tries always succeeds: up to
    three digits, then as many complete ",ddd" groups as are present. */
module DigitGroups {
  import opened Text

  predicate AllDigits(t: string) {
    forall i :: 0 <= i < |t| ==> IsDigit(t[i])
  }

  /** Zero or more ",ddd" groups and nothing else. */
  predicate IsCommaGroups(t: string)
    decreases |t|
  {
    |t| == 0 || (|t| >= 4 && t[0] == ',' && IsDigit(t[1]) && IsDigit(t[2]) && IsDigit(t[3])
                 && IsCommaGroups(t[4..]))
  }

  /** A whole match: one to three digits, then zero or more ",ddd" groups. */
  predicate IsGroup(g: string) {
    1 <= LeadDigits(g, 0) && IsCommaGroups(g[LeadDigits(g, 0)..])
  }

  /** The greedy `\d{1,3}` at position `i`: how many digits it takes. */
  function LeadDigits(s: string, i: nat): (k: nat)
    requires i <= |s|
    ensures k <= 3 && i + k <= |s|
    ensures AllDigits(s[i..i + k])
    ensures i < |s| && IsDigit(s[i]) ==> k >= 1
    ensures k < 3 && i + k < |s| ==> !IsDigit(s[i + k])
  {
    if i < |s| && IsDigit(s[i]) then
      if i + 1 < |s| && IsDigit(s[i + 1]) then
        if i + 2 < |s| && IsDigit(s[i + 2]) then 3 else 2
      else 1
    else 0
  }

  predicate CommaGroupAt(s: string, j: nat) {
    j + 4 <= |s| && s[j] == ',' && IsDigit(s[j + 1]) && IsDigit(s[j + 2]) && IsDigit(s[j + 3])
  }

  /** The greedy `(?:,\d{3})*` from position `j`: where it stops. */
  function GroupsEnd(s: string, j: nat): (e: nat)
    requires j <= |s|
    ensures j <= e <= |s|
    ensures IsCommaGroups(s[j..e])
    ensures !CommaGroupAt(s, e)
    decreases |s| - j
  {
    if CommaGroupAt(s, j) then
      var e := GroupsEnd(s, j + 4);
      assert s[j..e][4..] == s[j + 4..e];
      e
    else
      assert s[j..j] == "";
      j
  }

  /** The matches found from position `i` on. */
  function MatchesFrom(s: string, i: nat): (r: seq<string>)
    requires i <= |s|
    ensures forall g :: g in r ==> IsGroup(g)
    decreases |s| - i
  {
    if i == |s| then []
    else if !IsDigit(s[i]) then MatchesFrom(s, i + 1)
    else
      var k := LeadDigits(s, i);
      var e := GroupsEnd(s, i + k);
      assert s[i..e][..k] == s[i..i + k];
      assert s[i..e][k..] == s[i + k..e];
      IsGroupIntro(s[i..e], k);
      [s[i..e]] + MatchesFrom(s, e)
  }

  /** `s.match(...)` with the expression above, no match giving the empty sequence
      (the source treats `null` and a short array alike). */
  function Matches(s: string): (r: seq<string>)
    ensures forall g :: g in r ==> IsGroup(g)
  {
    MatchesFrom(s, 0)
  }

  /** The digits of a string, in order. */
  function DigitsOf(s: string): (r: string)
    ensures AllDigits(r)
    decreases |s|
  {
    if |s| == 0 then ""
    else if IsDigit(s[0]) then [s[0]] + DigitsOf(s[1..])
    else DigitsOf(s[1..])
  }

  lemma {:induction false} DigitsOfAppend(a: string, b: string)
    ensures DigitsOf(a + b) == DigitsOf(a) + DigitsOf(b)
    decreases |a|
  {
    if |a| == 0 {
      assert a + b == b;
    } else {
      assert (a + b)[1..] == a[1..] + b;
      DigitsOfAppend(a[1..], b);
    }
  }

  function Concat(gs: seq<string>): string
    decreases |gs|
  {
    if |gs| == 0 then "" else gs[0] + Concat(gs[1..])
  }

  /** One match covers the digits of its span. */
  lemma MatchStepDigits(s: string, i: nat, e: nat, rest: seq<string>)
    requires i <= e <= |s|
    requires DigitsOf(Concat(rest)) == DigitsOf(s[e..])
    ensures DigitsOf(Concat([s[i..e]] + rest)) == DigitsOf(s[i..])
  {
    assert ([s[i..e]] + rest)[1..] == rest;
    assert Concat([s[i..e]] + rest) == s[i..e] + Concat(rest);
    DigitsOfAppend(s[i..e], Concat(rest));
    assert s[i..] == s[i..e] + s[e..];
    DigitsOfAppend(s[i..e], s[e..]);
  }

  /** The scanner neither skips nor repeats a digit: the digits of the matches,
      taken in order, are exactly the digits of the scanned text. */
  lemma {:induction false} MatchesFromCoverDigits(s: string, i: nat)
    requires i <= |s|
    ensures DigitsOf(Concat(MatchesFrom(s, i))) == DigitsOf(s[i..])
    decreases |s| - i
  {
    if i < |s| {
      if !IsDigit(s[i]) {
        MatchesFromCoverDigits(s, i + 1);
        assert s[i..] == [s[i]] + s[i + 1..];
      } else {
        var e := GroupsEnd(s, i + LeadDigits(s, i));
        MatchesFromCoverDigits(s, e);
        MatchStepDigits(s, i, e, MatchesFrom(s, e));
      }
    }
  }

  /** The scanner neither skips nor repeats a digit: the digits of the matches,
      taken in order, are exactly the digits of the scanned text. */
  lemma MatchesCoverDigits(s: string)
    ensures DigitsOf(Concat(Matches(s))) == DigitsOf(s)
  {
    MatchesFromCoverDigits(s, 0);
    assert s[0..] == s;
  }

  /** `g.replace(/,/g, '')`. */
  function RemoveCommas(g: string): (r: string)
    ensures forall i :: 0 <= i < |r| ==> r[i] != ',' && r[i] in g
    ensures forall c :: c != ',' ==> multiset(r)[c] == multiset(g)[c]
    decreases |g|
  {
    if |g| == 0 then ""
    else
      assert g == [g[0]] + g[1..];
      if g[0] == ',' then RemoveCommas(g[1..])
      else [g[0]] + RemoveCommas(g[1..])
  }

  function DigitValue(c: char): (d: nat)
    requires IsDigit(c)
    ensures d < 10
  {
    c as int - '0' as int
  }

  /** `parseInt` of a string of decimal digits. */
  function ParseDigits(ds: string): nat
    requires AllDigits(ds)
    decreases |ds|
  {
    if |ds| == 0 then 0
    else ParseDigits(ds[..|ds| - 1]) * 10 + DigitValue(ds[|ds| - 1])
  }

  lemma {:induction false} CommaGroupsChars(t: string)
    requires IsCommaGroups(t)
    ensures forall i :: 0 <= i < |t| ==> IsDigit(t[i]) || t[i] == ','
    decreases |t|
  {
    if |t| > 0 {
      CommaGroupsChars(t[4..]);
      forall i | 4 <= i < |t|
        ensures IsDigit(t[i]) || t[i] == ','
      {
        assert t[i] == t[4..][i - 4];
      }
    }
  }

  /** A match holds only digits and commas. */
  lemma GroupChars(g: string)
    requires IsGroup(g)
    ensures forall i :: 0 <= i < |g| ==> IsDigit(g[i]) || g[i] == ','
  {
    IsGroupElim(g);
    var k := LeadDigits(g, 0);
    CommaGroupsChars(g[k..]);
    forall i | 0 <= i < |g|
      ensures IsDigit(g[i]) || g[i] == ','
    {
      if i < k {
        assert g[i] == g[..k][i];
      } else {
        assert g[i] == g[k..][i - k];
      }
    }
  }

  /** `parseInt(g.replace(/,/g, ''))` for a match. */
  function GroupValue(g: string): nat
    requires IsGroup(g)
  {
    GroupChars(g);
    ParseDigits(RemoveCommas(g))
  }

  // Reading back numbers written with thousands separators.

  function DigitChar(d: nat): (c: char)
    requires d < 10
    ensures IsDigit(c) && DigitValue(c) == d
  {
    ('0' as int + d) as char
  }

  /** The decimal numeral of `n`, without leading zeros. */
  function Decimal(n: nat): (r: string)
    ensures 1 <= |r| && AllDigits(r)
    ensures n < 10 ==> |r| == 1
    ensures n < 100 ==> |r| <= 2
    ensures n < 1000 ==> |r| <= 3
    decreases n
  {
    if n < 10 then [DigitChar(n)]
    else Decimal(n / 10) + [DigitChar(n % 10)]
  }

  /** Reading `Decimal(n)` back gives `n`. */
  lemma {:induction false} DecimalValue(n: nat)
    ensures ParseDigits(Decimal(n)) == n
    decreases n
  {
    if n >= 10 {
      DecimalValue(n / 10);
      var r := Decimal(n);
      assert r[..|r| - 1] == Decimal(n / 10);
      assert ParseDigits(r) == ParseDigits(Decimal(n / 10)) * 10 + n % 10;
    }
  }

  /** The length of the run of digits at the start of `s`. */
  function DigitRun(s: string): (k: nat)
    ensures k <= |s| && AllDigits(s[..k])
    ensures k < |s| ==> !IsDigit(s[k])
    decreases |s|
  {
    if |s| == 0 || !IsDigit(s[0]) then 0
    else
      var k := DigitRun(s[1..]);
      assert s[..k + 1] == [s[0]] + s[1..][..k];
      k + 1
  }

  /** A string of digits is one run. */
  lemma {:induction false} DigitRunAll(t: string)
    requires AllDigits(t)
    ensures DigitRun(t) == |t|
    decreases |t|
  {
    if |t| > 0 {
      DigitRunAll(t[1..]);
    }
  }

  /** `parseInt(s) || 0` for text without leading white space: an optional
      sign, then the leading digits; without any digit `parseInt` gives NaN,
      which becomes 0. */
  function ParseIntOrZero(s: string): int {
    if |s| > 0 && (s[0] == '-' || s[0] == '+') then
      var k := DigitRun(s[1..]);
      var v: int := ParseDigits(s[1..][..k]);
      if s[0] == '-' then -v else v
    else
      ParseDigits(s[..DigitRun(s)])
  }

  /** `${n}` for a whole number. */
  function NumberText(n: int): string {
    if n < 0 then "-" + Decimal(-n) else Decimal(n)
  }

  /** Reading a written whole number back gives the number. */
  lemma ParseNumberText(n: int)
    ensures ParseIntOrZero(NumberText(n)) == n
  {
    var d := Decimal(if n < 0 then -n else n);
    DigitRunAll(d);
    DecimalValue(if n < 0 then -n else n);
    assert d[..|d|] == d;
    if n < 0 {
      assert NumberText(n)[1..] == d;
    } else {
      assert IsDigit(d[0]);
    }
  }

  /** Three digits, with leading zeros. */
  function Pad3(n: nat): (r: string)
    requires n < 1000
    ensures |r| == 3 && AllDigits(r)
    ensures ParseDigits(r) == n
  {
    var r := [DigitChar(n / 100), DigitChar(n / 10 % 10), DigitChar(n % 10)];
    assert r[..2][..1] == r[..1];
    assert ParseDigits(r[..1]) == n / 100;
    assert ParseDigits(r[..2]) == n / 100 * 10 + n / 10 % 10;
    assert n / 100 * 10 + n / 10 % 10 == n / 10;
    r
  }

  /** The en-US `toLocaleString` of a whole number: groups of three digits
      separated by commas. */
  function Grouped(n: nat): (r: string)
    decreases n
  {
    if n < 1000 then Decimal(n) else Grouped(n / 1000) + [','] + Pad3(n % 1000)
  }

  /** How many digits precede the first comma of `Grouped(n)`. */
  function LeadLength(n: nat): (k: nat)
    decreases n
  {
    if n < 1000 then |Decimal(n)| else LeadLength(n / 1000)
  }

  lemma {:induction false} CommaGroupsAppend(t: string, p: string)
    requires IsCommaGroups(t)
    requires |p| == 3 && AllDigits(p)
    ensures IsCommaGroups(t + [','] + p)
    decreases |t|
  {
    if |t| == 0 {
      var u := t + [','] + p;
      assert u[1] == p[0] && u[2] == p[1] && u[3] == p[2] && u[4..] == "";
    } else {
      CommaGroupsAppend(t[4..], p);
      var u := t + [','] + p;
      assert u[4..] == t[4..] + [','] + p;
    }
  }

  /** `Grouped(n)` is a single match: a lead of one to three digits, then groups. */
  lemma {:induction false} GroupedShape(n: nat)
    ensures 1 <= LeadLength(n) <= 3 && LeadLength(n) <= |Grouped(n)|
    ensures AllDigits(Grouped(n)[..LeadLength(n)])
    ensures IsCommaGroups(Grouped(n)[LeadLength(n)..])
    decreases n
  {
    var g := Grouped(n);
    var k := LeadLength(n);
    if n < 1000 {
      assert g[..k] == g;
      assert g[k..] == "";
    } else {
      GroupedShape(n / 1000);
      var h := Grouped(n / 1000);
      assert g == h + [','] + Pad3(n % 1000);
      assert g[..k] == h[..k];
      assert g[k..] == h[k..] + [','] + Pad3(n % 1000);
      CommaGroupsAppend(h[k..], Pad3(n % 1000));
    }
  }

  lemma GroupedIsGroup(n: nat)
    ensures IsGroup(Grouped(n))
  {
    GroupedShape(n);
    IsGroupIntro(Grouped(n), LeadLength(n));
  }

  lemma {:induction false} RemoveCommasAppend(a: string, b: string)
    ensures RemoveCommas(a + b) == RemoveCommas(a) + RemoveCommas(b)
    decreases |a|
  {
    if |a| == 0 {
      assert a + b == b;
    } else {
      assert (a + b)[1..] == a[1..] + b;
      RemoveCommasAppend(a[1..], b);
    }
  }

  function Pow10(k: nat): (r: nat)
    ensures r >= 1
  {
    if k == 0 then 1 else 10 * Pow10(k - 1)
  }

  lemma AllDigitsAppend(a: string, b: string)
    requires AllDigits(a) && AllDigits(b)
    ensures AllDigits(a + b)
  {
    forall i | 0 <= i < |a + b|
      ensures IsDigit((a + b)[i])
    {
      if i < |a| { assert (a + b)[i] == a[i]; } else { assert (a + b)[i] == b[i - |a|]; }
    }
  }

  lemma ShiftDigit(pa: int, p: int, pb: int, d: int)
    ensures (pa * p + pb) * 10 + d == pa * (10 * p) + (pb * 10 + d)
  {
  }

  lemma {:induction false} ParseDigitsAppend(a: string, b: string)
    requires AllDigits(a) && AllDigits(b)
    ensures AllDigits(a + b)
    ensures ParseDigits(a + b) == ParseDigits(a) * Pow10(|b|) + ParseDigits(b)
    decreases |b|
  {
    AllDigitsAppend(a, b);
    if |b| == 0 {
      assert a + b == a;
    } else {
      var b' := b[..|b| - 1];
      assert AllDigits(b');
      var ab := a + b;
      assert ab[..|ab| - 1] == a + b';
      assert ab[|ab| - 1] == b[|b| - 1];
      ParseDigitsAppend(a, b');
      ShiftDigit(ParseDigits(a), Pow10(|b'|), ParseDigits(b'), DigitValue(b[|b| - 1]));
    }
  }

  lemma {:induction false} RemoveCommasOfDigits(t: string)
    requires AllDigits(t)
    ensures RemoveCommas(t) == t
    decreases |t|
  {
    if |t| > 0 {
      RemoveCommasOfDigits(t[1..]);
      assert t == [t[0]] + t[1..];
    }
  }

  /** Removing the commas of a numeral with more than three digits leaves the
      digits of the higher groups followed by the lowest three. */
  lemma RemoveCommasGrouped(n: nat)
    requires n >= 1000
    ensures RemoveCommas(Grouped(n)) == RemoveCommas(Grouped(n / 1000)) + Pad3(n % 1000)
  {
    var h := Grouped(n / 1000);
    var p := Pad3(n % 1000);
    assert Grouped(n) == (h + [',']) + p;
    RemoveCommasAppend(h + [','], p);
    RemoveCommasAppend(h, [',']);
    RemoveCommasOfDigits(p);
    assert RemoveCommas([',']) == "";
  }

  /** Appending three digits multiplies by a thousand and adds their value. */
  lemma AppendThree(x: string, p: string)
    requires AllDigits(x) && AllDigits(p) && |p| == 3
    ensures AllDigits(x + p)
    ensures ParseDigits(x + p) == ParseDigits(x) * 1000 + ParseDigits(p)
  {
    ParseDigitsAppend(x, p);
    assert Pow10(3) == 1000;
  }

  /** Reading `Grouped(n)` back gives `n`. */
  lemma {:induction false} GroupedValue(n: nat)
    ensures IsGroup(Grouped(n))
    ensures GroupValue(Grouped(n)) == n
    decreases n
  {
    GroupedIsGroup(n);
    if n < 1000 {
      RemoveCommasOfDigits(Decimal(n));
      DecimalValue(n);
    } else {
      GroupedValue(n / 1000);
      var h := Grouped(n / 1000);
      GroupChars(h);
      var rh := RemoveCommas(h);
      assert AllDigits(rh);
      assert ParseDigits(rh) == n / 1000;
      RemoveCommasGrouped(n);
      AppendThree(rh, Pad3(n % 1000));
      assert ParseDigits(rh + Pad3(n % 1000)) == n / 1000 * 1000 + n % 1000;
    }
  }

  /** Non-digits are skipped. */
  lemma {:induction false} SkipNonDigits(s: string, i: nat, j: nat)
    requires i <= j <= |s|
    requires forall k :: i <= k < j ==> !IsDigit(s[k])
    ensures MatchesFrom(s, i) == MatchesFrom(s, j)
    decreases j - i
  {
    if i < j {
      SkipNonDigits(s, i + 1, j);
    }
  }

  /** The comma groups are consumed up to a position that starts no group. */
  lemma {:induction false} GroupsEndAt(s: string, j: nat, e: nat)
    requires j <= e <= |s|
    requires IsCommaGroups(s[j..e])
    requires e == |s| || s[e] != ','
    ensures GroupsEnd(s, j) == e
    decreases e - j
  {
    if j < e {
      var t := s[j..e];
      assert |t| >= 4;
      assert t[0] == s[j] && t[1] == s[j + 1] && t[2] == s[j + 2] && t[3] == s[j + 3];
      assert CommaGroupAt(s, j);
      assert t[4..] == s[j + 4..e];
      GroupsEndAt(s, j + 4, e);
    }
  }

  /** Position `d` of a slice that equals `g`. */
  lemma SliceAt(s: string, i: nat, g: string, d: nat)
    requires i + |g| <= |s| && s[i..i + |g|] == g
    requires d < |g|
    ensures s[i + d] == g[d]
  {
    assert s[i..i + |g|][d] == s[i + d];
  }

  /** One to three digits followed by comma groups make a whole match, and
      the scanner's leading digits stop exactly after them. */
  lemma IsGroupIntro(g: string, k: nat)
    requires 1 <= k <= 3 && k <= |g| && AllDigits(g[..k]) && IsCommaGroups(g[k..])
    ensures LeadDigits(g, 0) == k && IsGroup(g)
  {
    assert g[0..|g|] == g;
    LeadOfGroup(g, 0, g, k);
  }

  /** The parts of a whole match. */
  lemma IsGroupElim(g: string)
    requires IsGroup(g)
    ensures var k := LeadDigits(g, 0);
      1 <= k <= 3 && k <= |g| && AllDigits(g[..k]) && IsCommaGroups(g[k..])
  {
    var k := LeadDigits(g, 0);
    assert g[..k] == g[0..0 + k];
  }

  /** The scanner's leading `\d{1,3}` takes exactly the digits before the
      first comma of a whole match. */
  lemma LeadOfGroup(s: string, i: nat, g: string, k: nat)
    requires i + |g| <= |s| && s[i..i + |g|] == g
    requires 1 <= k <= 3 && k <= |g| && AllDigits(g[..k]) && IsCommaGroups(g[k..])
    requires i + |g| == |s| || !IsDigit(s[i + |g|])
    ensures LeadDigits(s, i) == k
  {
    var lead := g[..k];
    SliceAt(s, i, g, 0);
    assert IsDigit(s[i]) by { assert g[0] == lead[0]; }
    if k >= 2 {
      SliceAt(s, i, g, 1);
      assert g[1] == lead[1];
    }
    if k >= 3 {
      SliceAt(s, i, g, 2);
      assert g[2] == lead[2];
    }
    if k < 3 && k < |g| {
      var tail := g[k..];
      assert tail[0] == ',';
      assert g[k] == tail[0];
      SliceAt(s, i, g, k);
    }
  }

  /** One step of the scan at a digit. */
  lemma MatchesFromStep(s: string, i: nat)
    requires i < |s| && IsDigit(s[i])
    ensures var e := GroupsEnd(s, i + LeadDigits(s, i));
      MatchesFrom(s, i) == [s[i..e]] + MatchesFrom(s, e)
  {
  }

  /** The tail of a slice is a slice. */
  lemma SliceTail(s: string, i: nat, e: nat, k: nat)
    requires i + k <= e <= |s|
    ensures s[i..e][k..] == s[i + k..e]
  {
  }

  /** A whole match followed by neither a digit nor a comma is read as one
      match, with nothing taken from around it. */
  lemma MatchGroup(s: string, i: nat, g: string)
    requires IsGroup(g)
    requires i + |g| <= |s| && s[i..i + |g|] == g
    requires i + |g| == |s| || (!IsDigit(s[i + |g|]) && s[i + |g|] != ',')
    ensures MatchesFrom(s, i) == [g] + MatchesFrom(s, i + |g|)
  {
    var k := MatchBounds(s, i, g);
    MatchesFromStep(s, i);
  }

  /** Where the scanner's digits and comma groups end on a whole match. */
  lemma MatchBounds(s: string, i: nat, g: string) returns (k: nat)
    requires IsGroup(g)
    requires i + |g| <= |s| && s[i..i + |g|] == g
    requires i + |g| == |s| || (!IsDigit(s[i + |g|]) && s[i + |g|] != ',')
    ensures i < |s| && IsDigit(s[i])
    ensures k == LeadDigits(s, i) && GroupsEnd(s, i + k) == i + |g|
  {
    IsGroupElim(g);
    k := LeadDigits(g, 0);
    var e := i + |g|;
    SliceAt(s, i, g, 0);
    assert g[0] == g[..k][0];
    LeadOfGroup(s, i, g, k);
    SliceTail(s, i, e, k);
    GroupsEndAt(s, i + k, e);
  }

  predicate NoDigits(t: string) {
    forall i :: 0 <= i < |t| ==> !IsDigit(t[i])
  }

  /** `sym + a + " - " + sym + b` with both amounts written by `Grouped`: the
      shape of the sample salaries and of a formatted salary range. */
  function RangeText(sym: string, a: nat, b: nat): string {
    sym + Grouped(a) + (" - " + sym) + Grouped(b)
  }

  /** Digit-free text followed by a whole match and a clean boundary yields
      that match next. */
  lemma PrefixedGroup(s: string, i: nat, pre: string, g: string)
    requires NoDigits(pre) && IsGroup(g)
    requires i + |pre| + |g| <= |s|
    requires s[i..i + |pre|] == pre
    requires s[i + |pre|..i + |pre| + |g|] == g
    requires var e := i + |pre| + |g|;
      e == |s| || (!IsDigit(s[e]) && s[e] != ',')
    ensures MatchesFrom(s, i) == [g] + MatchesFrom(s, i + |pre| + |g|)
  {
    forall k | i <= k < i + |pre|
      ensures !IsDigit(s[k])
    {
      assert s[k] == pre[k - i];
    }
    var j := i + |pre|;
    SkipNonDigits(s, i, j);
    assert MatchesFrom(s, i) == MatchesFrom(s, j);
    MatchGroup(s, j, g);
  }

  lemma SeparatorNoDigits(sym: string)
    requires NoDigits(sym)
    ensures NoDigits(" - " + sym)
  {
    var mid := " - " + sym;
    forall k | 0 <= k < |mid|
      ensures !IsDigit(mid[k])
    {
      if k >= 3 { assert mid[k] == sym[k - 3]; }
    }
  }

  /** Where the pieces of `x + y + z + w` sit. */
  lemma Layout(x: string, y: string, z: string, w: string)
    ensures var s := x + y + z + w;
      && s[0..|x|] == x
      && (|z| > 0 ==> !IsDigit(z[0]) ==> !IsDigit(s[|x| + |y|]))
      && s[|x|..|x| + |y|] == y
      && s[|x| + |y|..|x| + |y| + |z|] == z
      && s[|x| + |y| + |z|..|x| + |y| + |z| + |w|] == w
      && |s| == |x| + |y| + |z| + |w|
      && (|z| > 0 ==> s[|x| + |y|] == z[0])
  {
  }

  /** Two digit-free separators each followed by a whole match, ending the
      text: exactly the two matches are found. */
  lemma TwoGroups(s: string, pre1: string, g1: string, pre2: string, g2: string)
    requires NoDigits(pre1) && NoDigits(pre2) && |pre2| > 0 && pre2[0] != ','
    requires IsGroup(g1) && IsGroup(g2)
    requires |s| == |pre1| + |g1| + |pre2| + |g2|
    requires s[0..|pre1|] == pre1
    requires s[|pre1|..|pre1| + |g1|] == g1
    requires s[|pre1| + |g1|..|pre1| + |g1| + |pre2|] == pre2
    requires s[|pre1| + |g1| + |pre2|..|s|] == g2
    requires s[|pre1| + |g1|] == pre2[0]
    ensures MatchesFrom(s, 0) == [g1, g2]
  {
    FirstOfTwo(s, pre1, g1, pre2);
    var i := |pre1| + |g1|;
    assert A: i + |pre2| + |g2| == |s|;
    assert B: s[i..i + |pre2|] == pre2;
    assert C: s[i + |pre2|..|s|] == g2;
    LastGroup(s, i, pre2, g2);
  }

  /** The first of two matches separated by digit-free text starting with
      neither a digit nor a comma. */
  lemma FirstOfTwo(s: string, pre1: string, g1: string, pre2: string)
    requires NoDigits(pre1) && NoDigits(pre2) && |pre2| > 0 && pre2[0] != ','
    requires IsGroup(g1)
    requires |pre1| + |g1| < |s|
    requires s[0..|pre1|] == pre1
    requires s[|pre1|..|pre1| + |g1|] == g1
    requires s[|pre1| + |g1|] == pre2[0]
    ensures MatchesFrom(s, 0) == [g1] + MatchesFrom(s, |pre1| + |g1|)
  {
    var e := |pre1| + |g1|;
    assert !IsDigit(pre2[0]);
    assert !IsDigit(s[e]) && s[e] != ',';
    PrefixedGroup(s, 0, pre1, g1);
  }

  /** Digit-free text followed by a whole match that ends the text yields
      just that match. */
  lemma LastGroup(s: string, i: nat, pre: string, g: string)
    requires NoDigits(pre) && IsGroup(g)
    requires i + |pre| + |g| == |s|
    requires s[i..i + |pre|] == pre
    requires s[i + |pre|..|s|] == g
    ensures MatchesFrom(s, i) == [g]
  {
    PrefixedGroup(s, i, pre, g);
    assert MatchesFrom(s, |s|) == [];
  }

  /** A range written with a digit-free symbol scans to exactly its two amounts. */
  lemma RangeTextMatches(sym: string, a: nat, b: nat)
    requires NoDigits(sym)
    ensures Matches(RangeText(sym, a, b)) == [Grouped(a), Grouped(b)]
  {
    SeparatorNoDigits(sym);
    GroupedIsGroup(a);
    GroupedIsGroup(b);
    Layout(sym, Grouped(a), " - " + sym, Grouped(b));
    TwoGroups(RangeText(sym, a, b), sym, Grouped(a), " - " + sym, Grouped(b));
  }
}

=== FILE: funnel.dfy ===
/** The conversion funnel: applications, interviews and offers as bars
    against the number of applications. */
module Funnel {
  import opened Types
  import opened Seqs
  import opened Bars

  /** One `stages` entry, with the bar width the chart derives from it. */
  datatype Stage = Stage(name: string, count: nat, width: real)

  /** "No data available", or the three stages. */
  datatype FunnelChart = NoFunnelData | FunnelChart(stages: seq<Stage>)

  /** A stage of `count` records against `total`, at least 5% wide. */
  function FunnelStage(name: string, count: nat, total: nat): (s: Stage)
    requires count <= total
    ensures s.name == name && s.count == count
    ensures 5.0 <= s.width <= 100.0
    ensures s.width >= Percentage(count, total)
    ensures s.width == Percentage(count, total) || s.width == 5.0
  {
    Stage(name, count, StageWidth(count, total))
  }

  /** The records in the "Interviews" stage and the "Offers" stage are
      distinct, and together they are the records the aggregator counts as
      responded: an offer is not counted as an interview here. */
  lemma StagesPartitionResponded(apps: seq<Application>)
    ensures CountKey(apps, StatusOf, Interviewing) + CountKey(apps, StatusOf, Offered)
      == Count(apps, InterviewOrOffer)
    ensures Count(apps, InterviewOrOffer) <= |apps|
  {
    forall i | 0 <= i < |apps|
      ensures !(KeyIs(StatusOf, Interviewing)(apps[i]) && KeyIs(StatusOf, Offered)(apps[i]))
      ensures InterviewOrOffer(apps[i])
          <==> KeyIs(StatusOf, Interviewing)(apps[i]) || KeyIs(StatusOf, Offered)(apps[i])
    {
    }
    CountDisjoint(apps, KeyIs(StatusOf, Interviewing), KeyIs(StatusOf, Offered), InterviewOrOffer);
  }

  function ConversionFunnel(apps: seq<Application>): (c: FunnelChart)
    ensures c.NoFunnelData? <==> |apps| == 0
    ensures c.FunnelChart? ==>
      && |c.stages| == 3
      && c.stages[0].count == |apps|
      && c.stages[1].count == CountKey(apps, StatusOf, Interviewing)
      && c.stages[2].count == CountKey(apps, StatusOf, Offered)
      && c.stages[1].count + c.stages[2].count <= c.stages[0].count
      && c.stages[0].width == 100.0
      && (forall i :: 0 <= i < 3 ==> 5.0 <= c.stages[i].width <= 100.0)
      && (forall i :: 0 <= i < 3 ==> c.stages[i].width >= Percentage(c.stages[i].count, |apps|))
      && (forall i :: 0 <= i < 3 ==>
            c.stages[i].width == Percentage(c.stages[i].count, |apps|) || c.stages[i].width == 5.0)
  {
    var total := |apps|;
    if total == 0 then NoFunnelData
    else
      var interviewed := CountKey(apps, StatusOf, Interviewing);
      var offers := CountKey(apps, StatusOf, Offered);
      StagesPartitionResponded(apps);
      FunnelChart([
        FunnelStage("Applications", total, total),
        FunnelStage("Interviews", interviewed, total),
        FunnelStage("Offers", offers, total)
      ])
  }
}

=== FILE: grouping.dfy ===
/** Counting records per key: the
    `reduce((acc, x) => { acc[k] = (acc[k] || 0) + 1; return acc }, {})` the
    aggregations use, read back through `Object.entries`. The entries are
    kept in the order their keys were first inserted, which is the order
    `Object.entries` gives for keys that are not integer-like. */
module Grouping {
  import opened Wrappers
  import opened Seqs
  import opened Sorting

  /** One `[key, count]` pair of `Object.entries`. */
  datatype Entry<K> = Entry(key: K, count: nat)

  function KeyOf<K>(e: Entry<K>): K {
    e.key
  }

  /** Some entry carries key `k`: `k in acc`. */
  ghost predicate HasKey<K>(acc: seq<Entry<K>>, k: K) {
    exists i :: 0 <= i < |acc| && acc[i].key == k
  }

  /** The sum of the counts of a list of entries. */
  function SumCounts<K>(es: seq<Entry<K>>): nat
    decreases |es|
  {
    if |es| == 0 then 0 else es[0].count + SumCounts(es[1..])
  }

  /** `acc[k] = (acc[k] || 0) + 1`: increments the entry for `k` in place, or
      appends a new entry at the end when `k` is not yet a key. */
  function Bump<K(==)>(acc: seq<Entry<K>>, k: K): (r: seq<Entry<K>>)
    ensures |r| == |acc| || |r| == |acc| + 1
    decreases |acc|
  {
    if |acc| == 0 then [Entry(k, 1)]
    else if acc[0].key == k then [acc[0].(count := acc[0].count + 1)] + acc[1..]
    else [acc[0]] + Bump(acc[1..], k)
  }

  /** The object after folding every element of `xs`, in order, into `{}`. */
  function Tally<T, K(==)>(xs: seq<T>, key: T -> K): seq<Entry<K>>
    decreases |xs|
  {
    if |xs| == 0 then []
    else Bump(Tally(xs[..|xs| - 1], key), key(xs[|xs| - 1]))
  }

  /** Bumping adds one to the total. */
  lemma {:induction false} BumpSum<K>(acc: seq<Entry<K>>, k: K)
    ensures SumCounts(Bump(acc, k)) == SumCounts(acc) + 1
    decreases |acc|
  {
    if |acc| > 0 && acc[0].key != k {
      BumpSum(acc[1..], k);
      assert Bump(acc, k)[1..] == Bump(acc[1..], k);
    } else if |acc| > 0 {
      assert Bump(acc, k)[1..] == acc[1..];
    }
  }

  /** With distinct keys, bumping `k` increments exactly the entry for `k`, or
      appends `Entry(k, 1)` when there is none; every key stays where it was. */
  lemma {:induction false} BumpShape<K>(acc: seq<Entry<K>>, k: K)
    requires DistinctBy(acc, KeyOf)
    ensures HasKey(acc, k) ==> |Bump(acc, k)| == |acc|
    ensures !HasKey(acc, k) ==> |Bump(acc, k)| == |acc| + 1 && Bump(acc, k)[|acc|] == Entry(k, 1)
    ensures forall i :: 0 <= i < |acc| ==> Bump(acc, k)[i].key == acc[i].key
    ensures forall i :: 0 <= i < |acc| ==>
      Bump(acc, k)[i].count == acc[i].count + (if acc[i].key == k then 1 else 0)
    decreases |acc|
  {
    if |acc| == 0 {
    } else {
      var r := Bump(acc, k);
      var tail := acc[1..];
      assert DistinctBy(tail, KeyOf);
      if acc[0].key == k {
        forall i | 1 <= i < |acc|
          ensures acc[i].key != k
        {
          assert KeyOf(acc[0]) != KeyOf(acc[i]);
        }
      } else {
        BumpShape(tail, k);
        assert HasKey(acc, k) ==> HasKey(tail, k) by {
          if HasKey(acc, k) {
            var i :| 0 <= i < |acc| && acc[i].key == k;
            assert tail[i - 1].key == k;
          }
        }
        assert HasKey(tail, k) ==> HasKey(acc, k) by {
          if HasKey(tail, k) {
            var i :| 0 <= i < |tail| && tail[i].key == k;
            assert acc[i + 1].key == k;
          }
        }
        forall i | 1 <= i < |acc|
          ensures r[i] == Bump(tail, k)[i - 1]
        {
        }
      }
    }
  }

  /** Bumping keeps keys distinct. */
  lemma BumpDistinct<K>(acc: seq<Entry<K>>, k: K)
    requires DistinctBy(acc, KeyOf)
    ensures DistinctBy(Bump(acc, k), KeyOf)
  {
    BumpShape(acc, k);
    var r := Bump(acc, k);
    forall i, j | 0 <= i < j < |r|
      ensures KeyOf(r[i]) != KeyOf(r[j])
    {
      if j == |acc| {
        assert !HasKey(acc, k);
        assert acc[i].key != k;
      } else {
        assert KeyOf(acc[i]) != KeyOf(acc[j]);
      }
    }
  }

  /** Splits a non-empty sequence before its last element: the step of `Tally`. */
  lemma {:induction false} TallyStep<T, K>(xs: seq<T>, key: T -> K)
    requires |xs| > 0
    ensures xs == xs[..|xs| - 1] + [xs[|xs| - 1]]
    ensures Tally(xs, key) == Bump(Tally(xs[..|xs| - 1], key), key(xs[|xs| - 1]))
  {
    assert xs == xs[..|xs| - 1] + [xs[|xs| - 1]];
  }

  lemma {:induction false} TallyDistinct<T, K>(xs: seq<T>, key: T -> K)
    ensures DistinctBy(Tally(xs, key), KeyOf)
    decreases |xs|
  {
    if |xs| > 0 {
      TallyStep(xs, key);
      TallyDistinct(xs[..|xs| - 1], key);
      BumpDistinct(Tally(xs[..|xs| - 1], key), key(xs[|xs| - 1]));
    }
  }

  lemma {:induction false} TallySum<T, K>(xs: seq<T>, key: T -> K)
    ensures SumCounts(Tally(xs, key)) == |xs|
    decreases |xs|
  {
    if |xs| > 0 {
      TallyStep(xs, key);
      TallySum(xs[..|xs| - 1], key);
      BumpSum(Tally(xs[..|xs| - 1], key), key(xs[|xs| - 1]));
    }
  }

  lemma {:induction false} TallyCovers<T, K>(xs: seq<T>, key: T -> K)
    ensures forall j :: 0 <= j < |xs| ==> HasKey(Tally(xs, key), key(xs[j]))
    decreases |xs|
  {
    if |xs| > 0 {
      var p := xs[..|xs| - 1];
      var x := xs[|xs| - 1];
      TallyStep(xs, key);
      TallyCovers(p, key);
      TallyDistinct(p, key);
      var acc := Tally(p, key);
      var r := Tally(xs, key);
      BumpShape(acc, key(x));
      forall j | 0 <= j < |xs|
        ensures HasKey(r, key(xs[j]))
      {
        if j < |p| {
          assert xs[j] == p[j];
          var i :| 0 <= i < |acc| && acc[i].key == key(p[j]);
          assert r[i].key == key(xs[j]);
        } else if HasKey(acc, key(x)) {
          var i :| 0 <= i < |acc| && acc[i].key == key(x);
          assert r[i].key == key(xs[j]);
        } else {
          assert r[|acc|].key == key(xs[j]);
        }
      }
    }
  }

  lemma {:induction false} TallyCounts<T, K>(xs: seq<T>, key: T -> K)
    ensures forall i :: 0 <= i < |Tally(xs, key)| ==>
      Tally(xs, key)[i].count == CountKey(xs, key, Tally(xs, key)[i].key) >= 1
    decreases |xs|
  {
    if |xs| > 0 {
      var p := xs[..|xs| - 1];
      var x := xs[|xs| - 1];
      TallyStep(xs, key);
      TallyCounts(p, key);
      TallyDistinct(p, key);
      var acc := Tally(p, key);
      var r := Tally(xs, key);
      BumpShape(acc, key(x));
      forall i | 0 <= i < |r|
        ensures r[i].count == CountKey(xs, key, r[i].key) >= 1
      {
        CountSnoc(p, x, KeyIs(key, r[i].key));
        assert KeyIs(key, r[i].key)(x) == (key(x) == r[i].key);
        if i == |acc| {
          TallyCovers(p, key);
          CountKeyZero(p, key, key(x));
        }
      }
    }
  }

  /** A key missing from the tally is carried by no element. */
  lemma TallyAbsent<T, K>(xs: seq<T>, key: T -> K, k: K)
    requires !HasKey(Tally(xs, key), k)
    ensures CountKey(xs, key, k) == 0
  {
    TallyCovers(xs, key);
    forall j | 0 <= j < |xs|
      ensures key(xs[j]) != k
    {
      assert HasKey(Tally(xs, key), key(xs[j]));
    }
    CountKeyZero(xs, key, k);
  }

  /** The tally of `xs` lists each key of `xs` once, with the number of
      elements carrying it; its counts add up to `|xs|`. */
  lemma TallySpec<T, K>(xs: seq<T>, key: T -> K)
    ensures DistinctBy(Tally(xs, key), KeyOf)
    ensures forall i :: 0 <= i < |Tally(xs, key)| ==>
      Tally(xs, key)[i].count == CountKey(xs, key, Tally(xs, key)[i].key) >= 1
    ensures forall j :: 0 <= j < |xs| ==> HasKey(Tally(xs, key), key(xs[j]))
    ensures SumCounts(Tally(xs, key)) == |xs|
  {
    TallyDistinct(xs, key);
    TallyCounts(xs, key);
    TallyCovers(xs, key);
    TallySum(xs, key);
  }

  /** Inserting an entry adds its count to the total. */
  lemma {:induction false} SumInsert<K>(e: Entry<K>, es: seq<Entry<K>>, le: (Entry<K>, Entry<K>) -> bool)
    ensures SumCounts(Insert(e, es, le)) == e.count + SumCounts(es)
    decreases |es|
  {
    if |es| > 0 && !le(e, es[0]) {
      SumInsert(e, es[1..], le);
      assert Insert(e, es, le)[1..] == Insert(e, es[1..], le);
    } else if |es| > 0 {
      assert ([e] + es)[1..] == es;
    }
  }

  /** Sorting entries keeps the total. */
  lemma {:induction false} SumSortBy<K>(es: seq<Entry<K>>, le: (Entry<K>, Entry<K>) -> bool)
    ensures SumCounts(SortBy(es, le)) == SumCounts(es)
    decreases |es|
  {
    if |es| > 0 {
      SumSortBy(es[1..], le);
      SumInsert(es[0], SortBy(es[1..], le), le);
    }
  }

  /** `acc[k]`: the count stored under `k`, `None` for `undefined`. */
  function Lookup<K(==)>(acc: seq<Entry<K>>, k: K): (r: Option<nat>)
    ensures r.None? <==> !HasKey(acc, k)
    ensures r.Some? ==> exists i :: 0 <= i < |acc| && acc[i] == Entry(k, r.value)
    decreases |acc|
  {
    if |acc| == 0 then None
    else if acc[0].key == k then Some(acc[0].count)
    else
      var r := Lookup(acc[1..], k);
      assert HasKey(acc, k) ==> HasKey(acc[1..], k) by {
        if HasKey(acc, k) {
          var i :| 0 <= i < |acc| && acc[i].key == k;
          assert acc[1..][i - 1].key == k;
        }
      }
      assert HasKey(acc[1..], k) ==> HasKey(acc, k) by {
        if HasKey(acc[1..], k) {
          var i :| 0 <= i < |acc[1..]| && acc[1..][i].key == k;
          assert acc[i + 1].key == k;
        }
      }
      assert r.Some? ==> exists i :: 0 <= i < |acc| && acc[i] == Entry(k, r.value) by {
        if r.Some? {
          var i :| 0 <= i < |acc[1..]| && acc[1..][i] == Entry(k, r.value);
          assert acc[i + 1] == Entry(k, r.value);
        }
      }
      r
  }

  /** With distinct keys, looking up the key of an entry finds that entry's count. */
  lemma {:induction false} LookupAt<K>(acc: seq<Entry<K>>, i: nat)
    requires DistinctBy(acc, KeyOf)
    requires i < |acc|
    ensures Lookup(acc, acc[i].key) == Some(acc[i].count)
    decreases |acc|
  {
    if i > 0 {
      assert KeyOf(acc[0]) != KeyOf(acc[i]);
      assert DistinctBy(acc[1..], KeyOf);
      LookupAt(acc[1..], i - 1);
    }
  }

  /** `ks.forEach(k => { if (!(k in acc)) acc[k] = 0 })`: appends a zero
      entry for every key of `ks` not yet present, in the order of `ks`. */
  function FillMissing<K(==)>(acc: seq<Entry<K>>, ks: seq<K>): seq<Entry<K>>
    decreases |ks|
  {
    if |ks| == 0 then acc
    else FillMissing(if Lookup(acc, ks[0]).Some? then acc else acc + [Entry(ks[0], 0)], ks[1..])
  }

  /** One step of `FillMissing`: the key is present afterwards, the old
      entries are kept, and an appended entry is new with count zero. */
  lemma FillStep<K>(acc: seq<Entry<K>>, k: K)
    requires DistinctBy(acc, KeyOf)
    ensures var next := if Lookup(acc, k).Some? then acc else acc + [Entry(k, 0)];
      && |next| >= |acc|
      && (forall i :: 0 <= i < |acc| ==> next[i] == acc[i])
      && DistinctBy(next, KeyOf)
      && HasKey(next, k)
      && (forall i :: |acc| <= i < |next| ==> next[i].count == 0 && !HasKey(acc, next[i].key))
  {
    if Lookup(acc, k).None? {
      var next := acc + [Entry(k, 0)];
      assert next[|acc|].key == k;
      forall i, j | 0 <= i < j < |next|
        ensures KeyOf(next[i]) != KeyOf(next[j])
      {
        if j == |acc| {
          assert acc[i].key != k;
        } else {
          assert next[i] == acc[i] && next[j] == acc[j];
        }
      }
    }
  }

  /** Filling keeps the existing entries in front and distinct keys, makes
      every key of `ks` present, and adds only new keys with count zero. */
  lemma {:induction false} FillMissingShape<K>(acc: seq<Entry<K>>, ks: seq<K>)
    requires DistinctBy(acc, KeyOf)
    ensures |FillMissing(acc, ks)| >= |acc|
    ensures forall i :: 0 <= i < |acc| ==> FillMissing(acc, ks)[i] == acc[i]
    ensures DistinctBy(FillMissing(acc, ks), KeyOf)
    ensures forall j :: 0 <= j < |ks| ==> HasKey(FillMissing(acc, ks), ks[j])
    ensures forall i :: |acc| <= i < |FillMissing(acc, ks)| ==>
      FillMissing(acc, ks)[i].count == 0 && !HasKey(acc, FillMissing(acc, ks)[i].key)
    decreases |ks|
  {
    if |ks| > 0 {
      var k := ks[0];
      var next := if Lookup(acc, k).Some? then acc else acc + [Entry(k, 0)];
      FillStep(acc, k);
      FillMissingShape(next, ks[1..]);
      var r := FillMissing(acc, ks);
      assert r == FillMissing(next, ks[1..]);
      forall i | 0 <= i < |acc|
        ensures r[i] == acc[i]
      {
        assert r[i] == next[i];
      }
      forall j | 0 <= j < |ks|
        ensures HasKey(r, ks[j])
      {
        if j == 0 {
          var i :| 0 <= i < |next| && next[i].key == k;
          assert r[i] == next[i];
        } else {
          assert ks[j] == ks[1..][j - 1];
        }
      }
      forall i | |acc| <= i < |r|
        ensures r[i].count == 0 && !HasKey(acc, r[i].key)
      {
        if i < |next| {
          assert r[i] == next[i];
        } else {
          assert !HasKey(next, r[i].key);
          forall m | 0 <= m < |acc|
            ensures acc[m].key != r[i].key
          {
            assert next[m] == acc[m];
          }
        }
      }
    }
  }

  /** The total of two lists put together. */
  lemma {:induction false} SumCountsAppend<K>(a: seq<Entry<K>>, b: seq<Entry<K>>)
    ensures SumCounts(a + b) == SumCounts(a) + SumCounts(b)
    decreases |a|
  {
    if |a| > 0 {
      SumCountsAppend(a[1..], b);
      assert (a + b)[1..] == a[1..] + b;
    } else {
      assert a + b == b;
    }
  }

  /** Filling adds only zero counts, so the total stays. */
  lemma {:induction false} FillMissingSum<K>(acc: seq<Entry<K>>, ks: seq<K>)
    ensures SumCounts(FillMissing(acc, ks)) == SumCounts(acc)
    decreases |ks|
  {
    if |ks| > 0 {
      var next := if Lookup(acc, ks[0]).Some? then acc else acc + [Entry(ks[0], 0)];
      FillMissingSum(next, ks[1..]);
      SumCountsAppend(acc, [Entry(ks[0], 0)]);
      assert SumCounts([Entry(ks[0], 0)]) == 0 by {
        assert [Entry(ks[0], 0)][1..] == [];
      }
    }
  }
}

=== FILE: interview_form.dfy ===
/** The interview form (`InterviewForm.tsx`): its initial state, the change
    handler and the submit guard that hands the interview to the calendar. */
module InterviewForm {
  import opened Wrappers
  import opened Types
  import opened DigitGroups
  import opened Calendar

  /** `formData`. The duration input is a number input, so the duration is
      always a number; the rating starts as a number and holds the option's
      text once the select changes it. */
  datatype FormState = FormState(
    kind: string,
    date: string,
    duration: int,
    interviewer: string,
    notes: string,
    feedback: string,
    rating: Scalar,
    applicationId: string)

  /** JavaScript truthiness of a number or string. */
  predicate ScalarTruthy(v: Scalar) {
    match v
    case Number(n) => n != 0
    case Str(t) => t != ""
  }

  /** The initial `formData`. `carriedId` is `interview?.applicationId`, which
      the interview type does not declare; `toInput` is
      `new Date(date).toISOString().slice(0, 16)`. */
  function InitialForm(interview: Option<Interview>, selected: Option<Application>, carriedId: Option<string>,
                       toInput: Timestamp -> string): (f: FormState)
    ensures interview.None? ==>
      && f.kind == "Phone Screen" && f.date == "" && f.duration == 60 && f.rating == Number(0)
      && f.interviewer == "" && f.notes == "" && f.feedback == ""
    ensures f.applicationId == StartingApplicationId(selected, carriedId)
  {
    var appId := StartingApplicationId(selected, carriedId);
    match interview
    case None => FormState("Phone Screen", "", 60, "", "", "", Number(0), appId)
    case Some(i) =>
      FormState(
        if i.kind != "" then i.kind else "Phone Screen",
        toInput(i.date),
        if i.duration.Some? && i.duration.value != 0 then i.duration.value else 60,
        OrEmpty(i.interviewer),
        OrEmpty(i.notes),
        OrEmpty(i.feedback),
        if i.rating.Some? && ScalarTruthy(i.rating.value) then i.rating.value else Number(0),
        appId)
  }

  /** `handleSubmit`: without a date nothing is saved; otherwise the payload
      holds the seven interview fields and neither an id nor the
      application. `parseDate` is `new Date(formData.date)`. */
  function Submit(f: FormState, parseDate: string -> Timestamp): (r: Option<InterviewData>)
    ensures r.None? <==> f.date == ""
    ensures r.Some? ==>
      && r.value.kind == f.kind && r.value.date == parseDate(f.date) && r.value.duration == Some(f.duration)
      && r.value.interviewer == Some(f.interviewer) && r.value.notes == Some(f.notes)
      && r.value.feedback == Some(f.feedback) && r.value.rating == Some(f.rating)
  {
    if f.date == "" then None
    else Some(InterviewData(f.kind, parseDate(f.date), Some(f.duration), Some(f.interviewer), Some(f.notes),
                            Some(f.feedback), Some(f.rating)))
  }

  /** An interview whose every property is set, truthy, and whose date the
      form's text reads back, is saved unchanged when submitted untouched. */
  lemma EditRoundTrip(i: Interview, selected: Option<Application>, carriedId: Option<string>,
                      toInput: Timestamp -> string, parseDate: string -> Timestamp)
    requires i.kind != "" && toInput(i.date) != "" && parseDate(toInput(i.date)) == i.date
    requires i.duration.Some? && i.duration.value != 0
    requires Truthy(i.interviewer) && Truthy(i.notes) && Truthy(i.feedback)
    requires i.rating.Some? && ScalarTruthy(i.rating.value)
    ensures var r := Submit(InitialForm(Some(i), selected, carriedId, toInput), parseDate);
      r.Some? && WithId(r.value, i.id) == i
  {
  }

  /** The form's inputs, by their `name`. */
  datatype Field = KindField | DateField | DurationField | InterviewerField | NotesField | FeedbackField
                 | RatingField | ApplicationIdField

  /** `formData[name]`. */
  function FieldValue(f: FormState, name: Field): Scalar {
    match name
    case KindField => Str(f.kind)
    case DateField => Str(f.date)
    case DurationField => Number(f.duration)
    case InterviewerField => Str(f.interviewer)
    case NotesField => Str(f.notes)
    case FeedbackField => Str(f.feedback)
    case RatingField => f.rating
    case ApplicationIdField => Str(f.applicationId)
  }

  /** `handleChange`: the named field takes the input's value, through
      `parseInt(value) || 0` for the number input (the duration) and verbatim
      otherwise; every other field keeps its value. */
  function HandleChange(f: FormState, name: Field, value: string): (r: FormState)
    ensures FieldValue(r, name) == if name == DurationField then Number(ParseIntOrZero(value)) else Str(value)
    ensures forall other :: other != name ==> FieldValue(r, other) == FieldValue(f, other)
  {
    match name
    case KindField => f.(kind := value)
    case DateField => f.(date := value)
    case DurationField => f.(duration := ParseIntOrZero(value))
    case InterviewerField => f.(interviewer := value)
    case NotesField => f.(notes := value)
    case FeedbackField => f.(feedback := value)
    case RatingField => f.(rating := Str(value))
    case ApplicationIdField => f.(applicationId := value)
  }

  /** Typing a whole number into the duration stores that number. */
  lemma DurationRoundTrip(f: FormState, n: int)
    ensures HandleChange(f, DurationField, NumberText(n)).duration == n
  {
    ParseNumberText(n);
  }

  /** Clearing the date blocks the submit. */
  lemma ClearedDateBlocksSubmit(f: FormState, parseDate: string -> Timestamp)
    ensures Submit(HandleChange(f, DateField, ""), parseDate).None?
  {
  }
}

=== FILE: owned.dfy ===
/** The edits the calendar and contacts views make to the interviews or
    contacts of one application: replace every entry with a given id, append
    a new entry, or remove every entry with a given id. */
module Owned {
  import opened Wrappers
  import opened Types
  import opened Seqs

  /** An entry of an owned list with the application it belongs to:
      `{ ...item, application: app }`. */
  datatype Tagged<S> = Tagged(item: S, owner: Application)

  /** The entries of one application, each tagged with it. */
  function Tag<S>(app: Application, items: Application -> seq<S>): (r: seq<Tagged<S>>)
    ensures |r| == |items(app)|
    ensures forall i :: 0 <= i < |r| ==> r[i] == Tagged(items(app)[i], app)
  {
    seq(|items(app)|, i requires 0 <= i < |items(app)| => Tagged(items(app)[i], app))
  }

  /** `applications.flatMap(app => (items(app) || []).map(...))`. */
  function Flatten<S>(apps: seq<Application>, items: Application -> seq<S>): seq<Tagged<S>>
    decreases |apps|
  {
    if |apps| == 0 then [] else Tag(apps[0], items) + Flatten(apps[1..], items)
  }

  /** The number of entries over all applications. */
  function TotalItems<S>(apps: seq<Application>, items: Application -> seq<S>): nat
    decreases |apps|
  {
    if |apps| == 0 then 0 else |items(apps[0])| + TotalItems(apps[1..], items)
  }

  /** The flattened list has one entry per entry of every application. */
  lemma {:induction false} FlattenLength<S>(apps: seq<Application>, items: Application -> seq<S>)
    ensures |Flatten(apps, items)| == TotalItems(apps, items)
    decreases |apps|
  {
    if |apps| > 0 {
      FlattenLength(apps[1..], items);
    }
  }

  /** An entry of the flattened list is an entry of its owner, and the owner
      is one of the applications; every such pair is listed. */
  lemma {:induction false} FlattenMembers<S>(apps: seq<Application>, items: Application -> seq<S>, t: Tagged<S>)
    ensures t in Flatten(apps, items) <==> t.owner in apps && t.item in items(t.owner)
    decreases |apps|
  {
    if |apps| > 0 {
      FlattenMembers(apps[1..], items, t);
      var head := Tag(apps[0], items);
      assert t in head <==> t.owner == apps[0] && t.item in items(apps[0]) by {
        if t.owner == apps[0] && t.item in items(apps[0]) {
          var i :| 0 <= i < |items(apps[0])| && items(apps[0])[i] == t.item;
          assert head[i] == t;
        }
      }
      assert t.owner in apps <==> t.owner == apps[0] || t.owner in apps[1..] by {
        assert apps == [apps[0]] + apps[1..];
      }
    }
  }

  /** `editing?.id || Date.now().toString()`: the id of the edited entry,
      unless it is empty. */
  function SavedId(editingId: Option<string>, freshId: string): (id: string)
    ensures editingId.Some? && editingId.value != "" ==> id == editingId.value
    ensures editingId.None? || editingId.value == "" ==> id == freshId
  {
    if editingId.Some? && editingId.value != "" then editingId.value else freshId
  }

  /** `editing ? current.map(x => x.id === editing.id ? saved : x) : [...current, saved]`. */
  function Upsert<S>(current: seq<S>, idOf: S -> string, editingId: Option<string>, saved: S): (r: seq<S>)
    ensures editingId.None? ==> r == current + [saved]
    ensures editingId.Some? ==> |r| == |current|
    ensures editingId.Some? ==> forall i :: 0 <= i < |current| ==>
      r[i] == if idOf(current[i]) == editingId.value then saved else current[i]
  {
    if editingId.Some? then ReplaceWhere(current, idOf, editingId.value, saved)
    else current + [saved]
  }

  /** `xs.map(x => idOf(x) === id ? y : x)`. */
  function ReplaceWhere<T>(xs: seq<T>, idOf: T -> string, id: string, y: T): (r: seq<T>)
    ensures |r| == |xs|
    ensures forall i :: 0 <= i < |xs| && idOf(xs[i]) == id ==> r[i] == y
    ensures forall i :: 0 <= i < |xs| && idOf(xs[i]) != id ==> r[i] == xs[i]
    decreases |xs|
  {
    if |xs| == 0 then []
    else [if idOf(xs[0]) == id then y else xs[0]] + ReplaceWhere(xs[1..], idOf, id, y)
  }

  /** Replacing an id no entry has changes nothing. */
  lemma {:induction false} ReplaceAbsent<T>(xs: seq<T>, idOf: T -> string, id: string, y: T)
    requires forall i :: 0 <= i < |xs| ==> idOf(xs[i]) != id
    ensures ReplaceWhere(xs, idOf, id, y) == xs
    decreases |xs|
  {
    if |xs| > 0 {
      ReplaceAbsent(xs[1..], idOf, id, y);
      assert [xs[0]] + xs[1..] == xs;
    }
  }

  /** A replacement that keeps the id can be repeated without effect. */
  lemma {:induction false} ReplaceIdempotent<T>(xs: seq<T>, idOf: T -> string, id: string, y: T)
    requires idOf(y) == id
    ensures ReplaceWhere(ReplaceWhere(xs, idOf, id, y), idOf, id, y) == ReplaceWhere(xs, idOf, id, y)
    decreases |xs|
  {
    if |xs| > 0 {
      var r := ReplaceWhere(xs, idOf, id, y);
      ReplaceIdempotent(xs[1..], idOf, id, y);
      assert r[1..] == ReplaceWhere(xs[1..], idOf, id, y);
    }
  }

  /** The predicate "the id of `x` is not `id`". */
  function IdIsNot<T>(idOf: T -> string, id: string): T -> bool {
    x => idOf(x) != id
  }

  /** `xs.filter(x => idOf(x) !== id)`. */
  function RemoveWhere<T(!new)>(xs: seq<T>, idOf: T -> string, id: string): (r: seq<T>)
    ensures forall i :: 0 <= i < |r| ==> r[i] in xs && idOf(r[i]) != id
    ensures forall i :: 0 <= i < |xs| && idOf(xs[i]) != id ==> xs[i] in r
    ensures SubsequenceOf(r, xs)
    ensures forall x :: multiset(r)[x] == if idOf(x) != id then multiset(xs)[x] else 0
  {
    FilterIsSubsequence(xs, IdIsNot(idOf, id));
    FilterCounts(xs, IdIsNot(idOf, id));
    var r := Filter(xs, IdIsNot(idOf, id));
    assert forall i :: 0 <= i < |r| ==> r[i] in r && IdIsNot(idOf, id)(r[i]) == (idOf(r[i]) != id);
    r
  }

  /** Removing an id no entry has changes nothing. */
  lemma RemoveAbsent<T(!new)>(xs: seq<T>, idOf: T -> string, id: string)
    requires forall i :: 0 <= i < |xs| ==> idOf(xs[i]) != id
    ensures RemoveWhere(xs, idOf, id) == xs
  {
    FilterAll(xs, IdIsNot(idOf, id));
  }

  /** Removing after a replacement that keeps the id is removing alone. */
  lemma {:induction false} RemoveAfterReplace<T(!new)>(xs: seq<T>, idOf: T -> string, id: string, y: T)
    requires idOf(y) == id
    ensures RemoveWhere(ReplaceWhere(xs, idOf, id, y), idOf, id) == RemoveWhere(xs, idOf, id)
    decreases |xs|
  {
    if |xs| > 0 {
      RemoveAfterReplace(xs[1..], idOf, id, y);
      var r := ReplaceWhere(xs, idOf, id, y);
      assert r[1..] == ReplaceWhere(xs[1..], idOf, id, y);
    }
  }

  /** Removing what was just appended under a fresh id restores the list. */
  lemma AppendThenRemove<T(!new)>(xs: seq<T>, idOf: T -> string, id: string, y: T)
    requires idOf(y) == id
    requires forall i :: 0 <= i < |xs| ==> idOf(xs[i]) != id
    ensures RemoveWhere(xs + [y], idOf, id) == xs
  {
    FilterAppend(xs, [y], IdIsNot(idOf, id));
    FilterAll(xs, IdIsNot(idOf, id));
    assert Filter([y], IdIsNot(idOf, id)) == [] by {
      assert [y][1..] == [];
    }
  }
}

=== FILE: repository.dfy ===
/** The application collection of src/hooks/useApplications.ts: load-time
    rehydration and the four mutations. Each mutation is a pure function from
    the old collection to the one `saveApplications` would store; "now" and the
    fresh id (`Date.now()`) are parameters. */
module Repository {
  import opened Wrappers
  import opened Types
  import opened Seqs

  /** The argument of `addApplication`: an application without id and dates.
      Its sub-collections are present in the type but always overridden. */
  datatype NewApplication = NewApplication(
    jobTitle: string,
    company: string,
    location: string,
    salary: Option<string>,
    status: Status,
    jobUrl: Option<string>,
    description: Option<string>,
    notes: Option<string>,
    contacts: Option<seq<Contact>>,
    interviews: Option<seq<Interview>>,
    documents: Option<seq<Document>>,
    priority: Priority)

  /** `Partial<Application>`: `None` is an absent key. An optional property
      can also be supplied as `undefined`, which is `Some(None)`. */
  datatype ApplicationPatch = ApplicationPatch(
    id: Option<string>,
    jobTitle: Option<string>,
    company: Option<string>,
    location: Option<string>,
    salary: Option<Option<string>>,
    status: Option<Status>,
    appliedDate: Option<Timestamp>,
    lastUpdated: Option<Timestamp>,
    jobUrl: Option<Option<string>>,
    description: Option<Option<string>>,
    notes: Option<Option<string>>,
    contacts: Option<Option<seq<Contact>>>,
    interviews: Option<Option<seq<Interview>>>,
    documents: Option<Option<seq<Document>>>,
    priority: Option<Priority>)

  const NoChanges: ApplicationPatch :=
    ApplicationPatch(None, None, None, None, None, None, None, None, None, None, None, None, None, None, None)

  /** The record `addApplication` appends. */
  function Create(input: NewApplication, freshId: string, now: Timestamp): (a: Application)
    ensures a.id == freshId && a.appliedDate == now && a.lastUpdated == now
    ensures a.contacts == Some([]) && a.interviews == Some([]) && a.documents == Some([])
    ensures a.jobTitle == input.jobTitle && a.company == input.company && a.location == input.location
    ensures a.salary == input.salary && a.status == input.status && a.priority == input.priority
    ensures a.jobUrl == input.jobUrl && a.description == input.description && a.notes == input.notes
  {
    Application(freshId, input.jobTitle, input.company, input.location, input.salary, input.status,
                now, now, input.jobUrl, input.description, input.notes,
                Some([]), Some([]), Some([]), input.priority)
  }

  /** `addApplication`: the new record goes at the end, nothing else moves. */
  function AddApplication(apps: seq<Application>, input: NewApplication, freshId: string, now: Timestamp)
    : (r: seq<Application>)
    ensures |r| == |apps| + 1
    ensures r[..|apps|] == apps
    ensures r[|apps|] == Create(input, freshId, now)
  {
    apps + [Create(input, freshId, now)]
  }

  /** `{ ...app, ...updates, lastUpdated: new Date() }`. */
  function Merge(app: Application, p: ApplicationPatch, now: Timestamp): (r: Application)
    ensures r.lastUpdated == now
    ensures r.id == (if p.id.Some? then p.id.value else app.id)
    ensures r.jobTitle == (if p.jobTitle.Some? then p.jobTitle.value else app.jobTitle)
    ensures r.company == (if p.company.Some? then p.company.value else app.company)
    ensures r.location == (if p.location.Some? then p.location.value else app.location)
    ensures r.salary == (if p.salary.Some? then p.salary.value else app.salary)
    ensures r.status == (if p.status.Some? then p.status.value else app.status)
    ensures r.appliedDate == (if p.appliedDate.Some? then p.appliedDate.value else app.appliedDate)
    ensures r.jobUrl == (if p.jobUrl.Some? then p.jobUrl.value else app.jobUrl)
    ensures r.description == (if p.description.Some? then p.description.value else app.description)
    ensures r.notes == (if p.notes.Some? then p.notes.value else app.notes)
    ensures r.contacts == (if p.contacts.Some? then p.contacts.value else app.contacts)
    ensures r.interviews == (if p.interviews.Some? then p.interviews.value else app.interviews)
    ensures r.documents == (if p.documents.Some? then p.documents.value else app.documents)
    ensures r.priority == (if p.priority.Some? then p.priority.value else app.priority)
    ensures p == NoChanges ==> r == app.(lastUpdated := now)
  {
    Application(
      p.id.GetOr(app.id),
      p.jobTitle.GetOr(app.jobTitle),
      p.company.GetOr(app.company),
      p.location.GetOr(app.location),
      p.salary.GetOr(app.salary),
      p.status.GetOr(app.status),
      p.appliedDate.GetOr(app.appliedDate),
      now,
      p.jobUrl.GetOr(app.jobUrl),
      p.description.GetOr(app.description),
      p.notes.GetOr(app.notes),
      p.contacts.GetOr(app.contacts),
      p.interviews.GetOr(app.interviews),
      p.documents.GetOr(app.documents),
      p.priority.GetOr(app.priority))
  }

  /** Applying the same patch again at the same time changes nothing more. */
  lemma MergeIdempotent(app: Application, p: ApplicationPatch, now: Timestamp)
    ensures Merge(Merge(app, p, now), p, now) == Merge(app, p, now)
  {
  }

  /** `updateApplication`: every record with the id is merged, the others
      are kept as they are, and the order is unchanged. */
  function UpdateApplication(apps: seq<Application>, id: string, p: ApplicationPatch, now: Timestamp)
    : (r: seq<Application>)
    ensures |r| == |apps|
    ensures forall i :: 0 <= i < |apps| && apps[i].id != id ==> r[i] == apps[i]
    ensures forall i :: 0 <= i < |apps| && apps[i].id == id ==> r[i] == Merge(apps[i], p, now)
  {
    seq(|apps|, i requires 0 <= i < |apps| => if apps[i].id == id then Merge(apps[i], p, now) else apps[i])
  }

  /** `deleteApplication`: all records with the id go, the rest keep their order. */
  function DeleteApplication(apps: seq<Application>, id: string): (r: seq<Application>)
    ensures forall a :: a in r <==> a in apps && a.id != id
    ensures SubsequenceOf(r, apps)
    ensures |r| == |apps| - Count(apps, (a: Application) => a.id == id)
  {
    FilterIsSubsequence(apps, (a: Application) => a.id != id);
    CountComplement(apps, (a: Application) => a.id == id, (a: Application) => a.id != id);
    Filter(apps, (a: Application) => a.id != id)
  }

  /** `updateStatus`: only `status` and `lastUpdated` of the matching records change. */
  function UpdateStatus(apps: seq<Application>, id: string, status: Status, now: Timestamp)
    : (r: seq<Application>)
    ensures |r| == |apps|
    ensures forall i :: 0 <= i < |apps| ==>
      r[i] == if apps[i].id == id then apps[i].(status := status, lastUpdated := now) else apps[i]
  {
    UpdateApplication(apps, id, NoChanges.(status := Some(status)), now)
  }

  /** Position `i` holds the first record with the id. */
  predicate FirstWithId(apps: seq<Application>, i: int, id: string) {
    0 <= i < |apps| && apps[i].id == id && forall j :: 0 <= j < i ==> apps[j].id != id
  }

  /** `applications.find(app => app.id === id)`: the first record with the id. */
  function FindApplication(apps: seq<Application>, id: string): (r: Option<Application>)
    ensures r.None? <==> forall i :: 0 <= i < |apps| ==> apps[i].id != id
    ensures r.Some? ==> exists i :: FirstWithId(apps, i, id) && apps[i] == r.value
    decreases |apps|
  {
    if |apps| == 0 then None
    else if apps[0].id == id then Some(apps[0])
    else
      var r := FindApplication(apps[1..], id);
      assert r.Some? ==> exists i :: FirstWithId(apps, i, id) && apps[i] == r.value by {
        if r.Some? {
          var i :| FirstWithId(apps[1..], i, id) && apps[1..][i] == r.value;
          assert apps[i + 1] == r.value;
          assert forall j :: 1 <= j < i + 1 ==> apps[j] == apps[1..][j - 1];
          assert FirstWithId(apps, i + 1, id);
        }
      }
      assert r.None? ==> forall i :: 0 <= i < |apps| ==> apps[i].id != id by {
        if r.None? {
          assert forall i :: 1 <= i < |apps| ==> apps[i] == apps[1..][i - 1];
        }
      }
      r
  }

  /** Updating an id no record has changes nothing. */
  lemma UpdateAbsent(apps: seq<Application>, id: string, p: ApplicationPatch, now: Timestamp)
    requires forall i :: 0 <= i < |apps| ==> apps[i].id != id
    ensures UpdateApplication(apps, id, p, now) == apps
  {
  }

  /** Repeating an update with the same patch and time changes nothing more. */
  lemma UpdateIdempotent(apps: seq<Application>, id: string, p: ApplicationPatch, now: Timestamp)
    ensures UpdateApplication(UpdateApplication(apps, id, p, now), id, p, now)
         == UpdateApplication(apps, id, p, now)
  {
    var once := UpdateApplication(apps, id, p, now);
    var twice := UpdateApplication(once, id, p, now);
    forall i | 0 <= i < |apps|
      ensures twice[i] == once[i]
    {
      if once[i].id == id {
        assert Merge(once[i], p, now) == once[i];
      }
    }
  }

  /** Deleting an id no record has changes nothing. */
  lemma {:induction false} DeleteAbsent(apps: seq<Application>, id: string)
    requires forall i :: 0 <= i < |apps| ==> apps[i].id != id
    ensures DeleteApplication(apps, id) == apps
  {
    FilterAll(apps, (a: Application) => a.id != id);
  }

  /** Adding a record under an unused id and deleting that id restores the collection. */
  lemma {:induction false} AddThenDelete(apps: seq<Application>, input: NewApplication, freshId: string, now: Timestamp)
    requires forall i :: 0 <= i < |apps| ==> apps[i].id != freshId
    ensures DeleteApplication(AddApplication(apps, input, freshId, now), freshId) == apps
  {
    var keep := (a: Application) => a.id != freshId;
    FilterAppend(apps, [Create(input, freshId, now)], keep);
    FilterAll(apps, keep);
  }

  /** The collection invariants: distinct ids, and no update before application. */
  ghost predicate WellFormed(apps: seq<Application>) {
    && DistinctBy(apps, (a: Application) => a.id)
    && (forall a :: a in apps ==> a.appliedDate <= a.lastUpdated)
  }

  lemma AddKeepsWellFormed(apps: seq<Application>, input: NewApplication, freshId: string, now: Timestamp)
    requires WellFormed(apps)
    requires forall i :: 0 <= i < |apps| ==> apps[i].id != freshId
    ensures WellFormed(AddApplication(apps, input, freshId, now))
  {
  }

  lemma UpdateStatusKeepsWellFormed(apps: seq<Application>, id: string, status: Status, now: Timestamp)
    requires WellFormed(apps)
    requires forall i :: 0 <= i < |apps| ==> apps[i].appliedDate <= now
    ensures WellFormed(UpdateStatus(apps, id, status, now))
  {
  }

  lemma {:induction false} DeleteKeepsWellFormed(apps: seq<Application>, id: string)
    requires WellFormed(apps)
    ensures WellFormed(DeleteApplication(apps, id))
  {
    var key := (a: Application) => a.id;
    assert DistinctBy(apps, key);
    FilterDistinct(apps, (a: Application) => a.id != id, key);
    var r := DeleteApplication(apps, id);
    assert DistinctBy(r, key);
    forall i | 0 <= i < |r|
      ensures r[i].appliedDate <= r[i].lastUpdated
    {
      assert r[i] in apps;
    }
  }

  /** One stored record as rebuilt on load: missing interview and document
      lists become empty, contacts stay as stored. */
  function Rehydrate(app: Application): (r: Application)
    ensures r.interviews == Some(InterviewsOf(app))
    ensures r.documents.Some? && (app.documents.Some? ==> r.documents == app.documents)
    ensures r.contacts == app.contacts
    ensures r.(interviews := app.interviews, documents := app.documents) == app
  {
    app.(interviews := Some(InterviewsOf(app)), documents := Some(app.documents.GetOr([])))
  }

  /** The demonstration data installed when nothing is stored. */
  const SampleApplications: seq<Application> := [
    Application("1", "Senior Frontend Developer", "TechCorp", "San Francisco, CA",
      Some("$120,000 - $150,000"), Interviewing, 1705276800000, 1705708800000,
      Some("https://example.com/job/1"), Some("Looking for an experienced frontend developer..."),
      Some("Great company culture, remote-friendly"), Some([]), Some([]), Some([]), High),
    Application("2", "Full Stack Engineer", "StartupXYZ", "Remote",
      Some("$100,000 - $130,000"), Interviewing, 1705536000000, 1705881600000,
      None, None, None, Some([]), Some([]), Some([]), Medium),
    Application("3", "React Developer", "InnovateLabs", "New York, NY",
      Some("$110,000 - $140,000"), Applied, 1705708800000, 1705708800000,
      None, None, None, Some([]), Some([]), Some([]), Medium),
    Application("4", "Software Engineer", "BigTech Inc", "Seattle, WA",
      Some("$140,000 - $180,000"), Offered, 1704844800000, 1706140800000,
      None, None, None, Some([]), Some([]), Some([]), High),
    Application("5", "Frontend Developer", "DesignStudio", "Los Angeles, CA",
      None, Rejected, 1705017600000, 1705622400000,
      None, None, None, Some([]), Some([]), Some([]), Low)
  ]

  /** The collection after loading. `stored` is the parsed storage entry, `None`
      when the entry is absent or the empty string. */
  function Load(stored: Option<seq<Application>>): (r: seq<Application>)
    ensures stored.None? ==> r == SampleApplications
    ensures stored.Some? ==> |r| == |stored.value|
    ensures stored.Some? ==> forall i :: 0 <= i < |r| ==>
      r[i].interviews.Some? && r[i].documents.Some? && r[i].contacts == stored.value[i].contacts
    ensures stored.Some? ==> forall i :: 0 <= i < |r| ==> r[i] == Rehydrate(stored.value[i])
  {
    match stored
    case None => SampleApplications
    case Some(xs) => seq(|xs|, i requires 0 <= i < |xs| => Rehydrate(xs[i]))
  }

  /** Loading what a load produced gives the same collection. */
  lemma LoadIdempotent(xs: seq<Application>)
    ensures Load(Some(Load(Some(xs)))) == Load(Some(xs))
  {
  }

  /** The sample data satisfies the collection invariants. */
  lemma SampleWellFormed()
    ensures WellFormed(SampleApplications)
  {
  }
}

=== FILE: response_time.dfy ===
/** The time-to-response chart: whole days from application to last update
    for every record that has left "applied", counted into closed day ranges. */
module ResponseTime {
  import opened Wrappers
  import opened Types
  import opened Seqs
  import opened Bars

  /** `app.status !== 'applied'`. */
  predicate Responded(app: Application) {
    app.status != Applied
  }

  /** `responseTimes`: the response days of the responded records, in order. */
  function ResponseTimes(apps: seq<Application>): (r: seq<int>)
    ensures |r| == Count(apps, Responded)
    ensures forall k :: 0 <= k < |r| ==> r[k] == ResponseDays(Filter(apps, Responded)[k])
    ensures forall k :: 0 <= k < |r| ==>
      exists a :: a in apps && Responded(a) && r[k] == ResponseDays(a)
    decreases |apps|
  {
    if |apps| == 0 then []
    else
      var rest := ResponseTimes(apps[1..]);
      var r := if Responded(apps[0]) then [ResponseDays(apps[0])] + rest else rest;
      var kept := Filter(apps, Responded);
      assert kept == if Responded(apps[0]) then [apps[0]] + Filter(apps[1..], Responded)
                     else Filter(apps[1..], Responded);
      assert forall k :: 0 <= k < |r| ==> r[k] == ResponseDays(kept[k]);
      forall k | 0 <= k < |r|
        ensures exists a :: a in apps && Responded(a) && r[k] == ResponseDays(a)
      {
        assert kept[k] in kept;
      }
      r
  }

  /** There is no response time exactly when every record is still "applied". */
  lemma ResponseTimesEmpty(apps: seq<Application>)
    ensures |ResponseTimes(apps)| == 0 <==> forall k :: 0 <= k < |apps| ==> apps[k].status == Applied
  {
    if exists k :: 0 <= k < |apps| && apps[k].status != Applied {
      var k :| 0 <= k < |apps| && apps[k].status != Applied;
      assert apps[k] in Filter(apps, Responded);
    } else {
      FilterNone(apps, Responded);
    }
  }

  /** The sum of the response days. */
  function SumDays(ds: seq<int>): int
    decreases |ds|
  {
    if |ds| == 0 then 0 else ds[0] + SumDays(ds[1..])
  }

  /** `avgResponseTime`: the mean response days. */
  function AverageDays(ds: seq<int>): real
    requires |ds| > 0
  {
    SumDays(ds) as real / |ds| as real
  }

  /** Bounds on every value bound their sum. */
  lemma {:induction false} SumDaysBounds(ds: seq<int>, lo: int, hi: int)
    requires forall k :: 0 <= k < |ds| ==> lo <= ds[k] <= hi
    ensures Repeat(|ds|, lo as real) <= SumDays(ds) as real <= Repeat(|ds|, hi as real)
    decreases |ds|
  {
    if |ds| > 0 {
      var tail := ds[1..];
      assert forall k :: 0 <= k < |tail| ==> tail[k] == ds[k + 1];
      SumDaysBounds(tail, lo, hi);
    }
  }

  /** The mean of values between `lo` and `hi` lies between them too. */
  lemma AverageDaysBounds(ds: seq<int>, lo: int, hi: int)
    requires |ds| > 0
    requires forall k :: 0 <= k < |ds| ==> lo <= ds[k] <= hi
    ensures lo as real <= AverageDays(ds) <= hi as real
  {
    SumDaysBounds(ds, lo, hi);
    MeanBounds(SumDays(ds) as real, |ds|, lo as real, hi as real);
  }

  /** The day ranges 1-3, 4-7, 8-14, 15-28 and 29+ (`1-3 days` to `1+ month`). */
  const DayBuckets: seq<Bucket> := [
    Bucket(1, Some(3)),
    Bucket(4, Some(7)),
    Bucket(8, Some(14)),
    Bucket(15, Some(28)),
    Bucket(29, None)
  ]

  /** `rt.days >= bucket.min && rt.days <= bucket.max`: closed. */
  predicate InDayBucket(d: int, b: Bucket) {
    d >= b.lo && (b.hi.None? || d <= b.hi.value)
  }

  function InDayBucketOf(b: Bucket): int -> bool {
    d => InDayBucket(d, b)
  }

  /** The bucket counts, in bucket order: entry `i` is the number of
      response times inside range `i`. */
  function DayBucketCounts(ds: seq<int>): (c: seq<nat>)
    ensures |c| == |DayBuckets|
    ensures forall i :: 0 <= i < |c| ==>
      c[i] == |set k | 0 <= k < |ds| && InDayBucket(ds[k], DayBuckets[i])|
  {
    forall i | 0 <= i < |DayBuckets|
      ensures Count(ds, InDayBucketOf(DayBuckets[i]))
           == |set k | 0 <= k < |ds| && InDayBucket(ds[k], DayBuckets[i])|
    {
      CountPositions(ds, InDayBucketOf(DayBuckets[i]));
      assert PositionsWhere(ds, InDayBucketOf(DayBuckets[i]))
          == set k | 0 <= k < |ds| && InDayBucket(ds[k], DayBuckets[i]);
    }
    seq(|DayBuckets|, i requires 0 <= i < |DayBuckets| => Count(ds, InDayBucketOf(DayBuckets[i])))
  }

  predicate Positive(d: int) {
    d >= 1
  }

  /** Every whole day count of at least one lies in exactly one range; zero
      and negative counts (an update before the application date) lie in none. */
  lemma DayBucketsPartition(d: int)
    ensures forall i, j :: 0 <= i < j < |DayBuckets| ==>
      !(InDayBucket(d, DayBuckets[i]) && InDayBucket(d, DayBuckets[j]))
    ensures (exists i :: 0 <= i < |DayBuckets| && InDayBucket(d, DayBuckets[i])) <==> d >= 1
  {
    if d >= 1 {
      var i := if d <= 3 then 0 else if d <= 7 then 1 else if d <= 14 then 2
               else if d <= 28 then 3 else 4;
      assert InDayBucket(d, DayBuckets[i]);
    }
  }

  lemma BucketsOfDay(d: int)
    ensures (if InDayBucket(d, DayBuckets[0]) then 1 else 0)
          + (if InDayBucket(d, DayBuckets[1]) then 1 else 0)
          + (if InDayBucket(d, DayBuckets[2]) then 1 else 0)
          + (if InDayBucket(d, DayBuckets[3]) then 1 else 0)
          + (if InDayBucket(d, DayBuckets[4]) then 1 else 0)
         == (if Positive(d) then 1 else 0)
  {
    DayBucketsPartition(d);
  }

  /** The bucket counts add up to the number of positive response times: at
      most all of them, and all of them exactly when every one is positive. */
  lemma {:induction false} DayBucketTotal(ds: seq<int>)
    ensures var c := DayBucketCounts(ds);
      c[0] + c[1] + c[2] + c[3] + c[4] == Count(ds, Positive) <= |ds|
    decreases |ds|
  {
    if |ds| > 0 {
      DayBucketTotal(ds[1..]);
      BucketsOfDay(ds[0]);
      forall i | 0 <= i < |DayBuckets|
        ensures InDayBucketOf(DayBuckets[i])(ds[0]) == InDayBucket(ds[0], DayBuckets[i])
      {
      }
    }
  }

  /** Every response time is counted exactly when all are positive. */
  lemma DayBucketTotalAll(ds: seq<int>)
    ensures var c := DayBucketCounts(ds);
      c[0] + c[1] + c[2] + c[3] + c[4] == |ds| <==> forall k :: 0 <= k < |ds| ==> ds[k] >= 1
  {
    DayBucketTotal(ds);
    if exists k :: 0 <= k < |ds| && ds[k] < 1 {
      var k :| 0 <= k < |ds| && ds[k] < 1;
      CountComplement(ds, Positive, NotPositive);
      assert ds[k] in Filter(ds, NotPositive);
    } else {
      FilterAll(ds, Positive);
    }
  }

  predicate NotPositive(d: int) {
    d < 1
  }

  /** What the chart shows: nothing without response times, otherwise the
      average, the bucket counts and the bar widths. */
  datatype ResponseChart =
    | NoResponseData
    | ResponseChart(average: real, counts: seq<nat>, widths: seq<real>)

  function TimeToResponse(apps: seq<Application>): (c: ResponseChart)
    ensures c.NoResponseData? <==> forall k :: 0 <= k < |apps| ==> apps[k].status == Applied
    ensures c.ResponseChart? ==>
      && c.counts == DayBucketCounts(ResponseTimes(apps))
      && |ResponseTimes(apps)| > 0
      && c.average == AverageDays(ResponseTimes(apps))
      && c.widths == BucketWidths(c.counts)
      && |c.counts| == |c.widths| == 5
      && c.counts[0] + c.counts[1] + c.counts[2] + c.counts[3] + c.counts[4] <= Count(apps, Responded)
      && (forall i :: 0 <= i < 5 ==> (c.counts[i] > 0 <==> c.widths[i] >= 5.0))
  {
    var ds := ResponseTimes(apps);
    ResponseTimesEmpty(apps);
    if |ds| == 0 then NoResponseData
    else
      var counts := DayBucketCounts(ds);
      DayBucketTotal(ds);
      ResponseChart(AverageDays(ds), counts, BucketWidths(counts))
  }
}

=== FILE: salary.dfy ===
/** The salary analysis chart: salary strings are scanned for digit groups,
    the first two become a range, and the ranges are summarised and counted
    into half-open buckets by their midpoint. */
module Salary {
  import opened Wrappers
  import opened Types
  import opened Seqs
  import opened Text
  import opened DigitGroups
  import opened Bars

  /** `{ min, max }` of one salary; its `avg` is `Midpoint`. */
  datatype SalaryRange = SalaryRange(min: nat, max: nat)

  /** `(min + max) / 2`, exactly. */
  function Midpoint(r: SalaryRange): real {
    (r.min + r.max) as real / 2.0
  }

  /** The range read from one salary field: absent or empty salaries and
      salaries with fewer than two digit groups give none; otherwise the first
      group is the minimum and the second the maximum, commas removed. */
  function ParseSalary(salary: Option<string>): (r: Option<SalaryRange>)
    ensures r.Some? <==> Truthy(salary) && |Matches(salary.value)| >= 2
    ensures r.Some? ==>
      var numbers := Matches(salary.value);
      r.value == SalaryRange(GroupValue(numbers[0]), GroupValue(numbers[1]))
  {
    if Truthy(salary) then
      var numbers := Matches(salary.value);
      if |numbers| >= 2 then
        assert numbers[0] in numbers && numbers[1] in numbers;
        Some(SalaryRange(GroupValue(numbers[0]), GroupValue(numbers[1])))
      else None
    else None
  }

  /** A range written `sym + a + " - " + sym + b` with en-US grouping reads
      back as exactly `a` to `b`. */
  lemma ParseRangeText(sym: string, a: nat, b: nat)
    requires NoDigits(sym)
    ensures ParseSalary(Some(RangeText(sym, a, b))) == Some(SalaryRange(a, b))
  {
    RangeTextMatches(sym, a, b);
    GroupedValue(a);
    GroupedValue(b);
    GroupedShape(a);
    assert |RangeText(sym, a, b)| > 0;
  }

  /** Text without digits has no range. */
  lemma ParseNoDigits(s: string)
    requires NoDigits(s)
    ensures ParseSalary(Some(s)) == None
  {
    SkipNonDigits(s, 0, |s|);
    assert MatchesFrom(s, |s|) == [];
  }

  /** A comma-free "120000" splits after three digits, so it reads as the
      range 120 to 0: the minimum can exceed the maximum. */
  lemma ParseCommaFree()
    ensures ParseSalary(Some("120000")) == Some(SalaryRange(120, 0))
  {
    CommaFreeMatches();
    ThreeDigitValue('1', '2', '0');
    ThreeDigitValue('0', '0', '0');
  }

  /** A three-digit match reads as its decimal value. */
  lemma ThreeDigitValue(a: char, b: char, c: char)
    requires IsDigit(a) && IsDigit(b) && IsDigit(c)
    ensures IsGroup([a, b, c])
    ensures GroupValue([a, b, c]) == 100 * DigitValue(a) + 10 * DigitValue(b) + DigitValue(c)
  {
    var g := [a, b, c];
    assert AllDigits(g[..3]) && IsCommaGroups(g[3..]);
    IsGroupIntro(g, 3);
    RemoveCommasOfDigits(g);
    assert ParseDigits([a]) == DigitValue(a) by {
      assert [a][..0] == [];
    }
    assert ParseDigits([a, b]) == 10 * DigitValue(a) + DigitValue(b) by {
      assert [a, b][..1] == [a];
    }
    assert ParseDigits(g) == 100 * DigitValue(a) + 10 * DigitValue(b) + DigitValue(c) by {
      assert g[..2] == [a, b];
    }
  }

  /** The scan of "120000": three digits, then three more. */
  lemma CommaFreeMatches()
    ensures Matches("120000") == ["120", "000"]
  {
    var s := "120000";
    assert LeadDigits(s, 0) == 3;
    assert !CommaGroupAt(s, 3);
    assert GroupsEnd(s, 3) == 3;
    assert s[0..3] == "120";
    assert LeadDigits(s, 3) == 3;
    assert GroupsEnd(s, 6) == 6;
    assert s[3..6] == "000";
    assert MatchesFrom(s, 6) == [];
    assert MatchesFrom(s, 3) == ["000"];
  }

  predicate HasRange(app: Application) {
    ParseSalary(app.salary).Some?
  }

  /** `salaryRanges`: the ranges of the records that have one, in order. */
  function SalaryRanges(apps: seq<Application>): (r: seq<SalaryRange>)
    ensures |r| == Count(apps, HasRange)
    ensures forall k :: 0 <= k < |r| ==> Some(r[k]) == ParseSalary(Filter(apps, HasRange)[k].salary)
    ensures forall k :: 0 <= k < |r| ==> exists a :: a in apps && ParseSalary(a.salary) == Some(r[k])
    decreases |apps|
  {
    if |apps| == 0 then []
    else
      var rest := SalaryRanges(apps[1..]);
      var r := if HasRange(apps[0]) then [ParseSalary(apps[0].salary).value] + rest else rest;
      var kept := Filter(apps, HasRange);
      assert kept == if HasRange(apps[0]) then [apps[0]] + Filter(apps[1..], HasRange)
                     else Filter(apps[1..], HasRange);
      assert forall k :: 0 <= k < |r| ==> Some(r[k]) == ParseSalary(kept[k].salary);
      forall k | 0 <= k < |r|
        ensures exists a :: a in apps && ParseSalary(a.salary) == Some(r[k])
      {
        assert kept[k] in kept;
      }
      r
  }

  /** `Math.min(...salaryRanges.map(r => r.min))`. */
  function MinSalary(rs: seq<SalaryRange>): (m: nat)
    requires |rs| > 0
    ensures forall k :: 0 <= k < |rs| ==> m <= rs[k].min
    ensures exists k :: 0 <= k < |rs| && rs[k].min == m
    decreases |rs|
  {
    if |rs| == 1 then rs[0].min
    else
      var rest := MinSalary(rs[1..]);
      assert forall k :: 1 <= k < |rs| ==> rs[k] == rs[1..][k - 1];
      if rs[0].min <= rest then rs[0].min else rest
  }

  /** `Math.max(...salaryRanges.map(r => r.max))`. */
  function MaxSalary(rs: seq<SalaryRange>): (m: nat)
    requires |rs| > 0
    ensures forall k :: 0 <= k < |rs| ==> rs[k].max <= m
    ensures exists k :: 0 <= k < |rs| && rs[k].max == m
    decreases |rs|
  {
    if |rs| == 1 then rs[0].max
    else
      var rest := MaxSalary(rs[1..]);
      assert forall k :: 1 <= k < |rs| ==> rs[k] == rs[1..][k - 1];
      if rs[0].max >= rest then rs[0].max else rest
  }

  /** `salaryRanges.reduce((sum, range) => sum + range.avg, 0)`. */
  function SumMidpoints(rs: seq<SalaryRange>): real
    decreases |rs|
  {
    if |rs| == 0 then 0.0 else Midpoint(rs[0]) + SumMidpoints(rs[1..])
  }

  /** The mean midpoint. */
  function AverageSalary(rs: seq<SalaryRange>): real
    requires |rs| > 0
  {
    SumMidpoints(rs) / |rs| as real
  }

  /** Bounds on every midpoint bound their sum. */
  lemma {:induction false} SumMidpointsBounds(rs: seq<SalaryRange>, lo: real, hi: real)
    requires forall k :: 0 <= k < |rs| ==> lo <= Midpoint(rs[k]) <= hi
    ensures Repeat(|rs|, lo) <= SumMidpoints(rs) <= Repeat(|rs|, hi)
    decreases |rs|
  {
    if |rs| > 0 {
      var tail := rs[1..];
      assert forall k :: 0 <= k < |tail| ==> tail[k] == rs[k + 1];
      SumMidpointsBounds(tail, lo, hi);
    }
  }

  /** When every range has its minimum at or below its maximum, the average
      lies between the overall minimum and maximum. */
  lemma AverageWithinExtremes(rs: seq<SalaryRange>)
    requires |rs| > 0
    requires forall k :: 0 <= k < |rs| ==> rs[k].min <= rs[k].max
    ensures MinSalary(rs) as real <= AverageSalary(rs) <= MaxSalary(rs) as real
  {
    var lo := MinSalary(rs) as real;
    var hi := MaxSalary(rs) as real;
    forall k | 0 <= k < |rs|
      ensures lo <= Midpoint(rs[k]) <= hi
    {
      assert MinSalary(rs) <= rs[k].min <= rs[k].max <= MaxSalary(rs);
    }
    SumMidpointsBounds(rs, lo, hi);
    MeanBounds(SumMidpoints(rs), |rs|, lo, hi);
  }

  /** The five salary buckets: 50K-75K, 75K-100K, 100K-125K, 125K-150K, 150K+. */
  const SalaryBuckets: seq<Bucket> := [
    Bucket(50000, Some(75000)),
    Bucket(75000, Some(100000)),
    Bucket(100000, Some(125000)),
    Bucket(125000, Some(150000)),
    Bucket(150000, None)
  ]

  /** `range.avg >= bucket.min && range.avg < bucket.max`: half-open. */
  predicate InSalaryBucket(r: SalaryRange, b: Bucket) {
    Midpoint(r) >= b.lo as real && (b.hi.None? || Midpoint(r) < b.hi.value as real)
  }

  function InSalaryBucketOf(b: Bucket): SalaryRange -> bool {
    r => InSalaryBucket(r, b)
  }

  /** The bucket counts, in bucket order: entry `i` is the number of ranges
      whose midpoint lies in bucket `i`. */
  function SalaryBucketCounts(rs: seq<SalaryRange>): (c: seq<nat>)
    ensures |c| == |SalaryBuckets|
    ensures forall i :: 0 <= i < |c| ==>
      c[i] == |set k | 0 <= k < |rs| && InSalaryBucket(rs[k], SalaryBuckets[i])|
  {
    forall i | 0 <= i < |SalaryBuckets|
      ensures Count(rs, InSalaryBucketOf(SalaryBuckets[i]))
           == |set k | 0 <= k < |rs| && InSalaryBucket(rs[k], SalaryBuckets[i])|
    {
      CountPositions(rs, InSalaryBucketOf(SalaryBuckets[i]));
      assert PositionsWhere(rs, InSalaryBucketOf(SalaryBuckets[i]))
          == set k | 0 <= k < |rs| && InSalaryBucket(rs[k], SalaryBuckets[i]);
    }
    seq(|SalaryBuckets|, i requires 0 <= i < |SalaryBuckets| => Count(rs, InSalaryBucketOf(SalaryBuckets[i])))
  }

  predicate AtLeast50K(r: SalaryRange) {
    Midpoint(r) >= 50000.0
  }

  /** The buckets are pairwise disjoint, and a range lies in one of them
      exactly when its midpoint is at least 50000. */
  lemma SalaryBucketsPartition(r: SalaryRange)
    ensures forall i, j :: 0 <= i < j < |SalaryBuckets| ==>
      !(InSalaryBucket(r, SalaryBuckets[i]) && InSalaryBucket(r, SalaryBuckets[j]))
    ensures (exists i :: 0 <= i < |SalaryBuckets| && InSalaryBucket(r, SalaryBuckets[i])) <==> AtLeast50K(r)
  {
    var m := Midpoint(r);
    if m >= 50000.0 {
      var i := if m < 75000.0 then 0 else if m < 100000.0 then 1 else if m < 125000.0 then 2
               else if m < 150000.0 then 3 else 4;
      assert InSalaryBucket(r, SalaryBuckets[i]);
    }
  }

  /** How many buckets a range falls in: one when its midpoint is at least
      50000, none otherwise. */
  lemma BucketsOfRange(r: SalaryRange)
    ensures (if InSalaryBucket(r, SalaryBuckets[0]) then 1 else 0)
          + (if InSalaryBucket(r, SalaryBuckets[1]) then 1 else 0)
          + (if InSalaryBucket(r, SalaryBuckets[2]) then 1 else 0)
          + (if InSalaryBucket(r, SalaryBuckets[3]) then 1 else 0)
          + (if InSalaryBucket(r, SalaryBuckets[4]) then 1 else 0)
         == (if AtLeast50K(r) then 1 else 0)
  {
    SalaryBucketsPartition(r);
  }

  /** The bucket counts add up to the number of ranges whose midpoint is at
      least 50000, so no range is counted twice. */
  lemma {:induction false} SalaryBucketTotal(rs: seq<SalaryRange>)
    ensures var c := SalaryBucketCounts(rs);
      c[0] + c[1] + c[2] + c[3] + c[4] == Count(rs, AtLeast50K) <= |rs|
    decreases |rs|
  {
    if |rs| > 0 {
      SalaryBucketTotal(rs[1..]);
      BucketsOfRange(rs[0]);
      forall i | 0 <= i < |SalaryBuckets|
        ensures InSalaryBucketOf(SalaryBuckets[i])(rs[0]) == InSalaryBucket(rs[0], SalaryBuckets[i])
      {
      }
    }
  }

  /** What the chart shows: nothing without ranges, otherwise the average,
      minimum, maximum, bucket counts and bar widths. */
  datatype SalaryChart =
    | NoSalaryData
    | SalaryChart(average: real, minSalary: nat, maxSalary: nat, counts: seq<nat>, widths: seq<real>)

  function SalaryAnalysis(apps: seq<Application>): (c: SalaryChart)
    ensures c.NoSalaryData? <==> Count(apps, HasRange) == 0
    ensures c.SalaryChart? ==>
      && |SalaryRanges(apps)| > 0
      && c.counts == SalaryBucketCounts(SalaryRanges(apps))
      && c.average == AverageSalary(SalaryRanges(apps))
      && c.minSalary == MinSalary(SalaryRanges(apps))
      && c.maxSalary == MaxSalary(SalaryRanges(apps))
      && c.widths == BucketWidths(c.counts)
      && |c.counts| == |c.widths| == 5
      && c.counts[0] + c.counts[1] + c.counts[2] + c.counts[3] + c.counts[4] <= Count(apps, HasRange)
      && (forall k :: 0 <= k < |SalaryRanges(apps)| ==>
            c.minSalary <= SalaryRanges(apps)[k].min && SalaryRanges(apps)[k].max <= c.maxSalary)
      && (forall i :: 0 <= i < 5 ==> (c.counts[i] > 0 <==> c.widths[i] >= 5.0))
  {
    var rs := SalaryRanges(apps);
    if |rs| == 0 then NoSalaryData
    else
      var counts := SalaryBucketCounts(rs);
      SalaryBucketTotal(rs);
      SalaryChart(AverageSalary(rs), MinSalary(rs), MaxSalary(rs), counts, BucketWidths(counts))
  }
}

=== FILE: seqs.dfy ===
/** Order-preserving filtering, counting and prefixes of sequences: the
    `Array.prototype.filter`, `.length` and `.slice(0, n)` the views are built from. */
module Seqs {

  /** `xs.filter(p)`. */
  function Filter<T>(xs: seq<T>, p: T -> bool): (r: seq<T>)
    ensures |r| <= |xs|
    ensures forall x :: x in r ==> x in xs && p(x)
    ensures forall x :: x in xs && p(x) ==> x in r
  {
    if |xs| == 0 then []
    else if p(xs[0]) then [xs[0]] + Filter(xs[1..], p)
    else Filter(xs[1..], p)
  }

  /** `xs.filter(p).length`. */
  function Count<T>(xs: seq<T>, p: T -> bool): nat {
    |Filter(xs, p)|
  }

  /** `a` can be obtained from `b` by deleting elements, keeping the order. */
  predicate SubsequenceOf<T(==)>(a: seq<T>, b: seq<T>)
    decreases |b|
  {
    if |a| == 0 then true
    else if |b| == 0 then false
    else if a[0] == b[0] then SubsequenceOf(a[1..], b[1..])
    else SubsequenceOf(a, b[1..])
  }

  lemma {:induction false} FilterIsSubsequence<T>(xs: seq<T>, p: T -> bool)
    ensures SubsequenceOf(Filter(xs, p), xs)
    decreases |xs|
  {
    if |xs| > 0 {
      FilterIsSubsequence(xs[1..], p);
      if !p(xs[0]) {
        SubsequenceSkip(Filter(xs[1..], p), xs[0], xs[1..]);
      }
    }
  }

  /** A stricter test keeps a subsequence of what a looser one keeps. */
  lemma {:induction false} FilterImplies<T>(xs: seq<T>, p: T -> bool, q: T -> bool)
    requires forall i :: 0 <= i < |xs| ==> p(xs[i]) ==> q(xs[i])
    ensures SubsequenceOf(Filter(xs, p), Filter(xs, q))
    decreases |xs|
  {
    if |xs| > 0 {
      FilterImplies(xs[1..], p, q);
      if q(xs[0]) && !p(xs[0]) {
        SubsequenceSkip(Filter(xs[1..], p), xs[0], Filter(xs[1..], q));
      }
    }
  }

  /** Prepending an element to the longer sequence keeps the relation. */
  lemma {:induction false} SubsequenceSkip<T>(a: seq<T>, x: T, b: seq<T>)
    requires SubsequenceOf(a, b)
    ensures SubsequenceOf(a, [x] + b)
    decreases |b|, 1
  {
    if |a| > 0 && a[0] != x {
      assert ([x] + b)[1..] == b;
    } else if |a| > 0 {
      assert ([x] + b)[1..] == b;
      // a[0] == x: then a[1..] must embed in b; it does since a embeds in b
      SubsequenceTail(a, b);
    }
  }

  /** Dropping the first element of a subsequence keeps it a subsequence. */
  lemma {:induction false} SubsequenceTail<T>(a: seq<T>, b: seq<T>)
    requires |a| > 0 && SubsequenceOf(a, b)
    ensures SubsequenceOf(a[1..], b)
    decreases |b|, 0
  {
    if a[0] == b[0] {
      SubsequenceSkip(a[1..], b[0], b[1..]);
      assert [b[0]] + b[1..] == b;
    } else {
      SubsequenceTail(a, b[1..]);
      SubsequenceSkip(a[1..], b[0], b[1..]);
      assert [b[0]] + b[1..] == b;
    }
  }

  /** Filtering with a predicate every element satisfies changes nothing. */
  lemma {:induction false} FilterAll<T>(xs: seq<T>, p: T -> bool)
    requires forall i :: 0 <= i < |xs| ==> p(xs[i])
    ensures Filter(xs, p) == xs
    decreases |xs|
  {
    if |xs| > 0 {
      FilterAll(xs[1..], p);
    }
  }

  /** Filtering with a predicate no element satisfies gives nothing. */
  lemma {:induction false} FilterNone<T>(xs: seq<T>, p: T -> bool)
    requires forall i :: 0 <= i < |xs| ==> !p(xs[i])
    ensures Filter(xs, p) == []
    decreases |xs|
  {
    if |xs| > 0 {
      FilterNone(xs[1..], p);
    }
  }

  /** Two tests that agree on every element keep the same elements. */
  lemma {:induction false} FilterSame<T>(xs: seq<T>, p: T -> bool, q: T -> bool)
    requires forall i :: 0 <= i < |xs| ==> p(xs[i]) == q(xs[i])
    ensures Filter(xs, p) == Filter(xs, q)
    decreases |xs|
  {
    if |xs| > 0 {
      FilterSame(xs[1..], p, q);
    }
  }

  /** Filtering keeps every copy of an element that passes and none of one
      that fails. */
  lemma {:induction false} FilterMultiset<T>(xs: seq<T>, p: T -> bool, x: T)
    ensures multiset(Filter(xs, p))[x] == if p(x) then multiset(xs)[x] else 0
    decreases |xs|
  {
    if |xs| > 0 {
      FilterMultiset(xs[1..], p, x);
      assert xs == [xs[0]] + xs[1..];
    }
  }

  /** `FilterMultiset` for every element at once. */
  lemma FilterCounts<T>(xs: seq<T>, p: T -> bool)
    ensures forall x :: multiset(Filter(xs, p))[x] == if p(x) then multiset(xs)[x] else 0
  {
    forall x
      ensures multiset(Filter(xs, p))[x] == if p(x) then multiset(xs)[x] else 0
    {
      FilterMultiset(xs, p, x);
    }
  }

  /** Filtering distributes over concatenation. */
  lemma {:induction false} FilterAppend<T>(xs: seq<T>, ys: seq<T>, p: T -> bool)
    ensures Filter(xs + ys, p) == Filter(xs, p) + Filter(ys, p)
    decreases |xs|
  {
    if |xs| == 0 {
      assert xs + ys == ys;
    } else {
      assert (xs + ys)[1..] == xs[1..] + ys;
      FilterAppend(xs[1..], ys, p);
    }
  }

  /** Counting over a sequence with a known first element. */
  lemma CountCons<T>(x: T, xs: seq<T>, p: T -> bool)
    ensures Count([x] + xs, p) == (if p(x) then 1 else 0) + Count(xs, p)
  {
    assert ([x] + xs)[0] == x;
    assert ([x] + xs)[1..] == xs;
  }

  /** Counting over a sequence with a known last element. */
  lemma CountSnoc<T>(xs: seq<T>, x: T, p: T -> bool)
    ensures Count(xs + [x], p) == Count(xs, p) + (if p(x) then 1 else 0)
  {
    FilterAppend(xs, [x], p);
    assert Filter([x], p) == (if p(x) then [x] else []) by {
      assert [x][1..] == [];
    }
  }

  /** The positions of `xs` whose element satisfies `p`. */
  function PositionsWhere<T>(xs: seq<T>, p: T -> bool): set<int> {
    set k | 0 <= k < |xs| && p(xs[k])
  }

  /** A count is the number of positions that satisfy the predicate. */
  lemma {:induction false} CountPositions<T>(xs: seq<T>, p: T -> bool)
    ensures Count(xs, p) == |PositionsWhere(xs, p)|
    decreases |xs|
  {
    if |xs| == 0 {
      assert PositionsWhere(xs, p) == {};
    } else {
      var ys := xs[..|xs| - 1];
      var x := xs[|xs| - 1];
      assert xs == ys + [x];
      CountPositions(ys, p);
      CountSnoc(ys, x, p);
      var before := PositionsWhere(ys, p);
      if p(x) {
        assert PositionsWhere(xs, p) == before + {|ys|};
      } else {
        assert PositionsWhere(xs, p) == before;
      }
    }
  }

  /** The number of elements whose key is `k`: one entry of a tally. */
  function CountKey<T, K(==)>(xs: seq<T>, key: T -> K, k: K): nat {
    Count(xs, KeyIs(key, k))
  }

  /** The predicate "the key of `a` is `k`". */
  function KeyIs<T, K(==)>(key: T -> K, k: K): T -> bool {
    a => key(a) == k
  }

  /** A key is counted zero times exactly when no element carries it. */
  lemma CountKeyZero<T, K>(xs: seq<T>, key: T -> K, k: K)
    ensures CountKey(xs, key, k) == 0 <==> forall i :: 0 <= i < |xs| ==> key(xs[i]) != k
  {
    var f := Filter(xs, KeyIs(key, k));
    if |f| > 0 {
      assert f[0] in f;
    } else {
      forall i | 0 <= i < |xs|
        ensures key(xs[i]) != k
      {
        assert KeyIs(key, k)(xs[i]) == (key(xs[i]) == k);
      }
    }
  }

  /** A predicate implied by another never counts more elements. */
  lemma {:induction false} CountMonotone<T>(xs: seq<T>, p: T -> bool, q: T -> bool)
    requires forall i :: 0 <= i < |xs| && p(xs[i]) ==> q(xs[i])
    ensures Count(xs, p) <= Count(xs, q)
    decreases |xs|
  {
    if |xs| > 0 {
      CountMonotone(xs[1..], p, q);
    }
  }

  /** The count of a disjunction of exclusive predicates is the sum of counts. */
  lemma {:induction false} CountDisjoint<T>(xs: seq<T>, p: T -> bool, q: T -> bool, pq: T -> bool)
    requires forall i :: 0 <= i < |xs| ==> !(p(xs[i]) && q(xs[i]))
    requires forall i :: 0 <= i < |xs| ==> (pq(xs[i]) <==> p(xs[i]) || q(xs[i]))
    ensures Count(xs, pq) == Count(xs, p) + Count(xs, q)
    decreases |xs|
  {
    if |xs| > 0 {
      CountDisjoint(xs[1..], p, q, pq);
    }
  }

  /** Every element either satisfies `p` or does not. */
  lemma {:induction false} CountComplement<T>(xs: seq<T>, p: T -> bool, notP: T -> bool)
    requires forall i :: 0 <= i < |xs| ==> (notP(xs[i]) <==> !p(xs[i]))
    ensures Count(xs, p) + Count(xs, notP) == |xs|
    decreases |xs|
  {
    if |xs| > 0 {
      CountComplement(xs[1..], p, notP);
    }
  }

  /** No two positions of `xs` share a key. */
  ghost predicate DistinctBy<T, K>(xs: seq<T>, key: T -> K) {
    forall i, j :: 0 <= i < j < |xs| ==> key(xs[i]) != key(xs[j])
  }

  /** Filtering keeps keys distinct. */
  lemma {:induction false} FilterDistinct<T, K>(xs: seq<T>, p: T -> bool, key: T -> K)
    requires DistinctBy(xs, key)
    ensures DistinctBy(Filter(xs, p), key)
    decreases |xs|
  {
    if |xs| > 0 {
      FilterDistinct(xs[1..], p, key);
      var rest := Filter(xs[1..], p);
      if p(xs[0]) {
        forall k | 0 <= k < |rest|
          ensures key(xs[0]) != key(rest[k])
        {
          assert rest[k] in xs[1..];
          var j :| 0 <= j < |xs[1..]| && xs[1..][j] == rest[k];
          assert xs[j + 1] == rest[k];
        }
        var r := [xs[0]] + rest;
        forall i, j | 0 <= i < j < |r|
          ensures key(r[i]) != key(r[j])
        {
          if i > 0 {
            assert r[i] == rest[i - 1] && r[j] == rest[j - 1];
          }
        }
      }
    }
  }

  /** `xs.slice(0, n)`. */
  function Take<T>(xs: seq<T>, n: nat): (r: seq<T>)
    ensures |r| <= n && |r| <= |xs|
    ensures |xs| >= n ==> |r| == n
    ensures r == xs[..|r|]
  {
    if |xs| <= n then xs else xs[..n]
  }
}

=== FILE: settings.dfy ===
/** The settings hook (`useSettings.ts`): the settings record with its
    defaults, the updates the hook offers, the restore from storage and from
    other tabs, and the currency helpers. Storage, JSON and the DOM are not
    modelled: the stored text and its parse are parameters. */
module Settings {
  import opened Wrappers
  import opened Types
  import opened Text
  import opened DigitGroups
  import opened Salary

  datatype Theme = Light | Dark | System

  /** `AppSettings`. */
  datatype AppSettings = AppSettings(
    theme: Theme,
    currency: string,
    dateFormat: string,
    notifications: bool,
    autoSave: bool,
    language: string,
    compactView: bool,
    showSalaryInList: bool,
    defaultPriority: Priority,
    defaultStatus: Status)

  /** `defaultSettings`. */
  const Defaults: AppSettings := AppSettings(Light, "USD", "MM/DD/YYYY", true, true, "en", false, true, Medium, Applied)

  /** `keyof AppSettings`. */
  datatype Key =
    | ThemeKey | CurrencyKey | DateFormatKey | NotificationsKey | AutoSaveKey
    | LanguageKey | CompactViewKey | ShowSalaryInListKey | DefaultPriorityKey | DefaultStatusKey

  /** A value one of the keys can hold. */
  datatype Value =
    | ThemeValue(theme: Theme)
    | Text(text: string)
    | Flag(flag: bool)
    | PriorityValue(priority: Priority)
    | StatusValue(status: Status)

  /** `AppSettings[K]`: the value has the type of the key's field. */
  predicate Fits(k: Key, v: Value) {
    match k
    case ThemeKey => v.ThemeValue?
    case CurrencyKey | DateFormatKey | LanguageKey => v.Text?
    case NotificationsKey | AutoSaveKey | CompactViewKey | ShowSalaryInListKey => v.Flag?
    case DefaultPriorityKey => v.PriorityValue?
    case DefaultStatusKey => v.StatusValue?
  }

  /** `settings[key]`. */
  function Get(s: AppSettings, k: Key): (v: Value)
    ensures Fits(k, v)
  {
    match k
    case ThemeKey => ThemeValue(s.theme)
    case CurrencyKey => Text(s.currency)
    case DateFormatKey => Text(s.dateFormat)
    case NotificationsKey => Flag(s.notifications)
    case AutoSaveKey => Flag(s.autoSave)
    case LanguageKey => Text(s.language)
    case CompactViewKey => Flag(s.compactView)
    case ShowSalaryInListKey => Flag(s.showSalaryInList)
    case DefaultPriorityKey => PriorityValue(s.defaultPriority)
    case DefaultStatusKey => StatusValue(s.defaultStatus)
  }

  /** Settings that agree on every key are the same settings. */
  lemma SameByKeys(a: AppSettings, b: AppSettings)
    requires forall k :: Get(a, k) == Get(b, k)
    ensures a == b
  {
    assert Get(a, ThemeKey) == Get(b, ThemeKey);
    assert Get(a, CurrencyKey) == Get(b, CurrencyKey);
    assert Get(a, DateFormatKey) == Get(b, DateFormatKey);
    assert Get(a, NotificationsKey) == Get(b, NotificationsKey);
    assert Get(a, AutoSaveKey) == Get(b, AutoSaveKey);
    assert Get(a, LanguageKey) == Get(b, LanguageKey);
    assert Get(a, CompactViewKey) == Get(b, CompactViewKey);
    assert Get(a, ShowSalaryInListKey) == Get(b, ShowSalaryInListKey);
    assert Get(a, DefaultPriorityKey) == Get(b, DefaultPriorityKey);
    assert Get(a, DefaultStatusKey) == Get(b, DefaultStatusKey);
  }

  // ---------------------------------------------------------------------------
  // updateSetting, updateSettings, resetSettings

  /** `updateSetting(key, value)`: `{ ...prev, [key]: value }`. */
  function UpdateSetting(s: AppSettings, k: Key, v: Value): (r: AppSettings)
    requires Fits(k, v)
    ensures Get(r, k) == v
    ensures forall k' :: k' != k ==> Get(r, k') == Get(s, k')
  {
    match k
    case ThemeKey => s.(theme := v.theme)
    case CurrencyKey => s.(currency := v.text)
    case DateFormatKey => s.(dateFormat := v.text)
    case NotificationsKey => s.(notifications := v.flag)
    case AutoSaveKey => s.(autoSave := v.flag)
    case LanguageKey => s.(language := v.text)
    case CompactViewKey => s.(compactView := v.flag)
    case ShowSalaryInListKey => s.(showSalaryInList := v.flag)
    case DefaultPriorityKey => s.(defaultPriority := v.priority)
    case DefaultStatusKey => s.(defaultStatus := v.status)
  }

  /** `Partial<AppSettings>`: the keys present and their values. */
  datatype SettingsPatch = SettingsPatch(
    theme: Option<Theme>,
    currency: Option<string>,
    dateFormat: Option<string>,
    notifications: Option<bool>,
    autoSave: Option<bool>,
    language: Option<string>,
    compactView: Option<bool>,
    showSalaryInList: Option<bool>,
    defaultPriority: Option<Priority>,
    defaultStatus: Option<Status>)

  const EmptyPatch: SettingsPatch := SettingsPatch(None, None, None, None, None, None, None, None, None, None)

  /** The value a patch gives a key, if it has one. */
  function PatchGet(p: SettingsPatch, k: Key): (r: Option<Value>)
    ensures r.Some? ==> Fits(k, r.value)
  {
    match k
    case ThemeKey => if p.theme.Some? then Some(ThemeValue(p.theme.value)) else None
    case CurrencyKey => if p.currency.Some? then Some(Text(p.currency.value)) else None
    case DateFormatKey => if p.dateFormat.Some? then Some(Text(p.dateFormat.value)) else None
    case NotificationsKey => if p.notifications.Some? then Some(Flag(p.notifications.value)) else None
    case AutoSaveKey => if p.autoSave.Some? then Some(Flag(p.autoSave.value)) else None
    case LanguageKey => if p.language.Some? then Some(Text(p.language.value)) else None
    case CompactViewKey => if p.compactView.Some? then Some(Flag(p.compactView.value)) else None
    case ShowSalaryInListKey => if p.showSalaryInList.Some? then Some(Flag(p.showSalaryInList.value)) else None
    case DefaultPriorityKey => if p.defaultPriority.Some? then Some(PriorityValue(p.defaultPriority.value)) else None
    case DefaultStatusKey => if p.defaultStatus.Some? then Some(StatusValue(p.defaultStatus.value)) else None
  }

  /** `{ ...s, ...p }`. */
  function Overlay(s: AppSettings, p: SettingsPatch): AppSettings {
    AppSettings(
      p.theme.GetOr(s.theme),
      p.currency.GetOr(s.currency),
      p.dateFormat.GetOr(s.dateFormat),
      p.notifications.GetOr(s.notifications),
      p.autoSave.GetOr(s.autoSave),
      p.language.GetOr(s.language),
      p.compactView.GetOr(s.compactView),
      p.showSalaryInList.GetOr(s.showSalaryInList),
      p.defaultPriority.GetOr(s.defaultPriority),
      p.defaultStatus.GetOr(s.defaultStatus))
  }

  /** The keys present in the patch take its values; the others keep theirs. */
  lemma OverlayGet(s: AppSettings, p: SettingsPatch, k: Key)
    ensures Get(Overlay(s, p), k) == PatchGet(p, k).GetOr(Get(s, k))
  {
  }

  /** `updateSettings(newSettings)`. */
  function UpdateSettings(s: AppSettings, p: SettingsPatch): AppSettings {
    Overlay(s, p)
  }

  /** `updateSettings` overwrites exactly the keys the patch supplies. */
  lemma UpdateSettingsSpec(s: AppSettings, p: SettingsPatch, k: Key)
    ensures PatchGet(p, k).None? ==> Get(UpdateSettings(s, p), k) == Get(s, k)
    ensures PatchGet(p, k).Some? ==> Get(UpdateSettings(s, p), k) == PatchGet(p, k).value
  {
    OverlayGet(s, p, k);
  }

  /** `{ ...p, ...q }`: the later patch wins where both give a key. */
  function MergePatches(p: SettingsPatch, q: SettingsPatch): SettingsPatch {
    SettingsPatch(
      if q.theme.Some? then q.theme else p.theme,
      if q.currency.Some? then q.currency else p.currency,
      if q.dateFormat.Some? then q.dateFormat else p.dateFormat,
      if q.notifications.Some? then q.notifications else p.notifications,
      if q.autoSave.Some? then q.autoSave else p.autoSave,
      if q.language.Some? then q.language else p.language,
      if q.compactView.Some? then q.compactView else p.compactView,
      if q.showSalaryInList.Some? then q.showSalaryInList else p.showSalaryInList,
      if q.defaultPriority.Some? then q.defaultPriority else p.defaultPriority,
      if q.defaultStatus.Some? then q.defaultStatus else p.defaultStatus)
  }

  lemma MergeGet(p: SettingsPatch, q: SettingsPatch, k: Key)
    ensures PatchGet(MergePatches(p, q), k) == if PatchGet(q, k).Some? then PatchGet(q, k) else PatchGet(p, k)
  {
  }

  /** An empty update changes nothing. */
  lemma UpdateNothing(s: AppSettings)
    ensures UpdateSettings(s, EmptyPatch) == s
  {
    forall k
      ensures Get(UpdateSettings(s, EmptyPatch), k) == Get(s, k)
    {
      OverlayGet(s, EmptyPatch, k);
    }
    SameByKeys(UpdateSettings(s, EmptyPatch), s);
  }

  /** Applying the same update twice is applying it once. */
  lemma UpdateSettingsIdempotent(s: AppSettings, p: SettingsPatch)
    ensures UpdateSettings(UpdateSettings(s, p), p) == UpdateSettings(s, p)
  {
    var once := UpdateSettings(s, p);
    forall k
      ensures Get(UpdateSettings(once, p), k) == Get(once, k)
    {
      OverlayGet(s, p, k);
      OverlayGet(once, p, k);
    }
    SameByKeys(UpdateSettings(once, p), once);
  }

  /** Two updates in a row are one update with the merged patch. */
  lemma UpdateSettingsCompose(s: AppSettings, p: SettingsPatch, q: SettingsPatch)
    ensures UpdateSettings(UpdateSettings(s, p), q) == UpdateSettings(s, MergePatches(p, q))
  {
    var twice := UpdateSettings(UpdateSettings(s, p), q);
    var merged := UpdateSettings(s, MergePatches(p, q));
    forall k
      ensures Get(twice, k) == Get(merged, k)
    {
      OverlayGet(s, p, k);
      OverlayGet(UpdateSettings(s, p), q, k);
      OverlayGet(s, MergePatches(p, q), k);
      MergeGet(p, q, k);
    }
    SameByKeys(twice, merged);
  }

  /** Setting one key is an update whose patch holds only that key. */
  lemma UpdateSettingIsUpdate(s: AppSettings, k: Key, v: Value, p: SettingsPatch)
    requires Fits(k, v)
    requires PatchGet(p, k) == Some(v)
    requires forall k' :: k' != k ==> PatchGet(p, k').None?
    ensures UpdateSetting(s, k, v) == UpdateSettings(s, p)
  {
    forall k'
      ensures Get(UpdateSetting(s, k, v), k') == Get(UpdateSettings(s, p), k')
    {
      OverlayGet(s, p, k');
    }
    SameByKeys(UpdateSetting(s, k, v), UpdateSettings(s, p));
  }

  /** `resetSettings()`. */
  function ResetSettings(s: AppSettings): AppSettings {
    Defaults
  }

  /** A patch holding every key of `s`, what `JSON.stringify(settings)`
      reads back as. */
  function Full(s: AppSettings): (p: SettingsPatch)
    ensures forall k :: PatchGet(p, k) == Some(Get(s, k))
  {
    SettingsPatch(Some(s.theme), Some(s.currency), Some(s.dateFormat), Some(s.notifications), Some(s.autoSave),
                  Some(s.language), Some(s.compactView), Some(s.showSalaryInList), Some(s.defaultPriority),
                  Some(s.defaultStatus))
  }

  /** A patch holding every key replaces the settings whatever they were. */
  lemma OverlayFull(base: AppSettings, s: AppSettings)
    ensures Overlay(base, Full(s)) == s
  {
    forall k
      ensures Get(Overlay(base, Full(s)), k) == Get(s, k)
    {
      OverlayGet(base, Full(s), k);
    }
    SameByKeys(Overlay(base, Full(s)), s);
  }

  // ---------------------------------------------------------------------------
  // The initial state and the storage listener

  const StorageKey: string := "jobtracker-settings"

  /** The initial settings: stored settings overlaid on the defaults, or the
      defaults when nothing (or the empty string) is stored or the stored
      text does not parse. `parse` is `JSON.parse`, `None` when it throws. */
  function InitialSettings(stored: Option<string>, parse: string -> Option<SettingsPatch>): AppSettings {
    if Truthy(stored) then
      match parse(stored.value)
      case Some(p) => Overlay(Defaults, p)
      case None => Defaults
    else Defaults
  }

  /** Every key missing from the stored settings, or all of them when there
      are none, takes its default value; the others take the stored value. */
  lemma InitialSettingsSpec(stored: Option<string>, parse: string -> Option<SettingsPatch>, k: Key)
    ensures var p := if Truthy(stored) then parse(stored.value).GetOr(EmptyPatch) else EmptyPatch;
      Get(InitialSettings(stored, parse), k) == PatchGet(p, k).GetOr(Get(Defaults, k))
  {
    if Truthy(stored) && parse(stored.value).Some? {
      OverlayGet(Defaults, parse(stored.value).value, k);
    }
  }

  /** Resetting gives what a browser with nothing stored starts from. */
  lemma ResetIsFreshStart(s: AppSettings, parse: string -> Option<SettingsPatch>)
    ensures ResetSettings(s) == InitialSettings(None, parse)
  {
  }

  /** `handleStorageChange`: an event for the settings key with a value
      replaces the settings by the new ones overlaid on the defaults; events
      for other keys, without a value or with text that does not parse are
      ignored. */
  function OnStorageEvent(current: AppSettings, key: string, newValue: Option<string>,
                          parse: string -> Option<SettingsPatch>): (r: AppSettings)
    ensures key != StorageKey || !Truthy(newValue) ==> r == current
    ensures Truthy(newValue) && parse(newValue.value).None? ==> r == current
  {
    if key == StorageKey && Truthy(newValue) then
      match parse(newValue.value)
      case Some(p) => Overlay(Defaults, p)
      case None => current
    else current
  }

  /** An event carrying another tab's stored settings makes this tab's
      settings equal to them, whatever they were before. */
  lemma StorageEventAdopts(current: AppSettings, text: string, parse: string -> Option<SettingsPatch>, s: AppSettings)
    requires text != ""
    requires parse(text) == Some(Full(s))
    ensures OnStorageEvent(current, StorageKey, Some(text), parse) == s
  {
    OverlayFull(Defaults, s);
  }

  /** A valid event does not depend on the settings it replaces, and agrees
      with what a fresh load of the same text gives. */
  lemma StorageEventIsReload(a: AppSettings, b: AppSettings, text: string, parse: string -> Option<SettingsPatch>)
    requires text != "" && parse(text).Some?
    ensures OnStorageEvent(a, StorageKey, Some(text), parse) == OnStorageEvent(b, StorageKey, Some(text), parse)
    ensures OnStorageEvent(a, StorageKey, Some(text), parse) == InitialSettings(Some(text), parse)
  {
  }

  // ---------------------------------------------------------------------------
  // Currencies

  datatype CurrencyConfig = CurrencyConfig(symbol: string, name: string)

  /** `currencyConfigs`. */
  const CurrencyConfigs: map<string, CurrencyConfig> := map[
    "USD" := CurrencyConfig("$", "US Dollar"),
    "EUR" := CurrencyConfig("\U{20AC}", "Euro"),
    "GBP" := CurrencyConfig("\U{A3}", "British Pound"),
    "CAD" := CurrencyConfig("C$", "Canadian Dollar"),
    "AUD" := CurrencyConfig("A$", "Australian Dollar"),
    "JPY" := CurrencyConfig("\U{A5}", "Japanese Yen"),
    "INR" := CurrencyConfig("\U{20B9}", "Indian Rupee"),
    "CNY" := CurrencyConfig("\U{A5}", "Chinese Yuan"),
    "CHF" := CurrencyConfig("CHF", "Swiss Franc"),
    "SEK" := CurrencyConfig("kr", "Swedish Krona")
  ]

  /** Every configured symbol and name is non-empty and the symbols hold no
      digit. */
  lemma ConfigsWellFormed()
    ensures forall c :: c in CurrencyConfigs ==>
      && CurrencyConfigs[c].symbol != "" && CurrencyConfigs[c].name != ""
      && NoDigits(CurrencyConfigs[c].symbol)
  {
  }

  /** `getCurrencySymbol()`: the configured symbol, "$" for an unknown code. */
  function CurrencySymbol(s: AppSettings): (sym: string)
    ensures s.currency !in CurrencyConfigs ==> sym == "$"
    ensures s.currency in CurrencyConfigs ==> sym == CurrencyConfigs[s.currency].symbol
    ensures NoDigits(sym)
  {
    ConfigsWellFormed();
    if s.currency in CurrencyConfigs && CurrencyConfigs[s.currency].symbol != "" then CurrencyConfigs[s.currency].symbol
    else "$"
  }

  /** `getCurrencyName()`: the configured name, "US Dollar" for an unknown code. */
  function CurrencyName(s: AppSettings): (name: string)
    ensures s.currency !in CurrencyConfigs ==> name == "US Dollar"
    ensures s.currency in CurrencyConfigs ==> name == CurrencyConfigs[s.currency].name
  {
    ConfigsWellFormed();
    if s.currency in CurrencyConfigs && CurrencyConfigs[s.currency].name != "" then CurrencyConfigs[s.currency].name
    else "US Dollar"
  }

  /** The default currency is the US dollar. */
  lemma DefaultCurrency()
    ensures CurrencySymbol(Defaults) == "$" && CurrencyName(Defaults) == "US Dollar"
  {
    assert Defaults.currency in CurrencyConfigs;
  }

  /** `n.toLocaleString()` for a whole number, with en-US grouping. */
  function LocaleText(n: int): string {
    if n < 0 then "-" + Grouped(-n) else Grouped(n)
  }

  /** `${amount}`. */
  function AmountText(amount: Scalar): string {
    match amount
    case Number(n) => NumberText(n)
    case Str(t) => t
  }

  /** `formatCurrency(amount)`. An unknown currency code prefixes "$" to the
      amount as it is. A string with two or more digit groups becomes the
      range of its first two; with one group, that value; with none, the
      string itself. A number is written with grouping. */
  function FormatCurrency(s: AppSettings, amount: Scalar): (r: string)
    ensures s.currency !in CurrencyConfigs ==> r == "$" + AmountText(amount)
    ensures s.currency in CurrencyConfigs && amount.Str? && |Matches(amount.s)| == 0
         ==> r == CurrencySymbol(s) + amount.s
  {
    if s.currency !in CurrencyConfigs then "$" + AmountText(amount)
    else
      var sym := CurrencyConfigs[s.currency].symbol;
      match amount
      case Str(t) =>
        var numbers := Matches(t);
        if |numbers| >= 2 then
          assert numbers[0] in numbers && numbers[1] in numbers;
          RangeText(sym, GroupValue(numbers[0]), GroupValue(numbers[1]))
        else if |numbers| == 1 then
          assert numbers[0] in numbers;
          sym + Grouped(GroupValue(numbers[0]))
        else sym + t
      case Number(n) => sym + LocaleText(n)
  }

  /** A salary with a range is formatted as the range the salary chart reads
      from it. */
  lemma FormatSalaryRange(s: AppSettings, t: string)
    requires s.currency in CurrencyConfigs
    requires ParseSalary(Some(t)).Some?
    ensures var range := ParseSalary(Some(t)).value;
      FormatCurrency(s, Str(t)) == RangeText(CurrencySymbol(s), range.min, range.max)
  {
  }

  /** Formatting a salary range and reading the result back gives the same
      range. */
  lemma FormatSalaryRoundTrip(s: AppSettings, t: string)
    requires s.currency in CurrencyConfigs
    requires ParseSalary(Some(t)).Some?
    ensures ParseSalary(Some(FormatCurrency(s, Str(t)))) == ParseSalary(Some(t))
  {
    var range := ParseSalary(Some(t)).value;
    FormatSalaryRange(s, t);
    ParseRangeText(CurrencySymbol(s), range.min, range.max);
  }
}

=== FILE: sorting.dfy ===
/** Stable insertion sort under a caller-supplied total preorder: the model of
    `Array.prototype.sort`, which ECMAScript 2019 requires to be stable. The
    comparator `(a, b) => c(a, b)` of the source corresponds to `le(a, b)`
    meaning "`c(a, b) <= 0`", that is, `a` may stay in front of `b`. */
module Sorting {
  import opened Seqs

  ghost predicate TotalPreorder<T(!new)>(le: (T, T) -> bool) {
    && (forall a, b :: le(a, b) || le(b, a))
    && (forall a, b, c :: le(a, b) && le(b, c) ==> le(a, c))
  }

  /** Every earlier element may precede every later one. */
  ghost predicate SortedBy<T>(xs: seq<T>, le: (T, T) -> bool) {
    forall i, j :: 0 <= i < j < |xs| ==> le(xs[i], xs[j])
  }

  /** Inserts `x` in front of the first element it may precede; `x` thus goes
      before every element it ties with. */
  function Insert<T>(x: T, xs: seq<T>, le: (T, T) -> bool): (r: seq<T>)
    ensures |r| == |xs| + 1
    ensures multiset(r) == multiset(xs) + multiset{x}
    decreases |xs|
  {
    if |xs| == 0 then [x]
    else if le(x, xs[0]) then [x] + xs
    else
      assert xs == [xs[0]] + xs[1..];
      [xs[0]] + Insert(x, xs[1..], le)
  }

  /** The stable sort: the head goes in front of all later elements it ties with. */
  function SortBy<T>(xs: seq<T>, le: (T, T) -> bool): (r: seq<T>)
    ensures multiset(r) == multiset(xs)
    ensures |r| == |xs|
    decreases |xs|
  {
    if |xs| == 0 then []
    else
      assert xs == [xs[0]] + xs[1..];
      Insert(xs[0], SortBy(xs[1..], le), le)
  }

  /** Every element of `xs` is one of its listed positions. */
  lemma InMultiset<T>(xs: seq<T>, y: T)
    requires y in multiset(xs)
    ensures exists j :: 0 <= j < |xs| && xs[j] == y
  {
  }

  /** Putting an element that may precede the head in front keeps the order. */
  lemma ConsSorted<T(!new)>(x: T, xs: seq<T>, le: (T, T) -> bool)
    requires TotalPreorder(le)
    requires SortedBy(xs, le)
    requires |xs| > 0 ==> le(x, xs[0])
    ensures SortedBy([x] + xs, le)
  {
    var r := [x] + xs;
    forall i, j | 0 <= i < j < |r|
      ensures le(r[i], r[j])
    {
      if i == 0 {
        if j > 1 {
          assert le(xs[0], xs[j - 1]);
        }
      } else {
        assert r[i] == xs[i - 1] && r[j] == xs[j - 1];
      }
    }
  }

  /** A lower bound of every element of `xs` and of `x` bounds `Insert(x, xs)`. */
  lemma InsertBound<T>(h: T, x: T, xs: seq<T>, le: (T, T) -> bool)
    requires le(h, x)
    requires forall k :: 0 <= k < |xs| ==> le(h, xs[k])
    ensures forall k :: 0 <= k < |Insert(x, xs, le)| ==> le(h, Insert(x, xs, le)[k])
  {
    var rest := Insert(x, xs, le);
    forall k | 0 <= k < |rest|
      ensures le(h, rest[k])
    {
      assert rest[k] in multiset(rest);
      if rest[k] != x {
        assert rest[k] in multiset(xs);
        InMultiset(xs, rest[k]);
      }
    }
  }

  /** A head that bounds the rest of the sequence keeps it sorted. */
  lemma ConsBounded<T>(h: T, xs: seq<T>, le: (T, T) -> bool)
    requires SortedBy(xs, le)
    requires forall k :: 0 <= k < |xs| ==> le(h, xs[k])
    ensures SortedBy([h] + xs, le)
  {
    var r := [h] + xs;
    forall i, j | 0 <= i < j < |r|
      ensures le(r[i], r[j])
    {
      if i == 0 {
        assert r[j] == xs[j - 1];
      } else {
        assert r[i] == xs[i - 1] && r[j] == xs[j - 1];
      }
    }
  }

  lemma {:induction false} InsertSorted<T(!new)>(x: T, xs: seq<T>, le: (T, T) -> bool)
    requires TotalPreorder(le)
    requires SortedBy(xs, le)
    ensures SortedBy(Insert(x, xs, le), le)
    decreases |xs|
  {
    if |xs| == 0 {
    } else if le(x, xs[0]) {
      ConsSorted(x, xs, le);
    } else {
      var tail := xs[1..];
      assert SortedBy(tail, le);
      InsertSorted(x, tail, le);
      assert le(xs[0], x);
      forall k | 0 <= k < |tail|
        ensures le(xs[0], tail[k])
      {
        assert tail[k] == xs[k + 1];
      }
      InsertBound(xs[0], x, tail, le);
      ConsBounded(xs[0], Insert(x, tail, le), le);
    }
  }

  /** The sort yields an ordering consistent with `le`. */
  lemma {:induction false} SortBySorted<T(!new)>(xs: seq<T>, le: (T, T) -> bool)
    requires TotalPreorder(le)
    ensures SortedBy(SortBy(xs, le), le)
    decreases |xs|
  {
    if |xs| > 0 {
      SortBySorted(xs[1..], le);
      InsertSorted(xs[0], SortBy(xs[1..], le), le);
    }
  }

  /** An element is in the sorted sequence exactly when it is in the input. */
  lemma SortByMembers<T>(xs: seq<T>, le: (T, T) -> bool, x: T)
    ensures x in SortBy(xs, le) <==> x in xs
  {
    var r := SortBy(xs, le);
    assert x in r <==> x in multiset(r);
    assert x in xs <==> x in multiset(xs);
  }

  /** An element is in `Insert(x, xs)` exactly when it is `x` or in `xs`. */
  lemma InsertMembers<T>(x: T, xs: seq<T>, le: (T, T) -> bool, y: T)
    ensures y in Insert(x, xs, le) <==> y == x || y in xs
  {
    var r := Insert(x, xs, le);
    assert y in r <==> y in multiset(r);
    assert y in xs <==> y in multiset(xs);
  }

  /** Inserting an element whose key is new keeps keys distinct. */
  lemma {:induction false} InsertDistinct<T, K>(x: T, xs: seq<T>, le: (T, T) -> bool, key: T -> K)
    requires DistinctBy(xs, key)
    requires forall k :: 0 <= k < |xs| ==> key(xs[k]) != key(x)
    ensures DistinctBy(Insert(x, xs, le), key)
    decreases |xs|
  {
    if |xs| > 0 && !le(x, xs[0]) {
      var tail := xs[1..];
      assert DistinctBy(tail, key);
      InsertDistinct(x, tail, le, key);
      var rest := Insert(x, tail, le);
      forall k | 0 <= k < |rest|
        ensures key(xs[0]) != key(rest[k])
      {
        InsertMembers(x, tail, le, rest[k]);
        if rest[k] != x {
          var j :| 0 <= j < |tail| && tail[j] == rest[k];
          assert xs[j + 1] == rest[k];
        }
      }
      var r := [xs[0]] + rest;
      forall i, j | 0 <= i < j < |r|
        ensures key(r[i]) != key(r[j])
      {
        if i > 0 {
          assert r[i] == rest[i - 1] && r[j] == rest[j - 1];
        }
      }
    } else if |xs| > 0 {
      var r := [x] + xs;
      forall i, j | 0 <= i < j < |r|
        ensures key(r[i]) != key(r[j])
      {
        if i > 0 {
          assert r[i] == xs[i - 1] && r[j] == xs[j - 1];
        }
      }
    }
  }

  /** Sorting keeps keys distinct. */
  lemma {:induction false} SortByDistinct<T, K>(xs: seq<T>, le: (T, T) -> bool, key: T -> K)
    requires DistinctBy(xs, key)
    ensures DistinctBy(SortBy(xs, le), key)
    decreases |xs|
  {
    if |xs| > 0 {
      var tail := xs[1..];
      assert DistinctBy(tail, key);
      SortByDistinct(tail, le, key);
      var sorted := SortBy(tail, le);
      forall k | 0 <= k < |sorted|
        ensures key(sorted[k]) != key(xs[0])
      {
        SortByMembers(tail, le, sorted[k]);
        var j :| 0 <= j < |tail| && tail[j] == sorted[k];
        assert xs[j + 1] == sorted[k];
      }
      InsertDistinct(xs[0], sorted, le, key);
    }
  }
}

=== FILE: text.dfy ===
/** String helpers the views rely on: ASCII case folding, substring search
    (`String.prototype.includes`), single replacement (`replace` with a string
    pattern), `join`/`split` on one separator character, and code-point order. */
module Text {

  predicate IsDigit(c: char) {
    '0' <= c <= '9'
  }

  /** `toLowerCase` restricted to ASCII letters. */
  function LowerChar(c: char): (r: char)
    ensures 'A' <= c <= 'Z' ==> 'a' <= r <= 'z' && r as int == c as int + 32
    ensures !('A' <= c <= 'Z') ==> r == c
  {
    if 'A' <= c <= 'Z' then (c as int + 32) as char else c
  }

  function Lower(s: string): (r: string)
    ensures |r| == |s|
    ensures forall i :: 0 <= i < |s| ==> r[i] == LowerChar(s[i])
  {
    seq(|s|, i requires 0 <= i < |s| => LowerChar(s[i]))
  }

  /** Lower-casing twice is lower-casing once. */
  lemma LowerIdempotent(s: string)
    ensures Lower(Lower(s)) == Lower(s)
  {
  }

  /** `needle` occurs in `hay` starting at position `i`. */
  ghost predicate OccursAt(hay: string, needle: string, i: int) {
    0 <= i && i + |needle| <= |hay| && hay[i..i + |needle|] == needle
  }

  /** `hay.includes(needle)`. */
  function Contains(hay: string, needle: string): (r: bool)
    decreases |hay|
  {
    if |needle| > |hay| then false
    else if hay[..|needle|] == needle then true
    else Contains(hay[1..], needle)
  }

  /** `Contains` holds exactly when `needle` occurs somewhere in `hay`. */
  lemma {:induction false} ContainsIffOccurs(hay: string, needle: string)
    ensures Contains(hay, needle) <==> exists i :: OccursAt(hay, needle, i)
    decreases |hay|
  {
    if |needle| > |hay| {
      assert forall i :: !OccursAt(hay, needle, i);
    } else if hay[..|needle|] == needle {
      assert OccursAt(hay, needle, 0);
    } else {
      ContainsIffOccurs(hay[1..], needle);
      if exists i :: OccursAt(hay, needle, i) {
        var i :| OccursAt(hay, needle, i);
        assert i != 0;
        assert hay[1..][i - 1..i - 1 + |needle|] == hay[i..i + |needle|];
        assert OccursAt(hay[1..], needle, i - 1);
      }
      if exists i :: OccursAt(hay[1..], needle, i) {
        var i :| OccursAt(hay[1..], needle, i);
        assert hay[1..][i..i + |needle|] == hay[i + 1..i + 1 + |needle|];
        assert OccursAt(hay, needle, i + 1);
      }
    }
  }

  /** Every string contains the empty string. */
  lemma ContainsEmpty(hay: string)
    ensures Contains(hay, "")
  {
    assert hay[..0] == "";
  }

  /** The position of the first `c` in `s`, or `|s|` when there is none. */
  function FirstIndex(s: string, c: char): (i: nat)
    ensures i <= |s|
    ensures c !in s[..i]
    ensures i < |s| ==> s[i] == c
    decreases |s|
  {
    if |s| == 0 then 0
    else if s[0] == c then 0
    else
      var j := FirstIndex(s[1..], c);
      assert s[..j + 1] == [s[0]] + s[1..][..j];
      j + 1
  }

  /** `s.replace(from, to)` for single characters: only the first occurrence. */
  function ReplaceFirst(s: string, from: char, to: char): (r: string)
    ensures |r| == |s|
    decreases |s|
  {
    if |s| == 0 then s
    else if s[0] == from then [to] + s[1..]
    else [s[0]] + ReplaceFirst(s[1..], from, to)
  }

  /** The shape `ReplaceFirstSpec` states, for a given position `i`. */
  ghost predicate ReplacedAt(s: string, r: string, i: nat, to: char)
    requires |r| == |s| && i <= |s|
  {
    && r[..i] == s[..i]
    && (i < |s| ==> r[i] == to && r[i + 1..] == s[i + 1..])
  }

  /** Prepending the same character to both strings shifts the position by one. */
  lemma ReplacedCons(c: char, s: string, r: string, i: nat, to: char)
    requires |r| == |s| && i <= |s|
    requires ReplacedAt(s, r, i, to)
    ensures ReplacedAt([c] + s, [c] + r, i + 1, to)
  {
    assert ([c] + r)[..i + 1] == [c] + r[..i];
    assert ([c] + s)[..i + 1] == [c] + s[..i];
    if i < |s| {
      assert ([c] + r)[i + 2..] == r[i + 1..];
      assert ([c] + s)[i + 2..] == s[i + 1..];
    }
  }

  /** Only the first occurrence of `from` is replaced; without one nothing changes. */
  lemma {:induction false} ReplaceFirstSpec(s: string, from: char, to: char)
    ensures ReplacedAt(s, ReplaceFirst(s, from, to), FirstIndex(s, from), to)
    decreases |s|
  {
    if |s| > 0 && s[0] != from {
      ReplaceFirstSpec(s[1..], from, to);
      ReplacedCons(s[0], s[1..], ReplaceFirst(s[1..], from, to), FirstIndex(s[1..], from), to);
      assert [s[0]] + s[1..] == s;
    }
  }

  /** The first `from` is the one after a prefix free of it. */
  lemma {:induction false} ReplaceAfter(pre: string, from: char, to: char, post: string)
    requires from !in pre
    ensures ReplaceFirst(pre + [from] + post, from, to) == pre + [to] + post
    decreases |pre|
  {
    if |pre| > 0 {
      ReplaceAfter(pre[1..], from, to, post);
      assert (pre + [from] + post)[1..] == pre[1..] + [from] + post;
      assert pre + [to] + post == [pre[0]] + (pre[1..] + [to] + post);
    }
  }

  /** Without an occurrence of `from`, replacing changes nothing. */
  lemma ReplaceAbsent(s: string, from: char, to: char)
    requires from !in s
    ensures ReplaceFirst(s, from, to) == s
  {
    ReplaceFirstSpec(s, from, to);
    assert s[..|s|] == s;
  }

  /** `xs.join(sep)`. */
  function Join(xs: seq<string>, sep: char): string
    decreases |xs|
  {
    if |xs| == 0 then ""
    else if |xs| == 1 then xs[0]
    else xs[0] + [sep] + Join(xs[1..], sep)
  }

  /** Joining pieces free of a character other than the separator gives a
      string free of it. */
  lemma {:induction false} JoinFree(xs: seq<string>, sep: char, c: char)
    requires c != sep
    requires forall i :: 0 <= i < |xs| ==> c !in xs[i]
    ensures c !in Join(xs, sep)
    decreases |xs|
  {
    if |xs| > 1 {
      JoinFree(xs[1..], sep, c);
    }
  }

  /** `s.split(sep)`: the pieces between separators, always at least one. */
  function Split(s: string, sep: char): (r: seq<string>)
    ensures |r| >= 1
    decreases |s|
  {
    if |s| == 0 then [""]
    else if s[0] == sep then [""] + Split(s[1..], sep)
    else
      var t := Split(s[1..], sep);
      [[s[0]] + t[0]] + t[1..]
  }

  /** Joining the pieces of a split gives back the string. */
  lemma {:induction false} JoinSplit(s: string, sep: char)
    ensures Join(Split(s, sep), sep) == s
    decreases |s|
  {
    if |s| > 0 {
      JoinSplit(s[1..], sep);
      var t := Split(s[1..], sep);
      if s[0] == sep {
        assert ([""] + t)[1..] == t;
      } else {
        var r := [[s[0]] + t[0]] + t[1..];
        assert r[1..] == t[1..];
        if |t| > 1 {
          assert Join(t, sep) == t[0] + [sep] + Join(t[1..], sep);
        }
      }
    }
  }

  /** A piece free of the separator glues onto the first piece of what follows. */
  lemma {:induction false} SplitPrefix(x: string, t: string, sep: char)
    requires sep !in x
    ensures Split(x + t, sep) == [x + Split(t, sep)[0]] + Split(t, sep)[1..]
    decreases |x|
  {
    if |x| == 0 {
      var r := Split(t, sep);
      assert x + t == t;
      assert x + r[0] == r[0];
      assert [r[0]] + r[1..] == r;
    } else {
      assert (x + t)[0] == x[0];
      assert (x + t)[1..] == x[1..] + t;
      SplitPrefix(x[1..], t, sep);
      assert [x[0]] + (x[1..] + Split(t, sep)[0]) == x + Split(t, sep)[0];
    }
  }

  /** Splitting a join of separator-free pieces gives back the pieces. */
  lemma {:induction false} SplitJoin(xs: seq<string>, sep: char)
    requires |xs| >= 1
    requires forall i :: 0 <= i < |xs| ==> sep !in xs[i]
    ensures Split(Join(xs, sep), sep) == xs
    decreases |xs|
  {
    if |xs| == 1 {
      SplitPrefix(xs[0], "", sep);
      assert xs[0] + "" == xs[0];
    } else {
      SplitJoin(xs[1..], sep);
      var rest := Join(xs[1..], sep);
      assert xs[0] + [sep] + rest == xs[0] + ([sep] + rest);
      SplitPrefix(xs[0], [sep] + rest, sep);
      assert ([sep] + rest)[0] == sep;
      assert ([sep] + rest)[1..] == rest;
      var u := Split([sep] + rest, sep);
      assert u == [""] + Split(rest, sep);
      assert u[0] == "" && u[1..] == xs[1..];
      assert xs[0] + u[0] == xs[0];
      assert xs == [xs[0]] + xs[1..];
    }
  }

  /** Code-point lexicographic order, the model of `localeCompare(...) <= 0`. */
  predicate StrLe(a: string, b: string)
    decreases |a|
  {
    |a| == 0 || (|b| > 0 && (a[0] < b[0] || (a[0] == b[0] && StrLe(a[1..], b[1..]))))
  }

  lemma {:induction false} StrLeRefl(a: string)
    ensures StrLe(a, a)
    decreases |a|
  {
    if |a| > 0 {
      StrLeRefl(a[1..]);
    }
  }

  lemma {:induction false} StrLeTotal(a: string, b: string)
    ensures StrLe(a, b) || StrLe(b, a)
    decreases |a|
  {
    if |a| > 0 && |b| > 0 && a[0] == b[0] {
      StrLeTotal(a[1..], b[1..]);
    }
  }

  lemma {:induction false} StrLeTrans(a: string, b: string, c: string)
    requires StrLe(a, b) && StrLe(b, c)
    ensures StrLe(a, c)
    decreases |a|
  {
    if |a| > 0 && a[0] == b[0] && b[0] == c[0] {
      StrLeTrans(a[1..], b[1..], c[1..]);
    }
  }
}

=== FILE: types.dfy ===
/** The records of the tracker (src/types/index.ts). Dates are millisecond
    timestamps; a property that may be `undefined` is an `Option`. */
module Types {
  import opened Wrappers

  /** Milliseconds since the epoch, what `Date.prototype.getTime` returns. */
  type Timestamp = int

  /** `1000 * 60 * 60 * 24`, one day in milliseconds. */
  const DayMs: int := 1000 * 60 * 60 * 24

  /** The five application states; the wire names are given by `StatusName`.
      `Interviewing` is the state written "interview". */
  datatype Status = Applied | Interviewing | Offered | Rejected | Withdrawn

  const AllStatuses: seq<Status> := [Applied, Interviewing, Offered, Rejected, Withdrawn]

  function StatusName(s: Status): string {
    match s
    case Applied => "applied"
    case Interviewing => "interview"
    case Offered => "offer"
    case Rejected => "rejected"
    case Withdrawn => "withdrawn"
  }

  function StatusOf(app: Application): Status {
    app.status
  }

  function CompanyOf(app: Application): string {
    app.company
  }

  /** `['interview', 'offer'].includes(app.status)`: the record got past the
      application stage. */
  predicate InterviewOrOffer(app: Application) {
    app.status == Interviewing || app.status == Offered
  }

  datatype Priority = Low | Medium | High

  function PriorityName(p: Priority): string {
    match p
    case Low => "low"
    case Medium => "medium"
    case High => "high"
  }

  datatype DocumentKind = Resume | CoverLetter | Portfolio | OtherDocument

  /** A form value whose JavaScript type depends on the input that last set it. */
  datatype Scalar = Number(n: int) | Str(s: string)

  datatype Contact = Contact(
    id: string,
    name: string,
    role: string,
    email: Option<string>,
    linkedin: Option<string>,
    notes: Option<string>)

  /** `kind` is the `type` property. */
  datatype Interview = Interview(
    id: string,
    kind: string,
    date: Timestamp,
    duration: Option<int>,
    interviewer: Option<string>,
    notes: Option<string>,
    feedback: Option<string>,
    rating: Option<Scalar>)

  datatype Document = Document(
    id: string,
    name: string,
    kind: DocumentKind,
    url: Option<string>,
    uploadDate: Timestamp)

  datatype Application = Application(
    id: string,
    jobTitle: string,
    company: string,
    location: string,
    salary: Option<string>,
    status: Status,
    appliedDate: Timestamp,
    lastUpdated: Timestamp,
    jobUrl: Option<string>,
    description: Option<string>,
    notes: Option<string>,
    contacts: Option<seq<Contact>>,
    interviews: Option<seq<Interview>>,
    documents: Option<seq<Document>>,
    priority: Priority)

  /** A string property is truthy when present and non-empty. */
  predicate Truthy(s: Option<string>) {
    s.Some? && s.value != ""
  }

  /** `s || ""`. */
  function OrEmpty(s: Option<string>): (r: string)
    ensures Truthy(s) ==> r == s.value
    ensures !Truthy(s) ==> r == ""
  {
    if Truthy(s) then s.value else ""
  }

  /** `selectedApplication?.id || entry?.applicationId || ''`: the
      application a form starts on, the selected one first. */
  function StartingApplicationId(selected: Option<Application>, carriedId: Option<string>): (id: string)
    ensures selected.Some? && selected.value.id != "" ==> id == selected.value.id
    ensures (selected.None? || selected.value.id == "") ==> id == OrEmpty(carriedId)
  {
    if selected.Some? && selected.value.id != "" then selected.value.id else OrEmpty(carriedId)
  }

  /** `app.interviews || []`. */
  function InterviewsOf(app: Application): seq<Interview> {
    app.interviews.GetOr([])
  }

  /** `app.contacts || []`. */
  function ContactsOf(app: Application): seq<Contact> {
    app.contacts.GetOr([])
  }

  /** `Math.ceil(a / b)` for a positive divisor. */
  function CeilDiv(a: int, b: int): (r: int)
    requires b > 0
    ensures b * (r - 1) < a <= b * r
  {
    -((-a) / b)
  }

  /** Whole days from application to last update, rounded up: the response
      time of one record. */
  function ResponseDays(app: Application): (r: int)
    ensures DayMs * (r - 1) < app.lastUpdated - app.appliedDate <= DayMs * r
  {
    CeilDiv(app.lastUpdated - app.appliedDate, DayMs)
  }
}

=== FILE: wrappers.dfy ===
/** Optional values: the model's stand-in for a JavaScript property that may be
    `undefined`. */
module Wrappers {

  datatype Option<+T> = None | Some(value: T) {

    /** The value if present, otherwise `default` (JavaScript's `x ?? d`). */
    function GetOr(default: T): T {
      match this
      case Some(v) => v
      case None => default
    }
  }
}
